=== FILE: README.md ===
# slot / codeslot — a Dafny model of the version-control core

`slot` is a small version-control command-line tool written in JavaScript. It
has a companion server ("codeslot"), and the two share an S3 bucket. The CLI
keeps its state in JSON files under a hidden folder of the working directory:

- `oldSnapshot.json` / `newSnapshot.json` map paths to `{id, name, hash}` entries.
- `staging/` holds copies of staged files.
- `commits/<uuid>/` holds the committed copies and a `commit.json`.
- `logs.json` lists the commit records.
- `config.json` holds the login token and the pull state.
- `remote.json` holds the remote URL.

This project models these parts in Dafny:

- the commands `init`, `add <file>`, `add .`, the recursive snapshot walk, `commit`, `push`, `pull` and `remote add|remove|list`;
- the file watcher of the tracker;
- the server controllers that pick the highest-count commit, fetch commit manifests and file contents, and validate new repository names.

Modelling choices:

- Every file-system read becomes an input value and every write becomes part of a result value. A file that may be missing or unreadable is an `Option` or a small datatype.
- A file's SHA-256 hash is carried as an opaque digest string on the file node.
- JSON fields that may be absent are `Option`s, where `None` stands for `undefined`. The JavaScript rules for `undefined > x`, truthiness and `reduce` are written out where the code depends on them.

Three helper layers are modelled in full because the ids and keys depend on them:

- JavaScript's `trim()` and the `\s` whitespace class, in module `Strings`;
- POSIX `path.resolve` / `path.basename` / `path.dirname`, in `Paths`;
- UTF-8 plus base64, which make up the path id `Buffer.from(path).toString("base64")`, in `Encoding`, over strings of Unicode scalar values.

Modules, one per source file or concern:

- `Wrappers`: Option and Result.
- `Strings`, `Paths`, `Encoding`: the helper layers above.
- `Records`: the JSON records.
- `Ignore`: the ignore-file helpers.
- `Add`, `Compare`, `Init`, `Commit`, `Push`, `Pull`, `Remote`: the CLI controllers.
- `Selection`: the two "highest count" choices, one in the CLI and one on the server.
- `Tracker`: the watcher.
- `Repo`, `UserRepo`: the server controllers.
- `Consistency`: lemmas that relate one controller to another.

## Model

| member | source | states |
|---|---|---|
| Strings.Normalize | controllers/commit.js:13 | trim plus collapsing every whitespace run to one space: the result is the whitespace-separated words of the input joined by single spaces. It is empty exactly when the input is all whitespace, has no leading or trailing space and no two adjacent spaces, and keeps the non-space characters in order |
| Strings.NormalizeIdempotent | controllers/commit.js:13 | normalising a normalised message changes nothing |
| Strings.NormalizeFixed | controllers/commit.js:13 | a message is left unchanged by normalisation exactly when it has no edge space and is single-spaced |
| Strings.Words | controllers/commit.js:13 | each word of a text is a non-empty run of non-whitespace characters |
| Strings.NormalizeWords | controllers/commit.js:13 | trimming and then collapsing the whitespace runs gives the words of the input joined by single spaces |
| Strings.CollapseWords | controllers/commit.js:13 | on a text without edge whitespace, collapsing each whitespace run to one space gives its words joined by single spaces |
| Strings.TrimWords | controllers/commit.js:13 | trimming does not change the words of a text |
| Strings.JoinSplit | utils/ignoreUtils.js:8 | joining the pieces of a split on a separator gives back the original text |
| Strings.SplitJoin | utils/ignoreUtils.js:8 | splitting a join of separator-free pieces gives back the pieces |
| Strings.Contains | controllers/addController.js:27 | `includes` holds exactly when some index starts an occurrence of the needle |
| Strings.ReplaceChar | controllers/repoController.js:346-348 | every occurrence of one character is replaced, and every other character is kept in place |
| Paths.Resolve | controllers/addController.js:24 | `path.resolve` always yields an absolute path |
| Paths.ResolveIdempotent | controllers/addController.js:24 | resolving an already resolved path gives it back |
| Paths.ResolveChild | controllers/init.js:54 | resolving a plain name against a normalised directory appends the name as one segment |
| Paths.Basename | controllers/addController.js:96 | the base name never contains a slash |
| Paths.BasenameChild | controllers/addController.js:161 | the base name of `dir/name` is `name` |
| Encoding.Utf8RoundTrip | controllers/addController.js:31-33 | decoding the UTF-8 encoding of any string gives the string back |
| Encoding.Base64RoundTrip | controllers/addController.js:31-33 | decoding the base64 text of any byte sequence gives the bytes back |
| Encoding.PathIdInjective | controllers/addController.js:31-33 | two paths with the same id are the same path |
| Ignore.LoadSlotIgnore | utils/ignoreUtils.js:5-16 | an unreadable file gives no patterns; otherwise the patterns are the trimmed lines of the file that are non-empty and not comments, each one a well-formed pattern, in file order, with no such line left out |
| Ignore.KeepIndices | utils/ignoreUtils.js:10-11 | the kept lines are, in increasing order of position, exactly the lines the filter accepts |
| Ignore.PatternsKeepLine | utils/ignoreUtils.js:8-11 | every line whose trimmed form is non-empty and not a comment appears among the patterns |
| Ignore.PatternsConcat | utils/ignoreUtils.js:8-11 | the pattern filter distributes over concatenated line lists |
| Ignore.MapLinesConcat | utils/ignoreUtils.js:10 | trimming each line distributes over concatenated line lists |
| Ignore.LoadSaveRoundTrip | utils/ignoreUtils.js:5-16 | writing a non-empty pattern list one per line and loading it again gives the same list |
| Ignore.IsFileIgnored | controllers/addController.js:19-28 | a path is ignored exactly when some pattern, resolved against the working directory, occurs in it as a substring |
| Ignore.GitIgnoresGithub | controllers/addController.js:19-28 | substring matching makes the pattern `.git` ignore every path under a `.github` folder |
| Add.Classify | controllers/addController.js:70-93 | the reported change is new when there was no entry; unchanged when id and hash both match, whatever the name; new-or-moved when the id differs; renamed-and-modified when the id matches but hash and name differ; modified when the id and name match but the hash differs |
| Add.RenamedNeverReported | controllers/addController.js:70-93 | the renamed branch is unreachable once unchanged files are filtered out first |
| Add.AddFile | controllers/addController.js:44-108 | ignored files change nothing; an unreadable snapshot or file fails and changes nothing; otherwise the reported change is the classification against the file's old entry, and the file is staged exactly when that entry does not already hold its id and hash. A staged file gets the entry `{id, name, hash}` keyed by its argument, a copy in staging under its base name, and both snapshots equal afterwards; no other key changes |
| Add.AddTwice | controllers/addController.js:70-75 | adding the same unchanged file twice leaves the repository as the first add left it, and the second add reports unchanged |
| Add.NoRenameAfterAdd | controllers/addController.js:77-93 | after a staged add, a later add of that file can only report unchanged or modified |
| Add.DistinctFilesDistinctIds | controllers/addController.js:65-66 | files that resolve to different paths get different ids |
| Add.AddEach | controllers/addController.js:118-166 | the loop over top-level entries keeps every existing key, adds only eligible files, leaves every key that no eligible file names unchanged, extends the staged list, and changes nothing when it stages nothing |
| Add.AddEachRecords | controllers/addController.js:140-164 | after the loop every eligible file is recorded with its current id and hash |
| Add.AddEachQuiet | controllers/addController.js:140-144 | when every eligible file is already up to date, the loop stages nothing |
| Add.ToStage | controllers/addController.js:120-144 | the files to stage are eligible files of the listing that the snapshot does not record with their current id and hash |
| Add.ToStageComplete | controllers/addController.js:120-144 | every eligible file of the listing that is not up to date is among the files to stage |
| Add.AddEachStaged | controllers/addController.js:118-166 | with distinct names, the loop reports exactly the files to stage, in listing order |
| Add.AddEachStaging | controllers/addController.js:146-147 | with distinct plain names, staging receives each staged file under its name with its content, and every other staging key stays as it was |
| Add.Reached | controllers/addController.js:118-136 | the loop gets through a prefix of the listing: no earlier entry fails its stat or, when eligible, its read, and the entry after the prefix does |
| Add.AddAll | controllers/addController.js:109-178 | `add .` fails exactly when the snapshot cannot be read or some entry throws at its stat or its read; when nothing is staged nothing is written; otherwise both snapshots are equal and keep every old key |
| Add.AddAllStages | controllers/addController.js:118-166 | `add .` stages, in order, the eligible files it reaches that the old snapshot does not record as they are; staging receives each under its name with its content and keeps every other key |
| Add.AddAllRecords | controllers/addController.js:140-164 | after `add .`, every eligible file it reached is recorded with its current id and hash |
| Add.AddAllTwice | controllers/addController.js:109-178 | a second `add .` over the same listing stages nothing and changes nothing |
| Compare.WalkIsFold | utils/Compare.js:19-56 | the recursive walk equals one fold of a flat visit list over the tree in pre-order |
| Compare.FoldConcat | utils/Compare.js:19-56 | folding a concatenation is folding the halves in turn |
| Compare.FoldRecords | utils/Compare.js:33-53 | after the walk every visited folder and file is recorded under its relative path |
| Compare.FoldKeeps | utils/Compare.js:33-53 | an entry recorded before the walk stays recorded when no visit has its path |
| Compare.FoldQuiet | utils/Compare.js:46-48 | a walk over already-recorded entries changes nothing |
| Compare.FoldEntries | utils/Compare.js:33-53 | every key the walk adds or changes belongs to a visit and carries the base64 id of its path |
| Compare.FoldHasVisits | utils/Compare.js:36-53 | after the walk the path of every visit is a key: a folder is always written, and a file is written unless it was already recorded unchanged |
| Compare.VisitsNotIgnored | utils/Compare.js:25-31 | no visit is of an ignored path |
| Compare.AddTree | utils/Compare.js:58-61 | an unreadable snapshot changes nothing; otherwise both snapshot files end equal |
| Compare.AddTreeTwice | utils/Compare.js:19-61 | walking the same tree twice gives the same snapshot as walking it once |
| Compare.AddTreeEntries | utils/Compare.js:19-61 | after the walk, the keys are exactly the old keys plus the relative paths of the visited entries; every written or rewritten entry is at the path of a visited, non-ignored entry and carries the id of that path |
| Init.DefaultPatterns | controllers/init.js:32-33 | the default ignore file loads as the default pattern list |
| Init.CaptureKeys | controllers/init.js:49-73 | the captured snapshot's keys are the earlier keys plus the paths of all files in the tree; no folder gets an entry |
| Init.CaptureIsRecord | controllers/init.js:49-73 | the recursive walk writes exactly the entries of the flat file list, in walk order |
| Init.RecordKeys | controllers/init.js:62-67 | writing a file list adds exactly the listed paths as keys |
| Init.RecordLast | controllers/init.js:62-67 | a path holds the entry of the last file written under it: its path id, its name and its digest |
| Init.InitRepo | controllers/init.js:6-73 | init writes an empty config, an empty log, an empty new snapshot and the default ignore file; the old snapshot is replaced exactly when the walk throws on none of the paths it visits, and otherwise stays empty; when replaced it holds exactly the full paths of the files of the tree (including the files init itself wrote), each with the entry `{id, name, hash}` of its path id, its base name and its digest |
| Init.UnreadableFileKeepsEmpty | controllers/init.js:35-45 | a file of the tree whose read throws leaves the old snapshot empty, while the config and the ignore file are still written |
| Init.FilesVisited | controllers/init.js:50-63 | every file the walk records is a path it lists and `stat`s on the way |
| Commit.Metadata | controllers/commit.js:42-46 | a commit record has neither a count nor a push flag |
| Commit.CopyStaged | controllers/commit.js:33-39 | copying succeeds exactly when every staged entry is a file; existing files stay; on success the keys are the old ones plus the staged names |
| Commit.CopyStagedContents | controllers/commit.js:33-39 | each staged file's copy has that file's contents |
| Commit.CopyStagedUntouched | controllers/commit.js:33-39 | a committed file that no staged entry names keeps its contents |
| Commit.CommitRepo | controllers/commit.js:7-75 | a missing or empty message is rejected, and so is one of only spaces, with nothing written; a commit happens exactly when the message has a non-space character, the staging folder can be listed and every staged entry is a file; the commit folder then holds exactly the earlier files and the staged names except `commit.json`, whose place is taken by the metadata; it stores the message's words joined by single spaces with its id and date, appends the record to a readable log or creates the log, and leaves an unreadable log alone; a folder that held `commit.json` in one place only still does after any non-blank commit |
| Commit.CommitCopiesStaged | controllers/commit.js:29-50 | the commit folder holds every staged file with its contents, except a staged `commit.json`, which the metadata write replaces |
| Commit.RecommitSameMessage | controllers/commit.js:13-17 | an already normalised non-empty message is never rejected and is stored as it is |
| Commit.TwoCommits | controllers/commit.js:57-69 | two commits in a row append their two records to the log in order |
| Commit.CommitAppends | controllers/commit.js:57-69 | a commit onto a readable log keeps the earlier records and adds its own record last |
| Selection.ClientSelect | controllers/push.js:177-180 | when the first record has a count, the chosen record is the first of highest count; when it has none, the choice stays on the first record |
| Selection.ClientSelectIff | controllers/push.js:177-180 | with a counted first record, an index is chosen exactly when it is the first of highest count |
| Selection.ClientSelectCounts | controllers/push.js:177-180 | the client's choice depends only on the records' counts, so clearing a push flag does not move it |
| Selection.PushSelect | controllers/push.js:177-180 | an empty log yields no choice; otherwise the choice is the reduction above |
| Selection.ServerSelect | controllers/repoController.js:228-237 | there is no choice exactly when no count is positive; otherwise the choice is the first record of highest, positive count |
| Selection.ServerSelectMaximal | controllers/repoController.js:228-237 | no record has a larger count than the chosen one, and an equal count appears no earlier |
| Selection.ServerAgreesWithClient | controllers/repoController.js:228-237 | when the first record has a count and some count is positive, server and client choose the same record |
| Selection.HighestCommitRecord | controllers/repoController.js:221-253 | missing logs or no positive count give null; otherwise the answer is the first highest-count record, with a positive count |
| Selection.HighestCommitID | controllers/userRepo.js:23-49 | the answer is null exactly when there is no such record; otherwise it is that record's commit id |
| Push.ParsePushUrlIff | controllers/push.js:153-157 | a remote URL parses to a user and a repository exactly when it is the codeslot prefix, a slug, a slash and a slug |
| Push.OrderIsPermutation | controllers/push.js:223-281 | the upload order (files of a level first, then sub-folders) lists the same files as a plain depth-first walk |
| Push.UploadsOf | controllers/push.js:235 | each file becomes one upload whose key is the base, a slash and its relative path with backslashes turned into slashes |
| Push.CommitUploads | controllers/push.js:191-203 | the commit uploads succeed exactly when every entry of the commits folder is a directory |
| Push.CommitUploadsKeys | controllers/push.js:191-203 | every commit upload is a file upload whose key lies under `commits/<repo>/` |
| Push.ClearPush | controllers/push.js:213 | only the chosen record gets `push: false`, and every other record is kept |
| Push.PushAgainUpToDate | controllers/push.js:177-186 | pushing again from the log a successful push wrote back finds the chosen record cleared: up to date, nothing uploaded, the log kept |
| Push.Prepare | controllers/push.js:142-186 | a push proceeds exactly when a remote exists, parses, the login did not fail, logs exist and are non-empty, and the chosen record is flagged for push |
| Push.PushRepo | controllers/push.js:131-220 | a push succeeds exactly when it proceeds and every commit entry is a folder; a failed push keeps the logs; a successful one uploads every committed file and then `logs.json`, and clears the chosen push flag |
| Push.PushRepoUploadsFiles | controllers/push.js:191-211 | every file of every commit folder is among the uploads of a successful push |
| Push.PushAsWritten | controllers/push.js:131-281 | as written, a push can succeed only when no commit folder contains a file |
| Push.UploadAsWrittenOnlyEmpty | controllers/push.js:229-278 | as written, the upload of a folder succeeds only when the folder holds no files at any depth |
| Push.PushAsWrittenFailsWithFiles | controllers/push.js:257 | as written, a push whose commits hold a file fails, with no uploads and the logs unchanged |
| Pull.RepoIdentifier | controllers/pull.js:26-30 | the repository id exists exactly when the URL has at least three slash-separated parts, and is the last two joined by a slash |
| Pull.RepoIdentifierAgreesWithPush | controllers/pull.js:26-30 | for a URL that push accepts, pull derives the same `user/repo` name |
| Pull.FileKeys | controllers/pull.js:73-76 | one key per manifest entry under the commit prefix, plus a final key for `commit.json` |
| Pull.Values | controllers/pull.js:61-72 | the manifest values in order, one per entry |
| Pull.Download | controllers/pull.js:85-97 | the loop stops at the first iteration whose object or entry path is missing, or (without the folders made first) whose commit-folder copy has no folder to go into; it runs to the end exactly when no such iteration exists (with the folders made), never when there are more keys than entries, and keeps every file and folder written before it stopped |
| Pull.DownloadWrites | controllers/pull.js:85-97 | every iteration the loop got past wrote its object under the commit folder and at the working root, whether or not the loop later throws |
| Pull.DownloadKeeps | controllers/pull.js:85-97 | a file that no later entry writes keeps its contents, however the loop ends |
| Pull.ResetFlags | controllers/pull.js:108-113 | every snapshot entry keeps its key and gets `change` and `new` set to false and `pull` set to true |
| Pull.MarkPulled | controllers/pull.js:123-132 | a config whose pull state is "required" becomes "done"; any other config is unchanged |
| Pull.MarkPulledSettles | controllers/pull.js:125-128 | marking twice is marking once, and the result never asks for a pull |
| Pull.Fetch | controllers/pull.js:20-72 | with the remote, the config and the log object present, `logs.json` receives the log object as fetched; before the loop nothing touches the snapshot or config; a missing commit id also leaves folders and files alone; on reaching the loop the commit folder exists and holds the manifest object as `commitData.json` |
| Pull.PullAsWritten | controllers/pull.js:78-136 | as written, a pull never completes, and the snapshot and config are never rewritten |
| Pull.PullRepo | controllers/pull.js:11-136 | a pull completes exactly when the manifest is fetched and every entry has a path and an object; a failed pull leaves snapshot and config as they were; a completed one resets the snapshot flags, marks the pull done and keeps every earlier file |
| Pull.PullRepoWritesFiles | controllers/pull.js:85-97 | each manifest entry the loop reaches, in a sub-folder or not, is written to the commit folder and the working tree with the object stored under its key, whether or not the pull completes |
| Pull.LoopCompletes | controllers/pull.js:85-97 | the corrected loop runs to the end exactly when every manifest entry has a path and an object |
| Pull.PullAsWrittenOverwrites | controllers/pull.js:85-122 | as written, the non-empty slash-free files the loop reaches are written to the working tree although the pull fails and the snapshot is never reset |
| Pull.PullAsWrittenSubfolder | controllers/pull.js:89-91 | as written, and also with the loop bound fixed, a first entry in a sub-folder that does not exist yet throws before anything of the loop is written |
| Paths.Dirname | controllers/pull.js:95 | the folder of a path is the part before the slash that precedes its last segment, trailing slashes ignored; a path without a slash has folder `.`; only a rooted path has folder `/` or `//` |
| Paths.DirnameChild | controllers/pull.js:90 | the folder of `dir/name` is `dir` for a non-empty slash-free name and a folder that is neither empty nor the root |
| Paths.DirnameTrailingSlash | controllers/pull.js:95 | a trailing slash does not change the folder |
| Paths.DirnameRoot | controllers/pull.js:95 | a slash-free name under the root has folder `/` |
| Paths.DirnameMade | controllers/pull.js:95 | making the folders of a path makes its folder, unless that is `.` or the root |
| Paths.Ancestors | controllers/pull.js:95 | making the folders of a path makes exactly its non-empty prefixes that end before a slash |
| Remote.AddRemote | controllers/remote.js:47-59 | an invalid URL is rejected whatever the folder; a valid trimmed URL is stored with the time exactly when the folder exists; nothing changes otherwise |
| Remote.AddRemoteStable | controllers/remote.js:47-59 | adding the same URL again later keeps the URL and replaces only the time |
| Remote.RemoveRemote | controllers/remote.js:62-69 | a remote is removed exactly when the folder and the remote exist; otherwise nothing changes |
| Remote.RemoveAfterAdd | controllers/remote.js:47-69 | removing right after adding leaves the folder without a remote |
| Remote.ListRemote | controllers/remote.js:72-80 | listing changes nothing; it reports a missing folder, a missing remote, a file that does not parse, or the stored URL and time, each exactly in its case |
| Remote.ListAfterAdd | controllers/remote.js:47-80 | listing right after a successful add shows the trimmed URL and the time it was added |
| Remote.ListAfterRemove | controllers/remote.js:62-80 | listing right after a remove reports that there is no remote |
| Remote.RemoteUrlsNeverPushable | controllers/remote.js:50 | no URL that `remote add` accepts is accepted by push |
| Tracker.LoadSnapshot | tracker/file-tracker.js:18-24 | a missing file is an empty snapshot, a saved one is its contents, and only a corrupt one fails |
| Tracker.OnEvent | tracker/file-tracker.js:48-75 | adding or changing a file sets its hash; unlinking removes its key; folder events change nothing; every other key is untouched; a change with an equal hash writes nothing |
| Tracker.ReplayKeepsSync | tracker/file-tracker.js:48-75 | when the saved file equals the snapshot in memory, it still does after any run of events |
| Tracker.ReplayUntouched | tracker/file-tracker.js:48-75 | a path that no event names keeps its hash |
| Tracker.ChangeIdempotent | tracker/file-tracker.js:55-69 | a repeated change event has no further effect |
| Tracker.UnlinkUndoesAdd | tracker/file-tracker.js:48-75 | adding a new file and then unlinking it restores the snapshot |
| Tracker.Watch | tracker/file-tracker.js:38-42 | events on ignored paths change nothing; others are handled as above |
| Tracker.SegmentMatch | tracker/file-tracker.js:38-42 | a separator-bounded match of a name in a slash-joined path holds exactly when the name is one of its segments |
| Tracker.GithubNotIgnored | tracker/file-tracker.js:38-42 | unlike the add controller, the watcher does not ignore `.github` through the `.git` rule, but does ignore `.git` |
| Repo.CreateRepository | controllers/repoController.js:15-83 | a repository is created exactly when a name is given that is not blank, whose normalised form is valid, and a user is found; a blank name is reported as such; the stored name is `user/normalised name` |
| Repo.CreatedNameSplits | controllers/repoController.js:47 | the stored name splits into exactly the user and the normalised name |
| Repo.CreateStable | controllers/repoController.js:20-47 | creating with the already normalised name gives the same result |
| Repo.ParseDecimal | controllers/repoController.js:332-336 | `Number` of a number's decimal text gives the number |
| Repo.FindById | controllers/repoController.js:338-342 | the found entry is the first whose id is that number; when none is found, no entry has it |
| Repo.FetchFileContent | controllers/repoController.js:307-316 | contents come back exactly when the key `commits/<repo>/<commit>/<path>` exists, and they are the object stored under that key |
| Repo.FetchAfterUpload | controllers/repoController.js:307-316 | a file push uploads into a commit is fetched back with the uploaded contents by its path with backslashes turned into slashes |
| Repo.FetchFileContentByInode | controllers/repoController.js:319-361 | a non-numeric inode gives nothing; contents come only from the path of the first entry with that id, with backslashes turned into slashes |
| Repo.InodeAgreesWithPath | controllers/repoController.js:319-361 | when the first entry with a given id has a backslash-free path, fetching by that id's decimal text equals fetching by the path |
| UserRepo.FetchCommitData | controllers/userRepo.js:52-67 | a found manifest is appended and returned; a missing one returns nothing and keeps the collection |
| UserRepo.FetchAllGrows | controllers/userRepo.js:52-67 | fetching several commits keeps what was collected and adds one manifest per commit that was found |
| Consistency.InitThenRelativeAdd | controllers/init.js:36-37 | after init, adding a relative path reports a new file, because init keyed the snapshot by absolute paths and add keys it by the argument |
| Consistency.CommittedLogsNeverPushed | controllers/push.js:183-186 | logs written by commit have no push flag, so push reports up to date, uploads nothing and keeps the logs |

The source files store state in different places:

- commit writes `.myGit/commitLogs.json` and copies from `.myGit/staging`;
- add stages into `.slot/staging`;
- push and pull read `.slot/logs.json`;
- `remote` stores `.myGit/.remote.json` with `slotcode.in` URLs, while push reads `.slot/remote.json` and accepts only `codeslot.in` URLs.

Each controller is modelled on its own inputs, and the `Consistency` lemmas and `Remote.RemoteUrlsNeverPushable` state what these mismatches imply.

Other notes on the source:

- `utils/Compare.js` throws at line 8, on the undefined name `kfjdf`, and calls an undefined `handleDeletedFiles`. Only its `processDirectory` walk and the two snapshot writes are modelled.
- pull writes `oldsnapshot.json` (lower case), which is a different file from `oldSnapshot.json`.

## Left out

- File-system, S3, HTTP (axios), MongoDB and JWT calls: their results are inputs, and what they write is part of each result.
- SHA-256 is not computed: a file's hash is an opaque digest carried on its node.
- The commit uuid, the current date and the time of `remote add` are parameters.
- The JWT check of the stored session and the login prompt are reduced to a three-way outcome.
- Push.Prepare: `isLoggedIn` and `validateRepositoryAccess` (push.js:16-79) read `config.json` and `remote.json` from the `.slot` folder next to the CLI's own install directory, while `pushRepo` reads `remote.json` from the working directory (push.js:133-134) and the login prompt writes `config.json` there (push.js:111-113). The model reads one `.slot` folder for all of them, so it covers only a CLI run from its install directory. A failed validation ends the process with `process.exit(1)`; the model reports a user mismatch as `AccessDenied`, and the URL check there repeats the one `pushRepo` already made (`BadUrl`).
- The order in which `Promise.all` settles uploads and downloads is not modelled: the sequential order stands for it.
- JSON parsing is reduced to a parsed value or an unreadable marker. Bodies that parse into unexpected shapes, such as a `remote.json` without a `url`, are left out.
- `Object.values` order is taken as the manifest's listed order.
- `path.join` normalisation of manifest paths in pull is not modelled: the joined path is `dir + "/" + path`.
- Directory names returned by `readdir` are taken to be plain path segments.
- The server's URL list for a pull is taken to hold one URL per key.
- pull asks for the log's URL at the route `generate-downlaod-urls` and for the other URLs at `generate-download-urls`. The server behind those routes is not part of this model, and both are taken to answer alike.
- Pull.PullRepo: the snapshot reset reads `commitData.json` back from the commit folder; the model uses the manifest as fetched. The two differ only when an entry's own path is `commitData.json` and the loop overwrote the file.
- Init.InitRepo: the folder creations and the first five writes (init.js:21-33) are taken to succeed. Only the throws of the snapshot walk (`readdir`, `stat` and the file read, init.js:50-63) are modelled, through the set of failing paths.
- Pull.PullAsWrittenOverwrites: speaks only of entries whose path is a non-empty slash-free name. Other paths go through `path.join` normalisation, which is not modelled.
- Pull.Download: a file and a folder with the same name, and write errors other than a missing folder, are not modelled.
- Add.AddAll: a failing `readdir` of the working directory, and a failing `copyFile` into a missing staging folder, are not modelled. The listing is given, and copies always succeed. Add.AddFile likewise does not model a failing copy.
- The Mongo `ObjectId` check and all response plumbing (status codes, JSON bodies) in the server controllers are left out.
- Repo.CreateRepository: the outcome of `newRepository.save()` is not an input, so the model reports `Created` where the save fails. One example is the duplicate-name error that repoController.js:71-73 answers with 400.
- Strings are sequences of Unicode scalar values. JavaScript strings are UTF-16 and may hold lone surrogates, which `Buffer.from` turns into U+FFFD, so two such strings can share a path id. Paths read from the file system are well-formed, so this does not arise for them.
- The chokidar watcher setup itself is left out: only its event handlers and ignore rule are modelled.
- userController, models, routes, `index.js` (argument parsing), `compare.jsx` and `utils/snapshotUtils.js` are not part of this model.
- Repo.ParseNumber: recognises only optionally signed decimal integers with surrounding whitespace. Fractions, exponents, hex, `Infinity` and similar forms count as NaN, which is weaker than JavaScript's `Number`.
- Selection.ClientSelect: states the choice only through `IsFirstMax` when the first record has a count. With no count on the first record, only "stays on the first record" is stated, because the JavaScript reduce then never moves.

## Findings

| source | as written | input that shows it | evidently intended | confidence | as-written member | corrected member |
|---|---|---|---|---|---|---|
| controllers/pull.js:78-97 | The loop runs over all signed URLs, which are one more than the manifest entries because of the `commit.json` key. It reads `Object.values(commitData)[i].path` for every `i`, so the last iteration throws a TypeError. The files of the earlier iterations are already written to the working tree, but the outer catch skips the snapshot rewrite and the config update. | any pull that reaches the download loop, e.g. a manifest with one entry (two URLs) | loop over the manifest entries only, then rewrite the snapshot and mark the pull done | high, not executed | Pull.PullAsWrittenOverwrites | Pull.PullRepo |
| controllers/pull.js:89-91 | The commit-folder copy is written to `<commitDir>/<path>` without making its folder first; only the working-tree copy gets a `mkdir` (line 95). An entry inside a sub-folder therefore throws ENOENT, unless an earlier pull made that folder. | a manifest whose first entry has the path `src/app.js`, pulled into a fresh commit folder | make the folder of the commit-folder copy before writing it, as for the working-tree copy | high, not executed | Pull.PullAsWrittenSubfolder | Pull.PullRepoWritesFiles |
| controllers/push.js:257 | When a folder level holds files, the pre-signed URL reply `response` is read after the `try` block that declares it, so that level throws a ReferenceError before any of its files is uploaded. Any commit folder containing a file fails the push before `logs.json` is uploaded, and the push flag is never cleared. | a push whose chosen record is flagged and whose commit folder holds one file | upload each file and continue, then upload the logs and clear the flag | high, not executed | Push.PushAsWrittenFailsWithFiles | Push.PushRepoUploadsFiles |

=== FILE: add.dfy ===
/**
 * `slot add <file>` and `slot add .`: compare a file with its entry in
 * `.slot/oldSnapshot.json`, copy it into `.slot/staging` and record
 * `{id, name, hash}` for it in both snapshot files.
 */
module Add {
  import opened Wrappers
  import opened Paths
  import opened Encoding
  import opened Records
  import opened Ignore
  import Strings

  /** The message the controller prints for a file it is not ignoring. */
  datatype Change = Unchanged | RenamedModified | Renamed | Modified | NewOrMoved | Created

  /** The `.slot` files the add controllers read and write. `None` for a snapshot
      stands for a file that is missing or does not parse. `staging` maps the
      names of the files in `.slot/staging` to the digests of their contents. */
  datatype Repo = Repo(oldSnapshot: Option<Snapshot>, newSnapshot: Option<Snapshot>, staging: map<string, string>)

  /** The branch `addFileToRepo` takes for a file with the given id and hash. */
  function Classify(prior: Option<Entry>, file: string, id: string, hash: string): (c: Change)
    ensures c == Created <==> prior.None?
    ensures c == Unchanged <==> prior.Some? && SameIdAndHash(prior.value, id, hash)
    ensures c == NewOrMoved <==> prior.Some? && prior.value.id != Some(Text(id))
    ensures c == RenamedModified <==>
      prior.Some? && prior.value.id == Some(Text(id)) && prior.value.hash != Some(hash) && prior.value.name != Some(file)
    ensures c == Modified <==>
      prior.Some? && prior.value.id == Some(Text(id)) && prior.value.hash != Some(hash) && prior.value.name == Some(file)
  {
    match prior
    case None => Created
    case Some(e) =>
      if SameIdAndHash(e, id, hash) then Unchanged
      else if e.id == Some(Text(id)) then
        if e.name != Some(file) && e.hash != Some(hash) then RenamedModified
        else if e.name != Some(file) then Renamed
        else Modified
      else NewOrMoved
  }

  /** The "renamed" message is never printed: equal id and hash already mean
      "unchanged", whatever the stored name is, and a different hash with a
      different name is "renamed and modified". */
  lemma RenamedNeverReported(prior: Option<Entry>, file: string, id: string, hash: string)
    ensures Classify(prior, file, id, hash) != Renamed
  {
  }

  /** What `addFileToRepo` did. */
  datatype AddOutcome = Ignored | Failed | Reported(change: Change)

  predicate Staged(o: AddOutcome) {
    o.Reported? && o.change != Unchanged
  }

  datatype AddResult = AddResult(outcome: AddOutcome, repo: Repo)

  /** The entry `snapshot[file]`, when there is one. */
  function PriorEntry(snapshot: Snapshot, file: string): Option<Entry> {
    if file in snapshot then Some(snapshot[file]) else None
  }

  /** `addFileToRepo(file)` run in the absolute directory `cwd`. `ignoreFile` is
      the content of `.slotignore` and `digest` the hash of the file's content,
      `None` when the file cannot be read. A file that is not ignored, with a
      readable snapshot and content, is classified against its prior entry, and
      it is staged exactly when that entry does not already hold its id and hash. */
  function AddFile(cwd: string, file: string, ignoreFile: Option<string>, digest: Option<string>, repo: Repo): (r: AddResult)
    ensures r.outcome == Ignored <==> IsFileIgnored(Resolve(cwd, file), cwd, LoadSlotIgnore(ignoreFile))
    ensures r.outcome == Failed <==>
      !IsFileIgnored(Resolve(cwd, file), cwd, LoadSlotIgnore(ignoreFile)) && (repo.oldSnapshot.None? || digest.None?)
    ensures !IsFileIgnored(Resolve(cwd, file), cwd, LoadSlotIgnore(ignoreFile)) && repo.oldSnapshot.Some? && digest.Some? ==>
      r.outcome == Reported(Classify(PriorEntry(repo.oldSnapshot.value, file), file, PathId(Resolve(cwd, file)), digest.value))
    ensures Staged(r.outcome) <==>
      && !IsFileIgnored(Resolve(cwd, file), cwd, LoadSlotIgnore(ignoreFile))
      && repo.oldSnapshot.Some? && digest.Some?
      && !(file in repo.oldSnapshot.value && SameIdAndHash(repo.oldSnapshot.value[file], PathId(Resolve(cwd, file)), digest.value))
    ensures !Staged(r.outcome) ==> r.repo == repo
    ensures Staged(r.outcome) ==>
      repo.oldSnapshot.Some? && digest.Some? &&
      r.repo.oldSnapshot.Some? && r.repo.newSnapshot == r.repo.oldSnapshot &&
      ChangesOnly(repo.oldSnapshot.value, r.repo.oldSnapshot.value, file,
        Tracked(PathId(Resolve(cwd, file)), file, digest.value)) &&
      r.repo.staging == repo.staging[Basename(file) := digest.value]
  {
    var filePath := Resolve(cwd, file);
    if IsFileIgnored(filePath, cwd, LoadSlotIgnore(ignoreFile)) then AddResult(Ignored, repo)
    else if repo.oldSnapshot.None? || digest.None? then AddResult(Failed, repo)
    else
      var snapshot, hash, id := repo.oldSnapshot.value, digest.value, PathId(filePath);
      var change := Classify(PriorEntry(snapshot, file), file, id, hash);
      if change == Unchanged then AddResult(Reported(Unchanged), repo)
      else
        var updated := snapshot[file := Tracked(id, file, hash)];
        AddResult(Reported(change), Repo(Some(updated), Some(updated), repo.staging[Basename(file) := hash]))
  }

  /** `after` is `before` with the key `key` set to `e` and every other key as it was. */
  ghost predicate ChangesOnly(before: Snapshot, after: Snapshot, key: string, e: Entry) {
    key in after && after[key] == e &&
    forall k :: k != key ==> (k in after <==> k in before) && (k in before ==> after[k] == before[k])
  }

  /** Adding the same file twice without touching it in between: the second add
      reports "unchanged" and changes nothing. */
  lemma AddTwice(cwd: string, file: string, ignoreFile: Option<string>, digest: Option<string>, repo: Repo)
    ensures var first := AddFile(cwd, file, ignoreFile, digest, repo);
      var second := AddFile(cwd, file, ignoreFile, digest, first.repo);
      second.repo == first.repo &&
      (Staged(first.outcome) ==> second.outcome == Reported(Unchanged))
  {
  }

  /** After an add that staged the file, its entry's name is its key, so a later
      add of that file can only report unchanged, modified or moved. */
  lemma NoRenameAfterAdd(cwd: string, file: string, ignoreFile: Option<string>, digest: Option<string>, repo: Repo, later: string)
    requires Staged(AddFile(cwd, file, ignoreFile, digest, repo).outcome)
    ensures var s := AddFile(cwd, file, ignoreFile, digest, repo).repo.oldSnapshot.value;
      Classify(Some(s[file]), file, PathId(Resolve(cwd, file)), later) in {Unchanged, Modified}
  {
  }

  /** Two files that resolve to different paths never get the same id. */
  lemma DistinctFilesDistinctIds(cwd: string, f: string, g: string)
    requires Resolve(cwd, f) != Resolve(cwd, g)
    ensures PathId(Resolve(cwd, f)) != PathId(Resolve(cwd, g))
  {
    if PathId(Resolve(cwd, f)) == PathId(Resolve(cwd, g)) {
      PathIdInjective(Resolve(cwd, f), Resolve(cwd, g));
    }
  }

  /** A top-level listing entry that `addModifiedOrLogs` hashes and may stage. */
  predicate Eligible(cwd: string, patterns: seq<string>, n: Node) {
    n.File? && n.name != ".slot" && !IsFileIgnored(Resolve(cwd, n.name), cwd, patterns)
  }

  /** The entry `addModifiedOrLogs` would write for an eligible file. */
  function EntryFor(cwd: string, n: Node): Entry
    requires n.File?
  {
    Tracked(PathId(Resolve(cwd, n.name)), n.name, n.digest)
  }

  /** `snapshot` already records the file `n` as it is now. */
  predicate UpToDate(cwd: string, snapshot: Snapshot, n: Node)
    requires n.File?
  {
    n.name in snapshot && SameIdAndHash(snapshot[n.name], PathId(Resolve(cwd, n.name)), n.digest)
  }

  datatype Pass = Pass(snapshot: Snapshot, staging: map<string, string>, staged: seq<string>)

  /** One iteration of `addModifiedOrLogs` on the entry `n`: an eligible file
      that is not up to date is recorded, copied to staging and reported. */
  function Step(cwd: string, patterns: seq<string>, p: Pass, n: Node): Pass {
    if !Eligible(cwd, patterns, n) || UpToDate(cwd, p.snapshot, n) then p
    else Pass(p.snapshot[n.name := EntryFor(cwd, n)], p.staging[Basename(n.name) := n.digest], p.staged + [n.name])
  }

  /** `after` keeps every key of `before`, gains only keys of eligible entries,
      and changes no key that no eligible entry names. */
  ghost predicate SnapshotGrows(cwd: string, patterns: seq<string>, entries: seq<Node>, before: Snapshot, after: Snapshot) {
    && (forall k :: k in before ==> k in after)
    && (forall k :: k in after && k !in before ==> exists i :: 0 <= i < |entries| && Eligible(cwd, patterns, entries[i]) && entries[i].name == k)
    && (forall k :: k in before && (forall i :: 0 <= i < |entries| && Eligible(cwd, patterns, entries[i]) ==> entries[i].name != k) ==> after[k] == before[k])
  }

  /** The loop of `addModifiedOrLogs` over the remaining top-level entries. */
  function AddEach(cwd: string, patterns: seq<string>, entries: seq<Node>, p: Pass): (r: Pass)
    ensures SnapshotGrows(cwd, patterns, entries, p.snapshot, r.snapshot)
    ensures |r.staged| >= |p.staged| && r.staged[..|p.staged|] == p.staged
    ensures |r.staged| == |p.staged| ==> r == p
    decreases |entries|
  {
    if entries == [] then p
    else
      var next := Step(cwd, patterns, p, entries[0]);
      var r := AddEach(cwd, patterns, entries[1..], next);
      AddEachStep(cwd, patterns, entries, p, next, r);
      assert r.staged[..|p.staged|] == r.staged[..|next.staged|][..|p.staged|];
      r
  }

  /** The key facts of `AddEach` carry over from the rest of the listing to the
      whole of it, across the first entry's step. */
  lemma AddEachStep(cwd: string, patterns: seq<string>, entries: seq<Node>, p: Pass, next: Pass, r: Pass)
    requires entries != []
    requires next == Step(cwd, patterns, p, entries[0])
    requires SnapshotGrows(cwd, patterns, entries[1..], next.snapshot, r.snapshot)
    ensures SnapshotGrows(cwd, patterns, entries, p.snapshot, r.snapshot)
  {
    var n := entries[0];
    var rest := entries[1..];
    assert forall i :: 0 <= i < |rest| ==> rest[i] == entries[i + 1];
    forall k | k in r.snapshot && k !in p.snapshot
      ensures exists i :: 0 <= i < |entries| && Eligible(cwd, patterns, entries[i]) && entries[i].name == k
    {
      if k in next.snapshot {
        assert entries[0].name == k && Eligible(cwd, patterns, entries[0]);
      } else {
        var i :| 0 <= i < |rest| && Eligible(cwd, patterns, rest[i]) && rest[i].name == k;
        assert entries[i + 1] == rest[i];
      }
    }
    forall k | k in p.snapshot && (forall i :: 0 <= i < |entries| && Eligible(cwd, patterns, entries[i]) ==> entries[i].name != k)
      ensures r.snapshot[k] == p.snapshot[k]
    {
      assert forall i :: 0 <= i < |rest| && Eligible(cwd, patterns, rest[i]) ==> rest[i].name != k;
      assert !Eligible(cwd, patterns, n) || n.name != k;
    }
  }

  /** After the loop every eligible file is recorded as it is now. */
  lemma {:induction false} AddEachRecords(cwd: string, patterns: seq<string>, entries: seq<Node>, p: Pass)
    requires DistinctNames(entries)
    ensures forall i :: 0 <= i < |entries| && Eligible(cwd, patterns, entries[i]) ==>
      UpToDate(cwd, AddEach(cwd, patterns, entries, p).snapshot, entries[i])
    decreases |entries|
  {
    if entries != [] {
      var n := entries[0];
      var next := Step(cwd, patterns, p, n);
      var rest := entries[1..];
      AddEachRecords(cwd, patterns, rest, next);
      var r := AddEach(cwd, patterns, rest, next);
      assert r == AddEach(cwd, patterns, entries, p);
      forall i | 0 <= i < |entries| && Eligible(cwd, patterns, entries[i])
        ensures UpToDate(cwd, r.snapshot, entries[i])
      {
        if i == 0 {
          assert UpToDate(cwd, next.snapshot, n);
          assert forall j :: 0 <= j < |rest| ==> rest[j].name != n.name by {
            forall j | 0 <= j < |rest| ensures rest[j].name != n.name {
              assert rest[j] == entries[j + 1];
            }
          }
        } else {
          assert entries[i] == rest[i - 1];
        }
      }
    }
  }

  /** When every eligible file is already recorded as it is, the loop stages nothing. */
  lemma {:induction false} AddEachQuiet(cwd: string, patterns: seq<string>, entries: seq<Node>, p: Pass)
    requires forall i :: 0 <= i < |entries| && Eligible(cwd, patterns, entries[i]) ==> UpToDate(cwd, p.snapshot, entries[i])
    ensures AddEach(cwd, patterns, entries, p) == p
    decreases |entries|
  {
    if entries != [] {
      assert forall i :: 1 <= i < |entries| ==> entries[i] == entries[1..][i - 1];
      AddEachQuiet(cwd, patterns, entries[1..], p);
    }
  }

  /** The entries the loop stages when it starts from `snapshot`: the eligible
      files `snapshot` does not record as they are now, in listing order. */
  function ToStage(cwd: string, patterns: seq<string>, snapshot: Snapshot, entries: seq<Node>): (r: seq<Node>)
    ensures |r| <= |entries|
    ensures forall i :: 0 <= i < |r| ==> r[i] in entries && Eligible(cwd, patterns, r[i]) && !UpToDate(cwd, snapshot, r[i])
    decreases |entries|
  {
    if entries == [] then []
    else
      var n := entries[0];
      var rest := ToStage(cwd, patterns, snapshot, entries[1..]);
      (if Eligible(cwd, patterns, n) && !UpToDate(cwd, snapshot, n) then [n] else []) + rest
  }

  /** Every eligible file that is not up to date is among those to stage. */
  lemma {:induction false} ToStageComplete(cwd: string, patterns: seq<string>, snapshot: Snapshot, entries: seq<Node>)
    ensures forall i :: 0 <= i < |entries| && Eligible(cwd, patterns, entries[i]) && !UpToDate(cwd, snapshot, entries[i]) ==>
      entries[i] in ToStage(cwd, patterns, snapshot, entries)
    decreases |entries|
  {
    if entries != [] {
      ToStageComplete(cwd, patterns, snapshot, entries[1..]);
      forall i | 1 <= i < |entries| ensures entries[i] == entries[1..][i - 1] {
      }
    }
  }

  function Names(nodes: seq<Node>): (r: seq<string>)
    ensures |r| == |nodes| && forall i :: 0 <= i < |nodes| ==> r[i] == nodes[i].name
  {
    seq(|nodes|, i requires 0 <= i < |nodes| => nodes[i].name)
  }

  /** Recording a file under a key no entry names does not change what is to stage. */
  lemma {:induction false} ToStageFrame(cwd: string, patterns: seq<string>, snapshot: Snapshot, key: string, e: Entry, entries: seq<Node>)
    requires forall i :: 0 <= i < |entries| ==> entries[i].name != key
    ensures ToStage(cwd, patterns, snapshot[key := e], entries) == ToStage(cwd, patterns, snapshot, entries)
    decreases |entries|
  {
    if entries != [] {
      assert entries[0].name != key;
      ToStageFrame(cwd, patterns, snapshot, key, e, entries[1..]);
    }
  }

  /** The names the loop reports as staged are those of `ToStage`, in order. */
  lemma {:induction false} AddEachStaged(cwd: string, patterns: seq<string>, entries: seq<Node>, p: Pass)
    requires DistinctNames(entries)
    ensures AddEach(cwd, patterns, entries, p).staged == p.staged + Names(ToStage(cwd, patterns, p.snapshot, entries))
    decreases |entries|
  {
    if entries != [] {
      assert DistinctNames(entries[1..]) by {
        RestDistinct(entries);
      }
      AddEachStaged(cwd, patterns, entries[1..], Step(cwd, patterns, p, entries[0]));
      AddEachStagedStep(cwd, patterns, entries, p);
    }
  }

  /** The step of `AddEachStaged` across the first entry. */
  lemma AddEachStagedStep(cwd: string, patterns: seq<string>, entries: seq<Node>, p: Pass)
    requires entries != [] && DistinctNames(entries)
    requires var next := Step(cwd, patterns, p, entries[0]);
      AddEach(cwd, patterns, entries[1..], next).staged == next.staged + Names(ToStage(cwd, patterns, next.snapshot, entries[1..]))
    ensures AddEach(cwd, patterns, entries, p).staged == p.staged + Names(ToStage(cwd, patterns, p.snapshot, entries))
  {
    var n, rest := entries[0], entries[1..];
    assert entries == [n] + rest;
    StepFrame(cwd, patterns, entries, p);
    var next := Step(cwd, patterns, p, n);
    var tr := ToStage(cwd, patterns, p.snapshot, rest);
    var tail := AddEach(cwd, patterns, rest, next).staged;
    assert tail == next.staged + Names(tr);
    assert AddEach(cwd, patterns, entries, p).staged == tail;
    StagedHead(cwd, patterns, n, rest, p, tr, tail);
  }

  /** Where the first entry's name goes in the list of staged names. */
  lemma StagedHead(cwd: string, patterns: seq<string>, n: Node, rest: seq<Node>, p: Pass, tr: seq<Node>, tail: seq<string>)
    requires tr == ToStage(cwd, patterns, p.snapshot, rest)
    requires tail == Step(cwd, patterns, p, n).staged + Names(tr)
    ensures tail == p.staged + Names(ToStage(cwd, patterns, p.snapshot, [n] + rest))
  {
    var entries := [n] + rest;
    assert entries[0] == n && entries[1..] == rest;
    var ts := ToStage(cwd, patterns, p.snapshot, entries);
    if Eligible(cwd, patterns, n) && !UpToDate(cwd, p.snapshot, n) {
      assert ts == [n] + tr;
      NamesCons(n, tr);
      Strings.Assoc(p.staged, [n.name], Names(tr));
    } else {
      assert ts == tr;
    }
  }


  /** A step on the first entry does not change what is to stage among the rest. */
  lemma StepFrame(cwd: string, patterns: seq<string>, entries: seq<Node>, p: Pass)
    requires entries != [] && DistinctNames(entries)
    ensures var next := Step(cwd, patterns, p, entries[0]);
      ToStage(cwd, patterns, next.snapshot, entries[1..]) == ToStage(cwd, patterns, p.snapshot, entries[1..])
  {
    var n := entries[0];
    if Step(cwd, patterns, p, n) != p {
      RestOtherNames(entries);
      ToStageFrame(cwd, patterns, p.snapshot, n.name, EntryFor(cwd, n), entries[1..]);
    }
  }

  lemma NamesCons(n: Node, ns: seq<Node>)
    ensures Names([n] + ns) == [n.name] + Names(ns)
  {
  }

  lemma RestDistinct(entries: seq<Node>)
    requires entries != [] && DistinctNames(entries)
    ensures DistinctNames(entries[1..])
  {
    forall i, j | 0 <= i < j < |entries| - 1 ensures entries[1..][i].name != entries[1..][j].name {
      assert entries[1..][i] == entries[i + 1] && entries[1..][j] == entries[j + 1];
    }
  }

  lemma RestOtherNames(entries: seq<Node>)
    requires entries != [] && DistinctNames(entries)
    ensures forall i :: 0 <= i < |entries| - 1 ==> entries[1..][i].name != entries[0].name
  {
    forall i | 0 <= i < |entries| - 1 ensures entries[1..][i].name != entries[0].name {
      assert entries[1..][i] == entries[i + 1];
    }
  }

  /** A name as `readdir` lists it: non-empty and without a slash. */
  predicate PlainName(name: string) {
    name != "" && '/' !in name
  }

  /** `after` is `before` with each node of `ts` put under its name with its
      digest, and every other key as it was. */
  ghost predicate StagedInto(before: map<string, string>, after: map<string, string>, ts: seq<Node>) {
    && (forall i :: 0 <= i < |ts| ==> ts[i].File? && ts[i].name in after && after[ts[i].name] == ts[i].digest)
    && (forall k :: k !in Names(ts) ==> (k in after <==> k in before) && (k in before ==> after[k] == before[k]))
  }

  /** Staging receives each staged file under its name with its content; every
      other key of staging is left as it was. */
  lemma {:induction false} AddEachStaging(cwd: string, patterns: seq<string>, entries: seq<Node>, p: Pass)
    requires DistinctNames(entries)
    requires forall i :: 0 <= i < |entries| ==> PlainName(entries[i].name)
    ensures StagedInto(p.staging, AddEach(cwd, patterns, entries, p).staging, ToStage(cwd, patterns, p.snapshot, entries))
    decreases |entries|
  {
    if entries != [] {
      var rest := entries[1..];
      assert DistinctNames(rest) by {
        RestDistinct(entries);
      }
      assert forall i :: 0 <= i < |rest| ==> PlainName(rest[i].name) by {
        assert forall i :: 0 <= i < |rest| ==> rest[i] == entries[i + 1];
      }
      var next := Step(cwd, patterns, p, entries[0]);
      AddEachStaging(cwd, patterns, rest, next);
      AddEachStagingStep(cwd, patterns, entries, p);
    }
  }

  /** The step of `AddEachStaging` across the first entry. */
  lemma AddEachStagingStep(cwd: string, patterns: seq<string>, entries: seq<Node>, p: Pass)
    requires entries != [] && DistinctNames(entries) && PlainName(entries[0].name)
    requires var next := Step(cwd, patterns, p, entries[0]);
      StagedInto(next.staging, AddEach(cwd, patterns, entries[1..], next).staging, ToStage(cwd, patterns, next.snapshot, entries[1..]))
    ensures StagedInto(p.staging, AddEach(cwd, patterns, entries, p).staging, ToStage(cwd, patterns, p.snapshot, entries))
  {
    var n, rest := entries[0], entries[1..];
    assert entries == [n] + rest;
    StepFrame(cwd, patterns, entries, p);
    var next := Step(cwd, patterns, p, n);
    var tr := ToStage(cwd, patterns, p.snapshot, rest);
    var after := AddEach(cwd, patterns, rest, next).staging;
    assert AddEach(cwd, patterns, entries, p).staging == after;
    assert n.name !in Names(tr) by {
      RestOtherNames(entries);
      forall i | 0 <= i < |tr| ensures tr[i].name != n.name {
        assert tr[i] in rest;
      }
    }
    StagingHead(cwd, patterns, n, rest, p, tr, after);
  }

  /** Where the first entry's content goes in staging. */
  lemma StagingHead(cwd: string, patterns: seq<string>, n: Node, rest: seq<Node>, p: Pass, tr: seq<Node>, after: map<string, string>)
    requires PlainName(n.name) && n.name !in Names(tr)
    requires tr == ToStage(cwd, patterns, p.snapshot, rest)
    requires StagedInto(Step(cwd, patterns, p, n).staging, after, tr)
    ensures StagedInto(p.staging, after, ToStage(cwd, patterns, p.snapshot, [n] + rest))
  {
    var entries := [n] + rest;
    assert entries[0] == n && entries[1..] == rest;
    var ts := ToStage(cwd, patterns, p.snapshot, entries);
    if Eligible(cwd, patterns, n) && !UpToDate(cwd, p.snapshot, n) {
      assert ts == [n] + tr;
      assert Step(cwd, patterns, p, n).staging == p.staging[n.name := n.digest] by {
        BasenamePlain(n.name);
      }
      StagedCons(p.staging, Step(cwd, patterns, p, n).staging, after, n, tr);
    } else {
      assert ts == tr;
    }
  }

  /** Staging one more file in front of the others. */
  lemma StagedCons(before: map<string, string>, mid: map<string, string>, after: map<string, string>, n: Node, tr: seq<Node>)
    requires n.File? && mid == before[n.name := n.digest]
    requires n.name !in Names(tr)
    requires StagedInto(mid, after, tr)
    ensures StagedInto(before, after, [n] + tr)
  {
    var ts := [n] + tr;
    NamesCons(n, tr);
    forall i | 0 <= i < |ts| ensures ts[i].File? && ts[i].name in after && after[ts[i].name] == ts[i].digest {
      if i > 0 {
        assert ts[i] == tr[i - 1];
      }
    }
  }

  /** Why `addModifiedOrLogs` stops early: the names whose `fs.stat` throws, and
      the names whose content cannot be read. */
  datatype Faults = Faults(statFails: set<string>, readFails: set<string>)

  /** The loop throws at `n`: every entry is stat-ed first, and only an eligible
      file is read. */
  predicate Stops(cwd: string, patterns: seq<string>, faults: Faults, n: Node) {
    n.name in faults.statFails || (Eligible(cwd, patterns, n) && n.name in faults.readFails)
  }

  /** How many entries the loop gets through before it throws. */
  function Reached(cwd: string, patterns: seq<string>, faults: Faults, entries: seq<Node>): (k: nat)
    ensures k <= |entries|
    ensures forall i :: 0 <= i < k ==> !Stops(cwd, patterns, faults, entries[i])
    ensures k < |entries| ==> Stops(cwd, patterns, faults, entries[k])
    decreases |entries|
  {
    if entries == [] || Stops(cwd, patterns, faults, entries[0]) then 0
    else
      var k := Reached(cwd, patterns, faults, entries[1..]);
      assert forall i :: 1 <= i <= k ==> entries[i] == entries[1..][i - 1];
      1 + k
  }

  datatype AddAllResult = AddAllResult(failed: bool, staged: seq<string>, repo: Repo)

  /** `addModifiedOrLogs()` in `cwd`, whose top-level entries are `listing`. The
      loop stops at the first entry in `faults`' sense; what it wrote before
      stays written. The snapshot files are written only when at least one file
      was staged. */
  function AddAll(cwd: string, ignoreFile: Option<string>, listing: seq<Node>, faults: Faults, repo: Repo): (r: AddAllResult)
    ensures r.failed <==>
      || repo.oldSnapshot.None?
      || exists i :: 0 <= i < |listing| && Stops(cwd, LoadSlotIgnore(ignoreFile), faults, listing[i])
    ensures r.staged == [] ==> r.repo == repo
    ensures r.staged != [] ==> repo.oldSnapshot.Some? && r.repo.oldSnapshot.Some? && r.repo.newSnapshot == r.repo.oldSnapshot
    ensures r.staged != [] ==> forall k :: k in repo.oldSnapshot.value ==> k in r.repo.oldSnapshot.value
  {
    if repo.oldSnapshot.None? then AddAllResult(true, [], repo)
    else
      var patterns := LoadSlotIgnore(ignoreFile);
      var k := Reached(cwd, patterns, faults, listing);
      var p := AddEach(cwd, patterns, listing[..k], Pass(repo.oldSnapshot.value, repo.staging, []));
      var failed := k < |listing|;
      if p.staged == [] then AddAllResult(failed, [], repo)
      else AddAllResult(failed, p.staged, Repo(Some(p.snapshot), Some(p.snapshot), p.staging))
  }

  /** The entries `add .` gets through before it throws. */
  function Done(cwd: string, ignoreFile: Option<string>, listing: seq<Node>, faults: Faults): seq<Node> {
    listing[..Reached(cwd, LoadSlotIgnore(ignoreFile), faults, listing)]
  }

  lemma DoneDistinct(cwd: string, ignoreFile: Option<string>, listing: seq<Node>, faults: Faults)
    requires DistinctNames(listing)
    ensures DistinctNames(Done(cwd, ignoreFile, listing, faults))
  {
  }

  /** `add .` stages, in order, the eligible files it reaches that the old
      snapshot does not record as they are; each lands in staging under its
      name with its content, and every other staging entry stays as it was. */
  lemma AddAllStages(cwd: string, ignoreFile: Option<string>, listing: seq<Node>, faults: Faults, repo: Repo)
    requires repo.oldSnapshot.Some?
    requires DistinctNames(listing)
    requires forall i :: 0 <= i < |listing| ==> PlainName(listing[i].name)
    ensures var r := AddAll(cwd, ignoreFile, listing, faults, repo);
      var ts := ToStage(cwd, LoadSlotIgnore(ignoreFile), repo.oldSnapshot.value, Done(cwd, ignoreFile, listing, faults));
      r.staged == Names(ts) && StagedInto(repo.staging, r.repo.staging, ts)
  {
    var patterns := LoadSlotIgnore(ignoreFile);
    var done := Done(cwd, ignoreFile, listing, faults);
    var p0 := Pass(repo.oldSnapshot.value, repo.staging, []);
    DoneDistinct(cwd, ignoreFile, listing, faults);
    AddEachStaged(cwd, patterns, done, p0);
    assert [] + Names(ToStage(cwd, patterns, p0.snapshot, done)) == Names(ToStage(cwd, patterns, p0.snapshot, done));
    AddEachStaging(cwd, patterns, done, p0);
  }

  /** After `add .`, every eligible file it reached is recorded in the snapshot
      with its current id and hash. */
  lemma AddAllRecords(cwd: string, ignoreFile: Option<string>, listing: seq<Node>, faults: Faults, repo: Repo)
    requires repo.oldSnapshot.Some?
    requires DistinctNames(listing)
    ensures var r := AddAll(cwd, ignoreFile, listing, faults, repo); var done := Done(cwd, ignoreFile, listing, faults);
      forall i :: 0 <= i < |done| && Eligible(cwd, LoadSlotIgnore(ignoreFile), done[i]) ==>
        UpToDate(cwd, r.repo.oldSnapshot.value, done[i])
  {
    var patterns := LoadSlotIgnore(ignoreFile);
    var done := Done(cwd, ignoreFile, listing, faults);
    DoneDistinct(cwd, ignoreFile, listing, faults);
    AddEachRecords(cwd, patterns, done, Pass(repo.oldSnapshot.value, repo.staging, []));
  }

  /** Running `slot add .` a second time over the same unchanged listing, with
      nothing failing, stages nothing and leaves every file as it is. */
  lemma AddAllTwice(cwd: string, ignoreFile: Option<string>, listing: seq<Node>, repo: Repo)
    requires DistinctNames(listing)
    ensures var first := AddAll(cwd, ignoreFile, listing, Faults({}, {}), repo);
      var second := AddAll(cwd, ignoreFile, listing, Faults({}, {}), first.repo);
      second.staged == [] && second.repo == first.repo
  {
    if repo.oldSnapshot.Some? {
      var patterns := LoadSlotIgnore(ignoreFile);
      var k := Reached(cwd, patterns, Faults({}, {}), listing);
      assert k == |listing| && listing[..k] == listing;
      var p0 := Pass(repo.oldSnapshot.value, repo.staging, []);
      var p := AddEach(cwd, patterns, listing, p0);
      if p.staged != [] {
        AddEachRecords(cwd, patterns, listing, p0);
        AddEachQuiet(cwd, patterns, listing, Pass(p.snapshot, p.staging, []));
      }
    }
  }
}

=== FILE: commit.dfy ===
/**
 * `slot commit -m <message>`: normalise the message, copy the staged files
 * into `.myGit/commits/<commitID>`, write `commit.json` there and append the
 * same record to `.myGit/commitLogs.json`.
 */
module Commit {
  import opened Wrappers
  import opened Strings
  import opened Records

  /** `commitLogs.json`: absent, unreadable (or not a JSON array), or a list of records. */
  datatype LogFile = Missing | Unreadable | Present(records: seq<LogRecord>)

  /** A commit directory: the copied files (name to digest) and `commit.json`.
      The folder's `commit.json` is either the metadata (`metadata` is `Some`
      and `files` has no `commit.json`) or a copied file in `files`. */
  datatype CommitDir = CommitDir(files: map<string, string>, metadata: Option<LogRecord>)

  /** The `.myGit` folder. `staging` is `None` when it cannot be listed. */
  datatype MyGit = MyGit(staging: Option<seq<Node>>, commits: map<string, CommitDir>, log: LogFile)

  /** How `commitRepo` ended. `logged` says whether the log file was rewritten. */
  datatype CommitOutcome = Blank | OnlySpaces | CopyFailed | Committed(record: LogRecord, logged: bool)

  /** The `{commitID, message, date}` record: it has no `count` and no `push`. */
  function Metadata(id: string, message: string, date: string): (r: LogRecord)
    ensures r.count.None? && r.push.None?
  {
    LogRecord(Some(id), Some(message), Some(date), None, None)
  }

  /** Some entry of `entries` is named `k`. */
  predicate Named(entries: seq<Node>, k: string) {
    exists i :: 0 <= i < |entries| && entries[i].name == k
  }

  datatype Copied = Copied(files: map<string, string>, ok: bool)

  /** Copies the staged entries in order; copying a directory fails and stops the loop. */
  function CopyStaged(entries: seq<Node>, files: map<string, string>): (r: Copied)
    ensures r.ok <==> forall i :: 0 <= i < |entries| ==> entries[i].File?
    ensures forall k :: k in files ==> k in r.files
    ensures r.ok ==> forall k :: k in r.files <==> k in files || Named(entries, k)
    decreases |entries|
  {
    if entries == [] then Copied(files, true)
    else match entries[0]
      case Dir(_, _) => Copied(files, false)
      case File(name, digest) =>
        var r := CopyStaged(entries[1..], files[name := digest]);
        assert forall i :: 1 <= i < |entries| ==> entries[i] == entries[1..][i - 1];
        r
  }

  /** Every staged file ends up in the commit under its own name with its own content. */
  lemma {:induction false} CopyStagedContents(entries: seq<Node>, files: map<string, string>)
    requires DistinctNames(entries)
    requires CopyStaged(entries, files).ok
    ensures forall i :: 0 <= i < |entries| ==> CopyStaged(entries, files).files[entries[i].name] == entries[i].digest
    decreases |entries|
  {
    if entries != [] {
      var rest := entries[1..];
      var f := files[entries[0].name := entries[0].digest];
      assert forall i :: 1 <= i < |entries| ==> entries[i] == rest[i - 1];
      CopyStagedContents(rest, f);
      CopyStagedUntouched(rest, f, entries[0].name);
    }
  }

  lemma {:induction false} CopyStagedUntouched(entries: seq<Node>, files: map<string, string>, k: string)
    requires k in files
    requires forall i :: 0 <= i < |entries| ==> entries[i].name != k
    ensures CopyStaged(entries, files).files[k] == files[k]
    decreases |entries|
  {
    if entries != [] && entries[0].File? {
      CopyStagedUntouched(entries[1..], files[entries[0].name := entries[0].digest], k);
    }
  }

  /** The commit folder `id` before the commit: what is there, or an empty folder. */
  function Existing(g: MyGit, id: string): CommitDir {
    if id in g.commits then g.commits[id] else CommitDir(map[], None)
  }

  /** The name of the metadata file in a commit folder. */
  const MetadataFile: string := "commit.json"

  /** The folder's `commit.json` is held in one place only. */
  predicate OneCommitJson(d: CommitDir) {
    d.metadata.Some? ==> MetadataFile !in d.files
  }

  /** `commitRepo(message)` with the generated `id` and the current `date`.
      `message` is `None` when the argument is missing or not a string. A commit
      happens exactly when the message has a non-whitespace character, the
      staging folder can be listed and every staged entry is a file; the message
      recorded is the words of the given one joined by single spaces. The
      metadata is written after the copies, so it replaces a staged file named
      `commit.json`; a copy loop that stops after copying such a file leaves
      that copy in place of any earlier metadata. */
  function CommitRepo(message: Option<string>, id: string, date: string, g: MyGit): (r: (CommitOutcome, MyGit))
    ensures r.0 == Blank <==> message.None? || message.value == ""
    ensures r.0 == OnlySpaces <==> message.Some? && message.value != "" && AllSpace(message.value)
    ensures r.0 in {Blank, OnlySpaces} ==> r.1 == g
    ensures r.0.Committed? <==>
      && message.Some? && !AllSpace(message.value) && g.staging.Some?
      && CopyStaged(g.staging.value, Existing(g, id).files).ok
    ensures r.0.Committed? ==> r.0.record.message == Some(Join(Words(message.value), ' '))
    ensures r.0.Committed? ==> (message.Some? && r.0.record.message.Some? &&
      var m := r.0.record.message.value;
      r.0.record == Metadata(id, m, date) && m != "" &&
      NoEdgeSpace(m) && SingleSpaced(m) && Strip(m) == Strip(message.value) &&
      id in r.1.commits && r.1.commits[id].metadata == Some(r.0.record) &&
      MetadataFile !in r.1.commits[id].files)
    ensures r.0.Committed? ==> forall k :: k in r.1.commits[id].files <==>
      k != MetadataFile && (k in Existing(g, id).files || Named(g.staging.value, k))
    ensures r.0 !in {Blank, OnlySpaces} ==> id in r.1.commits && (OneCommitJson(Existing(g, id)) ==> OneCommitJson(r.1.commits[id]))
    ensures r.0.Committed? ==> r.0.logged == !g.log.Unreadable?
    ensures r.0.Committed? ==> (r.1.log ==
      match g.log
      case Missing => Present([r.0.record])
      case Present(rs) => Present(rs + [r.0.record])
      case Unreadable => Unreadable)
    ensures !r.0.Committed? ==> r.1.log == g.log
  {
    if message.None? || message.value == "" then (Blank, g)
    else
      var m := Normalize(message.value);
      if m == "" then (OnlySpaces, g)
      else
        var existing := Existing(g, id);
        match g.staging
        case None => (CopyFailed, g.(commits := g.commits[id := existing]))
        case Some(entries) =>
          var copied := CopyStaged(entries, existing.files);
          if !copied.ok then
            var metadata := if MetadataFile in copied.files then None else existing.metadata;
            (CopyFailed, g.(commits := g.commits[id := CommitDir(copied.files, metadata)]))
          else
            var rec := Metadata(id, m, date);
            var commits := g.commits[id := CommitDir(copied.files - {MetadataFile}, Some(rec))];
            match g.log
            case Missing => (Committed(rec, true), MyGit(g.staging, commits, Present([rec])))
            case Present(rs) => (Committed(rec, true), MyGit(g.staging, commits, Present(rs + [rec])))
            case Unreadable => (Committed(rec, false), MyGit(g.staging, commits, Unreadable))
  }

  /** The commit holds every staged file under its own name, except that a
      staged `commit.json` is replaced by the metadata. */
  lemma CommitCopiesStaged(message: Option<string>, id: string, date: string, g: MyGit)
    requires g.staging.Some? && DistinctNames(g.staging.value)
    requires CommitRepo(message, id, date, g).0.Committed?
    ensures var r := CommitRepo(message, id, date, g); var dir := r.1.commits[id];
      forall i :: 0 <= i < |g.staging.value| ==>
        var e := g.staging.value[i];
        if e.name == MetadataFile then e.name !in dir.files && dir.metadata == Some(r.0.record)
        else e.name in dir.files && dir.files[e.name] == e.digest
  {
    CopyStagedContents(g.staging.value, Existing(g, id).files);
  }

  /** A message that is already in normal form is recorded exactly as given, so
      committing with a recorded message records it again unchanged. */
  lemma RecommitSameMessage(m: string, id: string, date: string, g: MyGit)
    requires m != "" && NoEdgeSpace(m) && SingleSpaced(m)
    ensures CommitRepo(Some(m), id, date, g).0 !in {Blank, OnlySpaces}
    ensures CommitRepo(Some(m), id, date, g).0.Committed? ==> CommitRepo(Some(m), id, date, g).0.record.message == Some(m)
  {
    NormalizeFixed(m);
  }

  /** Two commits in a row append two records, in order, and keep the old ones. */
  lemma TwoCommits(m1: Option<string>, id1: string, d1: string, m2: Option<string>, id2: string, d2: string, g: MyGit)
    requires g.log.Present?
    requires CommitRepo(m1, id1, d1, g).0.Committed?
    requires CommitRepo(m2, id2, d2, CommitRepo(m1, id1, d1, g).1).0.Committed?
    ensures CommitRepo(m2, id2, d2, CommitRepo(m1, id1, d1, g).1).1.log ==
      Present(g.log.records + [CommitRepo(m1, id1, d1, g).0.record, CommitRepo(m2, id2, d2, CommitRepo(m1, id1, d1, g).1).0.record])
  {
    var first := CommitRepo(m1, id1, d1, g);
    CommitAppends(m1, id1, d1, g);
    var second := CommitRepo(m2, id2, d2, first.1);
    CommitAppends(m2, id2, d2, first.1);
    LogAppendTwice(g.log.records, first.0.record, second.0.record, first.1.log, second.1.log);
  }

  lemma LogAppendTwice(rs: seq<LogRecord>, a: LogRecord, b: LogRecord, l1: LogFile, l2: LogFile)
    requires l1 == Present(rs + [a])
    requires l2 == Present(l1.records + [b])
    ensures l2 == Present(rs + [a, b])
  {
    assert rs + [a] + [b] == rs + [a, b];
  }

  /** A commit onto a readable log appends its record to it. */
  lemma CommitAppends(message: Option<string>, id: string, date: string, g: MyGit)
    requires g.log.Present?
    requires CommitRepo(message, id, date, g).0.Committed?
    ensures CommitRepo(message, id, date, g).1.log == Present(g.log.records + [CommitRepo(message, id, date, g).0.record])
  {
  }
}

=== FILE: compare.dfy ===
/**
 * The recursive draft of `slot add .`: `processDirectory` walks the whole
 * working tree, mirrors every directory into `.slot/staging`, records a
 * `folder` entry for it, and stages every file whose id or hash changed, at
 * the same relative path. Entries are keyed by the path relative to the
 * working directory, and ids are derived from that relative path.
 */
module Compare {
  import opened Wrappers
  import opened Paths
  import opened Encoding
  import opened Records
  import opened Ignore

  /** The path of `name` inside the relative directory `dir` ("" is the working directory). */
  function Child(dir: string, name: string): (rel: string)
    ensures name != "" ==> rel != ""
  {
    if dir == "" then name else dir + "/" + name
  }

  /** `{id, name, type: "folder"}`. */
  function FolderEntry(rel: string, name: string): Entry {
    Entry(Some(Text(PathId(rel))), Some(name), None, Some(FolderKind), None, None, None, None)
  }

  /** `{id, name, hash, type: "file"}`. */
  function FileEntry(rel: string, name: string, hash: string): Entry {
    Entry(Some(Text(PathId(rel))), Some(name), Some(hash), Some(FileKind), None, None, None, None)
  }

  /** The snapshot being built and what has been put into `.slot/staging`:
      mirrored directories and copied files (relative path to digest). */
  datatype Work = Work(snapshot: Snapshot, dirs: set<string>, files: map<string, string>)

  /** The file `rel` is recorded with the current id and hash, so it is skipped. */
  predicate Unchanged(w: Work, rel: string, hash: string) {
    rel in w.snapshot && SameIdAndHash(w.snapshot[rel], PathId(rel), hash)
  }

  /** What the walk does with one directory entry that is not ignored. */
  datatype Visit = FolderVisit(rel: string, name: string) | FileVisit(rel: string, name: string, digest: string)

  function Step(w: Work, v: Visit): Work {
    match v
    case FolderVisit(rel, name) =>
      Work(w.snapshot[rel := FolderEntry(rel, name)], w.dirs + {rel}, w.files)
    case FileVisit(rel, name, digest) =>
      if Unchanged(w, rel, digest) then w
      else Work(w.snapshot[rel := FileEntry(rel, name, digest)], w.dirs, w.files[rel := digest])
  }

  /** `processDirectory` over the entries of the relative directory `dir`. */
  function Walk(cwd: string, patterns: seq<string>, dir: string, entries: seq<Node>, w: Work): (r: Work)
    decreases SizeAll(entries), 1
  {
    if entries == [] then w
    else
      SizeDecreases(entries);
      Walk(cwd, patterns, dir, entries[1..], WalkEntry(cwd, patterns, dir, entries[0], w))
  }

  /** One directory entry: an ignored entry is skipped (a directory is not
      descended into), a directory is mirrored and recorded before its
      contents, a file is copied and recorded unless it is unchanged. */
  function WalkEntry(cwd: string, patterns: seq<string>, dir: string, n: Node, w: Work): (r: Work)
    decreases Size(n), 0
  {
    var rel := Child(dir, n.name);
    if IsFileIgnored(Resolve(cwd, rel), cwd, patterns) then w
    else match n
      case Dir(name, children) => Walk(cwd, patterns, rel, children, Step(w, FolderVisit(rel, name)))
      case File(name, digest) => Step(w, FileVisit(rel, name, digest))
  }

  /** The visits of the walk, in order. */
  function Visits(cwd: string, patterns: seq<string>, dir: string, entries: seq<Node>): seq<Visit>
    decreases SizeAll(entries), 1
  {
    if entries == [] then []
    else
      SizeDecreases(entries);
      EntryVisits(cwd, patterns, dir, entries[0]) + Visits(cwd, patterns, dir, entries[1..])
  }

  function EntryVisits(cwd: string, patterns: seq<string>, dir: string, n: Node): seq<Visit>
    decreases Size(n), 0
  {
    var rel := Child(dir, n.name);
    if IsFileIgnored(Resolve(cwd, rel), cwd, patterns) then []
    else match n
      case Dir(name, children) => [FolderVisit(rel, name)] + Visits(cwd, patterns, rel, children)
      case File(name, digest) => [FileVisit(rel, name, digest)]
  }

  /** Applies the visits in order. */
  function Fold(w: Work, vs: seq<Visit>): Work
    decreases |vs|
  {
    if vs == [] then w else Fold(Step(w, vs[0]), vs[1..])
  }

  lemma {:induction false} FoldConcat(w: Work, a: seq<Visit>, b: seq<Visit>)
    ensures Fold(w, a + b) == Fold(Fold(w, a), b)
    decreases |a|
  {
    if a == [] {
      assert a + b == b;
    } else {
      assert (a + b)[0] == a[0];
      assert (a + b)[1..] == a[1..] + b;
      FoldConcat(Step(w, a[0]), a[1..], b);
    }
  }

  /** The recursive walk is the fold of its visit list. */
  lemma {:induction false} WalkIsFold(cwd: string, patterns: seq<string>, dir: string, entries: seq<Node>, w: Work)
    ensures Walk(cwd, patterns, dir, entries, w) == Fold(w, Visits(cwd, patterns, dir, entries))
    decreases SizeAll(entries), 1
  {
    if entries != [] {
      SizeDecreases(entries);
      var here := EntryVisits(cwd, patterns, dir, entries[0]);
      var w1 := WalkEntry(cwd, patterns, dir, entries[0], w);
      WalkEntryIsFold(cwd, patterns, dir, entries[0], w);
      WalkIsFold(cwd, patterns, dir, entries[1..], w1);
      FoldConcat(w, here, Visits(cwd, patterns, dir, entries[1..]));
    }
  }

  lemma {:induction false} WalkEntryIsFold(cwd: string, patterns: seq<string>, dir: string, n: Node, w: Work)
    ensures WalkEntry(cwd, patterns, dir, n, w) == Fold(w, EntryVisits(cwd, patterns, dir, n))
    decreases Size(n), 0
  {
    var rel := Child(dir, n.name);
    if !IsFileIgnored(Resolve(cwd, rel), cwd, patterns) {
      match n
      case Dir(name, children) =>
        var v := FolderVisit(rel, name);
        var inner := Visits(cwd, patterns, rel, children);
        WalkIsFold(cwd, patterns, rel, children, Step(w, v));
        assert ([v] + inner)[1..] == inner;
      case File(name, digest) =>
        var v := FileVisit(rel, name, digest);
        assert [v][1..] == [];
    }
  }

  /** No two visits are to the same relative path. */
  predicate DistinctRels(vs: seq<Visit>) {
    forall i, j :: 0 <= i < j < |vs| ==> vs[i].rel != vs[j].rel
  }

  /** `w` already reflects the visit: the folder is mirrored and recorded, or
      the file is recorded with its current id and hash. */
  predicate Recorded(w: Work, v: Visit) {
    match v
    case FolderVisit(rel, name) => rel in w.dirs && rel in w.snapshot && w.snapshot[rel] == FolderEntry(rel, name)
    case FileVisit(rel, _, digest) => Unchanged(w, rel, digest)
  }

  /** A recorded visit changes nothing. */
  lemma StepRecorded(w: Work, v: Visit)
    requires Recorded(w, v)
    ensures Step(w, v) == w
  {
    if v.FolderVisit? {
      assert w.snapshot[v.rel := FolderEntry(v.rel, v.name)] == w.snapshot;
      assert w.dirs + {v.rel} == w.dirs;
    }
  }

  /** A step leaves every other path's entry and mirror as it was. */
  lemma StepElsewhere(w: Work, v: Visit, u: Visit)
    requires u.rel != v.rel && Recorded(w, u)
    ensures Recorded(Step(w, v), u)
  {
  }

  /** After the fold, every visit is recorded. */
  lemma {:induction false} FoldRecords(w: Work, vs: seq<Visit>)
    requires DistinctRels(vs)
    ensures forall i :: 0 <= i < |vs| ==> Recorded(Fold(w, vs), vs[i])
    decreases |vs|
  {
    if vs != [] {
      var w1 := Step(w, vs[0]);
      var rest := vs[1..];
      assert DistinctRels(rest) by {
        forall i, j | 0 <= i < j < |rest| ensures rest[i].rel != rest[j].rel {
          assert rest[i] == vs[i + 1] && rest[j] == vs[j + 1];
        }
      }
      FoldRecords(w1, rest);
      assert Recorded(w1, vs[0]);
      FoldKeeps(w1, rest, vs[0]);
      forall i | 1 <= i < |vs| ensures Recorded(Fold(w, vs), vs[i]) {
        assert vs[i] == rest[i - 1];
      }
    }
  }

  /** A recorded visit stays recorded through visits to other paths. */
  lemma {:induction false} FoldKeeps(w: Work, vs: seq<Visit>, u: Visit)
    requires Recorded(w, u)
    requires forall i :: 0 <= i < |vs| ==> vs[i].rel != u.rel
    ensures Recorded(Fold(w, vs), u)
    decreases |vs|
  {
    if vs != [] {
      StepElsewhere(w, vs[0], u);
      FoldKeeps(Step(w, vs[0]), vs[1..], u);
    }
  }

  /** Folding visits that are all recorded changes nothing. */
  lemma {:induction false} FoldQuiet(w: Work, vs: seq<Visit>)
    requires forall i :: 0 <= i < |vs| ==> Recorded(w, vs[i])
    ensures Fold(w, vs) == w
    decreases |vs|
  {
    if vs != [] {
      StepRecorded(w, vs[0]);
      FoldQuiet(w, vs[1..]);
    }
  }

  /** The fold never drops a key; a key it adds or rewrites is the path of one
      of the visits and carries the id derived from that relative path. */
  lemma {:induction false} FoldEntries(w: Work, vs: seq<Visit>)
    ensures var r := Fold(w, vs);
      (forall k :: k in w.snapshot ==> k in r.snapshot) &&
      (forall k :: k in r.snapshot && !(k in w.snapshot && r.snapshot[k] == w.snapshot[k]) ==>
        r.snapshot[k].id == Some(Text(PathId(k))) && exists i :: 0 <= i < |vs| && vs[i].rel == k)
    decreases |vs|
  {
    if vs != [] {
      var w1 := Step(w, vs[0]);
      FoldEntries(w1, vs[1..]);
      var r := Fold(w, vs);
      forall k | k in r.snapshot && !(k in w.snapshot && r.snapshot[k] == w.snapshot[k])
        ensures r.snapshot[k].id == Some(Text(PathId(k))) && exists i :: 0 <= i < |vs| && vs[i].rel == k
      {
        if k in w1.snapshot && r.snapshot[k] == w1.snapshot[k] {
          assert k == vs[0].rel;
        } else {
          var i :| 0 <= i < |vs[1..]| && vs[1..][i].rel == k;
          assert vs[i + 1].rel == k;
        }
      }
    }
  }

  /** After the fold, the path of every visit is a key: a folder is always
      recorded, and a file is either recorded or was already there. */
  lemma {:induction false} FoldHasVisits(w: Work, vs: seq<Visit>)
    ensures forall i :: 0 <= i < |vs| ==> vs[i].rel in Fold(w, vs).snapshot
    decreases |vs|
  {
    if vs != [] {
      var w1 := Step(w, vs[0]);
      assert vs[0].rel in w1.snapshot;
      FoldHasVisits(w1, vs[1..]);
      FoldEntries(w1, vs[1..]);
      forall i | 1 <= i < |vs| ensures vs[i].rel in Fold(w, vs).snapshot {
        assert vs[i] == vs[1..][i - 1];
      }
    }
  }

  /** Every visit is to an entry the ignore patterns do not match, so an ignored
      file or directory, and everything below an ignored directory, is never
      recorded or staged. */
  lemma {:induction false} VisitsNotIgnored(cwd: string, patterns: seq<string>, dir: string, entries: seq<Node>)
    ensures forall i :: 0 <= i < |Visits(cwd, patterns, dir, entries)| ==>
      !IsFileIgnored(Resolve(cwd, Visits(cwd, patterns, dir, entries)[i].rel), cwd, patterns)
    decreases SizeAll(entries), 1
  {
    if entries != [] {
      SizeDecreases(entries);
      EntryVisitsNotIgnored(cwd, patterns, dir, entries[0]);
      VisitsNotIgnored(cwd, patterns, dir, entries[1..]);
    }
  }

  lemma {:induction false} EntryVisitsNotIgnored(cwd: string, patterns: seq<string>, dir: string, n: Node)
    ensures forall i :: 0 <= i < |EntryVisits(cwd, patterns, dir, n)| ==>
      !IsFileIgnored(Resolve(cwd, EntryVisits(cwd, patterns, dir, n)[i].rel), cwd, patterns)
    decreases Size(n), 0
  {
    var rel := Child(dir, n.name);
    if !IsFileIgnored(Resolve(cwd, rel), cwd, patterns) && n.Dir? {
      VisitsNotIgnored(cwd, patterns, rel, n.children);
    }
  }

  /** The `.slot` files and staging area the walk reads and writes. */
  datatype Disk = Disk(oldSnapshot: Option<Snapshot>, newSnapshot: Option<Snapshot>, dirs: set<string>, files: map<string, string>)

  /** The whole command: load the patterns and the old snapshot, walk the
      working directory, then write the same snapshot to both files. A snapshot
      that cannot be read aborts before anything is written. */
  function AddTree(cwd: string, ignoreFile: Option<string>, listing: seq<Node>, d: Disk): (r: Disk)
    ensures d.oldSnapshot.None? ==> r == d
    ensures d.oldSnapshot.Some? ==> r.oldSnapshot.Some? && r.newSnapshot == r.oldSnapshot
  {
    match d.oldSnapshot
    case None => d
    case Some(snapshot) =>
      var w := Walk(cwd, LoadSlotIgnore(ignoreFile), "", listing, Work(snapshot, d.dirs, d.files));
      Disk(Some(w.snapshot), Some(w.snapshot), w.dirs, w.files)
  }

  /** On a tree whose visited paths are distinct, a second run over the unchanged
      tree copies nothing and writes the same snapshot again. */
  lemma AddTreeTwice(cwd: string, ignoreFile: Option<string>, listing: seq<Node>, d: Disk)
    requires DistinctRels(Visits(cwd, LoadSlotIgnore(ignoreFile), "", listing))
    ensures AddTree(cwd, ignoreFile, listing, AddTree(cwd, ignoreFile, listing, d)) == AddTree(cwd, ignoreFile, listing, d)
  {
    if d.oldSnapshot.Some? {
      var patterns := LoadSlotIgnore(ignoreFile);
      var vs := Visits(cwd, patterns, "", listing);
      var w0 := Work(d.oldSnapshot.value, d.dirs, d.files);
      WalkIsFold(cwd, patterns, "", listing, w0);
      var w1 := Fold(w0, vs);
      FoldRecords(w0, vs);
      WalkIsFold(cwd, patterns, "", listing, w1);
      FoldQuiet(w1, vs);
      assert Work(w1.snapshot, w1.dirs, w1.files) == w1;
    }
  }

  /** What the walk does to the snapshot: its keys are exactly the old keys
      plus the relative paths of the entries the walk visits, and every entry
      it writes is at the path of a visited, non-ignored entry, with the id of
      that path. */
  lemma AddTreeEntries(cwd: string, ignoreFile: Option<string>, listing: seq<Node>, d: Disk)
    requires d.oldSnapshot.Some?
    ensures var before, after := d.oldSnapshot.value, AddTree(cwd, ignoreFile, listing, d).oldSnapshot.value;
      var patterns := LoadSlotIgnore(ignoreFile);
      var vs := Visits(cwd, patterns, "", listing);
      (forall k :: k in after <==> k in before || exists i :: 0 <= i < |vs| && vs[i].rel == k) &&
      (forall k :: k in after && !(k in before && after[k] == before[k]) ==>
        after[k].id == Some(Text(PathId(k))) && !IsFileIgnored(Resolve(cwd, k), cwd, patterns) &&
        exists i :: 0 <= i < |vs| && vs[i].rel == k)
  {
    var patterns := LoadSlotIgnore(ignoreFile);
    var vs := Visits(cwd, patterns, "", listing);
    var w0 := Work(d.oldSnapshot.value, d.dirs, d.files);
    WalkIsFold(cwd, patterns, "", listing, w0);
    FoldEntries(w0, vs);
    FoldHasVisits(w0, vs);
    VisitsNotIgnored(cwd, patterns, "", listing);
  }
}

=== FILE: consistency.dfy ===
/**
 * How the commands fit together: facts that relate one controller's output to
 * another controller's input.
 */
module Consistency {
  import opened Wrappers
  import opened Strings
  import opened Paths
  import opened Records
  import opened Ignore
  import Init
  import Add
  import Commit
  import Push

  /** Every path init captures is absolute. */
  lemma {:induction false} FileListAbsolute(dir: string, entries: seq<Node>)
    ensures forall i :: 0 <= i < |Init.FileList(dir, entries)| ==> Absolute(Init.FileList(dir, entries)[i].path)
    decreases SizeAll(entries), 1
  {
    if entries != [] {
      SizeDecreases(entries);
      EntryFileListAbsolute(dir, entries[0]);
      FileListAbsolute(dir, entries[1..]);
      var a, b := Init.EntryFileList(dir, entries[0]), Init.FileList(dir, entries[1..]);
      assert forall i :: |a| <= i < |a + b| ==> (a + b)[i] == b[i - |a|];
    }
  }

  lemma {:induction false} EntryFileListAbsolute(dir: string, n: Node)
    ensures forall i :: 0 <= i < |Init.EntryFileList(dir, n)| ==> Absolute(Init.EntryFileList(dir, n)[i].path)
    decreases Size(n), 0
  {
    if n.Dir? {
      FileListAbsolute(Resolve(dir, n.name), n.children);
    }
  }

  predicate Absolute(k: string) {
    k != [] && k[0] == '/'
  }

  /** Init keys its snapshot by absolute path while add looks a file up by the
      argument it was given: the first add of a relative path after init finds
      no entry and reports the file as new, next to init's entry for it. */
  lemma InitThenRelativeAdd(cwd: string, listing: seq<Node>, failing: set<string>, file: string, digest: string)
    requires file != [] && file[0] != '/'
    requires !IsFileIgnored(Resolve(cwd, file), cwd, LoadSlotIgnore(Some(Init.DefaultIgnore)))
    ensures var init := Init.InitRepo(cwd, listing, failing);
      var r := Add.AddFile(cwd, file, Some(init.ignoreFile), Some(digest), Add.Repo(Some(init.oldSnapshot), Some(init.newSnapshot), map[]));
      r.outcome == Add.Reported(Add.Created) &&
      r.repo.oldSnapshot.Some? && file in r.repo.oldSnapshot.value &&
      forall k :: k in init.oldSnapshot ==> k in r.repo.oldSnapshot.value
  {
    var init := Init.InitRepo(cwd, listing, failing);
    FileListAbsolute(cwd, listing);
    assert file !in init.oldSnapshot;
  }

  /** Commit writes records without `count` and `push`, so a log made only of
      such records is never pushed: push reports "up-to-date", uploads nothing
      and leaves the log alone. */
  lemma CommittedLogsNeverPushed(inp: Push.PushInput)
    requires inp.logs.Some?
    requires forall i :: 0 <= i < |inp.logs.value| ==> inp.logs.value[i].push.None?
    ensures Push.PushRepo(inp).outcome != Push.Pushed
    ensures Push.PushRepo(inp).uploads == []
    ensures Push.PushRepo(inp).logs == inp.logs
  {
  }
}

=== FILE: encoding.dfy ===
/**
 * `Buffer.from(path).toString("base64")`, the path-derived id of the add, compare
 * and init controllers: the UTF-8 bytes of the path, written in the standard
 * base64 alphabet with `=` padding. Each encoder has a decoder that undoes it,
 * so distinct paths never share an id. A path is a sequence of Unicode scalar
 * values, so the lone surrogates a JavaScript string may hold do not arise.
 */
module Encoding {
  import opened Wrappers

  type byte = x: int | 0 <= x < 256

  predicate IsScalar(n: int) {
    0 <= n < 0xD800 || 0xE000 <= n < 0x110000
  }

  /** The UTF-8 bytes of one Unicode scalar value. */
  function EncodeChar(c: char): (bs: seq<byte>)
    ensures 1 <= |bs| <= 4
  {
    var n := c as int;
    var q := n / 64;
    if n < 0x80 then [n]
    else if n < 0x800 then [0xC0 + q, 0x80 + n % 64]
    else if n < 0x10000 then [0xE0 + q / 64, 0x80 + q % 64, 0x80 + n % 64]
    else [0xF0 + q / 4096, 0x80 + (q / 64) % 64, 0x80 + q % 64, 0x80 + n % 64]
  }

  /** The UTF-8 encoding of a string. */
  function Utf8(s: string): seq<byte>
  {
    if s == [] then [] else EncodeChar(s[0]) + Utf8(s[1..])
  }

  predicate IsContinuation(b: int) {
    0x80 <= b < 0xC0
  }

  /** The byte at `i`, or -1 past the end. */
  function Tail(bs: seq<byte>, i: nat): int {
    if i < |bs| then bs[i] else -1
  }

  function Scalar(n: int, len: nat): Option<(char, nat)>
  {
    if IsScalar(n) then Some((n as char, len)) else None
  }

  /** Reads the first character of a UTF-8 byte sequence and the number of bytes it took. */
  function DecodeFirst(bs: seq<byte>): (r: Option<(char, nat)>)
    requires |bs| > 0
    ensures r.Some? ==> 1 <= r.value.1 <= |bs|
  {
    var b0, b1, b2, b3 := bs[0] as int, Tail(bs, 1), Tail(bs, 2), Tail(bs, 3);
    if b0 < 0x80 then Some((b0 as char, 1))
    else if 0xC0 <= b0 < 0xE0 && |bs| >= 2 && IsContinuation(b1) then
      Scalar((b0 - 0xC0) * 64 + (b1 - 0x80), 2)
    else if 0xE0 <= b0 < 0xF0 && |bs| >= 3 && IsContinuation(b1) && IsContinuation(b2) then
      Scalar(((b0 - 0xE0) * 64 + (b1 - 0x80)) * 64 + (b2 - 0x80), 3)
    else if 0xF0 <= b0 < 0xF8 && |bs| >= 4 && IsContinuation(b1) && IsContinuation(b2) && IsContinuation(b3) then
      Scalar((((b0 - 0xF0) * 64 + (b1 - 0x80)) * 64 + (b2 - 0x80)) * 64 + (b3 - 0x80), 4)
    else None
  }

  /** Decodes UTF-8; `None` on a malformed sequence. */
  function Utf8Decode(bs: seq<byte>): Option<string>
    decreases |bs|
  {
    if bs == [] then Some([])
    else match DecodeFirst(bs)
      case None => None
      case Some((c, k)) =>
        match Utf8Decode(bs[k..])
        case None => None
        case Some(rest) => Some([c] + rest)
  }

  lemma DecodeFirstChar(c: char, rest: seq<byte>)
    ensures DecodeFirst(EncodeChar(c) + rest) == Some((c, |EncodeChar(c)|))
  {
    var n := c as int;
    if 0x80 <= n < 0x800 {
      DecodeTwoBytes(c, rest);
    } else if 0x800 <= n < 0x10000 {
      DecodeThreeBytes(c, rest);
    } else if 0x10000 <= n {
      DecodeFourBytes(c, rest);
    }
  }

  lemma DecodeTwoBytes(c: char, rest: seq<byte>)
    requires 0x80 <= c as int < 0x800
    ensures DecodeFirst(EncodeChar(c) + rest) == Some((c, 2))
  {
    var n := c as int;
    var bs := EncodeChar(c) + rest;
    assert (bs[0] as int - 0xC0) * 64 + (bs[1] as int - 0x80) == (n / 64) * 64 + n % 64 == n;
  }

  lemma DecodeThreeBytes(c: char, rest: seq<byte>)
    requires 0x800 <= c as int < 0x10000
    ensures DecodeFirst(EncodeChar(c) + rest) == Some((c, 3))
  {
    var n := c as int;
    var q := n / 64;
    var bs := EncodeChar(c) + rest;
    assert (bs[0] as int - 0xE0) * 64 + (bs[1] as int - 0x80) == (q / 64) * 64 + q % 64 == q;
    assert q * 64 + (bs[2] as int - 0x80) == n;
  }

  lemma DecodeFourBytes(c: char, rest: seq<byte>)
    requires 0x10000 <= c as int
    ensures DecodeFirst(EncodeChar(c) + rest) == Some((c, 4))
  {
    var n := c as int;
    var q := n / 64;
    var q2 := q / 64;
    var bs := EncodeChar(c) + rest;
    assert (bs[0] as int - 0xF0) * 64 + (bs[1] as int - 0x80) == (q2 / 64) * 64 + q2 % 64 == q2;
    assert q2 * 64 + (bs[2] as int - 0x80) == q;
    assert q * 64 + (bs[3] as int - 0x80) == n;
  }

  /** Decoding the UTF-8 encoding of a string gives the string back. */
  lemma {:induction false} Utf8RoundTrip(s: string)
    ensures Utf8Decode(Utf8(s)) == Some(s)
    decreases |s|
  {
    if s != [] {
      var e := EncodeChar(s[0]);
      var bs := Utf8(s);
      assert bs == e + Utf8(s[1..]);
      DecodeFirstChar(s[0], Utf8(s[1..]));
      assert bs[|e|..] == Utf8(s[1..]);
      Utf8RoundTrip(s[1..]);
      assert s == [s[0]] + s[1..];
    }
  }

  /** The base64 digit for a six-bit value: `A`-`Z`, `a`-`z`, `0`-`9`, `+`, `/`. */
  function Digit(i: int): (c: char)
    requires 0 <= i < 64
    ensures c != '='
  {
    if i < 26 then ('A' as int + i) as char
    else if i < 52 then ('a' as int + (i - 26)) as char
    else if i < 62 then ('0' as int + (i - 52)) as char
    else if i == 62 then '+'
    else '/'
  }

  /** The six-bit value of a base64 digit, or -1 for any other character. */
  function DigitValue(c: char): (v: int)
    ensures -1 <= v < 64
  {
    if 'A' <= c <= 'Z' then c as int - 'A' as int
    else if 'a' <= c <= 'z' then c as int - 'a' as int + 26
    else if '0' <= c <= '9' then c as int - '0' as int + 52
    else if c == '+' then 62
    else if c == '/' then 63
    else -1
  }

  lemma DigitValueOfDigit(i: int)
    requires 0 <= i < 64
    ensures DigitValue(Digit(i)) == i
  {
  }

  /** Three bytes as four digits. */
  function Block(b0: byte, b1: byte, b2: byte): string
  {
    [Digit(b0 / 4), Digit((b0 % 4) * 16 + b1 / 16), Digit((b1 % 16) * 4 + b2 / 64), Digit(b2 % 64)]
  }

  /** Standard base64 with `=` padding, as Node's `toString("base64")` writes it. */
  function Base64(bs: seq<byte>): (s: string)
    ensures bs == [] <==> s == []
    decreases |bs|
  {
    if |bs| < 3 then Padded(bs)
    else Block(bs[0], bs[1], bs[2]) + Base64(bs[3..])
  }

  /** The last group for fewer than three remaining bytes, padded with `=`. */
  function Padded(bs: seq<byte>): (s: string)
    requires |bs| < 3
    ensures bs == [] <==> s == []
  {
    if |bs| == 0 then []
    else if |bs| == 1 then [Digit(bs[0] / 4), Digit((bs[0] % 4) * 16), '=', '=']
    else [Digit(bs[0] / 4), Digit((bs[0] % 4) * 16 + bs[1] / 16), Digit((bs[1] % 16) * 4), '=']
  }

  /** Reads one group of four characters; `None` if it is not valid base64. */
  function DecodeGroup(s: string): Option<seq<byte>>
    requires |s| == 4
  {
    var c0, c1, c2, c3 := DigitValue(s[0]), DigitValue(s[1]), DigitValue(s[2]), DigitValue(s[3]);
    if c0 < 0 || c1 < 0 then None
    else if s[2] == '=' && s[3] == '=' then Some([c0 * 4 + c1 / 16])
    else if c2 < 0 then None
    else if s[3] == '=' then Some([c0 * 4 + c1 / 16, (c1 % 16) * 16 + c2 / 4])
    else if c3 < 0 then None
    else Some([c0 * 4 + c1 / 16, (c1 % 16) * 16 + c2 / 4, (c2 % 4) * 64 + c3])
  }

  /** Decodes padded base64; `None` on malformed input. */
  function Unbase64(s: string): Option<seq<byte>>
    decreases |s|
  {
    if |s| == 0 then Some([])
    else if |s| < 4 then None
    else match DecodeGroup(s[..4])
      case None => None
      case Some(g) =>
        if |g| < 3 && |s| > 4 then None
        else match Unbase64(s[4..])
          case None => None
          case Some(rest) => Some(g + rest)
  }

  lemma DecodeBlock(b0: byte, b1: byte, b2: byte)
    ensures DecodeGroup(Block(b0, b1, b2)) == Some([b0, b1, b2])
  {
    var s := Block(b0, b1, b2);
    DigitValueOfDigit(b0 / 4);
    DigitValueOfDigit((b0 % 4) * 16 + b1 / 16);
    DigitValueOfDigit((b1 % 16) * 4 + b2 / 64);
    DigitValueOfDigit(b2 % 64);
    var c1 := (b0 % 4) * 16 + b1 / 16;
    var c2 := (b1 % 16) * 4 + b2 / 64;
    assert c1 / 16 == b0 % 4 && c1 % 16 == b1 / 16;
    assert c2 / 4 == b1 % 16 && c2 % 4 == b2 / 64;
  }

  lemma DecodeOne(b0: byte)
    ensures DecodeGroup([Digit(b0 / 4), Digit((b0 % 4) * 16), '=', '=']) == Some([b0])
  {
    DigitValueOfDigit(b0 / 4);
    DigitValueOfDigit((b0 % 4) * 16);
  }

  lemma DecodeTwo(b0: byte, b1: byte)
    ensures DecodeGroup([Digit(b0 / 4), Digit((b0 % 4) * 16 + b1 / 16), Digit((b1 % 16) * 4), '=']) == Some([b0, b1])
  {
    var c1 := (b0 % 4) * 16 + b1 / 16;
    var c2 := (b1 % 16) * 4;
    DigitValueOfDigit(b0 / 4);
    DigitValueOfDigit(c1);
    DigitValueOfDigit(c2);
    assert c1 / 16 == b0 % 4 && c1 % 16 == b1 / 16;
    assert c2 / 4 == b1 % 16;
  }

  lemma Unbase64Single(s: string)
    requires |s| == 4 && DecodeGroup(s).Some?
    ensures Unbase64(s) == DecodeGroup(s)
  {
    assert s[..4] == s;
    assert s[4..] == [];
    assert DecodeGroup(s).value + [] == DecodeGroup(s).value;
  }

  lemma Unbase64Prefix(blk: string, rest: string)
    requires |blk| == 4 && DecodeGroup(blk).Some? && |DecodeGroup(blk).value| == 3
    requires Unbase64(rest).Some?
    ensures Unbase64(blk + rest) == Some(DecodeGroup(blk).value + Unbase64(rest).value)
  {
    var s := blk + rest;
    assert s[..4] == blk;
    assert s[4..] == rest;
  }

  lemma RoundTripShort(bs: seq<byte>)
    requires |bs| == 1 || |bs| == 2
    ensures Unbase64(Padded(bs)) == Some(bs)
  {
    if |bs| == 1 {
      DecodeOne(bs[0]);
      assert bs == [bs[0]];
    } else {
      DecodeTwo(bs[0], bs[1]);
      assert bs == [bs[0], bs[1]];
    }
    Unbase64Single(Padded(bs));
  }

  lemma RoundTripStep(b0: byte, b1: byte, b2: byte, rest: seq<byte>)
    requires Unbase64(Base64(rest)) == Some(rest)
    ensures Unbase64(Block(b0, b1, b2) + Base64(rest)) == Some([b0, b1, b2] + rest)
  {
    DecodeBlock(b0, b1, b2);
    Unbase64Prefix(Block(b0, b1, b2), Base64(rest));
  }

  /** Decoding the base64 text of a byte sequence gives the bytes back. */
  lemma {:induction false} Base64RoundTrip(bs: seq<byte>)
    ensures Unbase64(Base64(bs)) == Some(bs)
    decreases |bs|
  {
    if |bs| == 1 || |bs| == 2 {
      RoundTripShort(bs);
    } else if |bs| >= 3 {
      Base64RoundTrip(bs[3..]);
      RoundTripStep(bs[0], bs[1], bs[2], bs[3..]);
      Base64Cons(bs);
      BytesCons(bs);
    }
  }

  lemma Base64Cons(bs: seq<byte>)
    requires |bs| >= 3
    ensures Base64(bs) == Block(bs[0], bs[1], bs[2]) + Base64(bs[3..])
  {
  }

  lemma BytesCons(bs: seq<byte>)
    requires |bs| >= 3
    ensures bs == [bs[0], bs[1], bs[2]] + bs[3..]
  {
  }

  /** The id `generateUniqueId` derives from a path. */
  function PathId(path: string): string
  {
    Base64(Utf8(path))
  }

  /** Distinct paths never share an id. */
  lemma PathIdInjective(p: string, q: string)
    requires PathId(p) == PathId(q)
    ensures p == q
  {
    Base64RoundTrip(Utf8(p));
    Base64RoundTrip(Utf8(q));
    Utf8RoundTrip(p);
    Utf8RoundTrip(q);
  }
}

=== FILE: ignore.dfy ===
/**
 * The `.slotignore` file: loading it into a pattern list and testing a path
 * against the patterns by substring.
 */
module Ignore {
  import opened Wrappers
  import opened Strings
  import opened Paths

  /** A trimmed line survives the filter iff it is non-empty and not a comment. */
  predicate Kept(line: string) {
    line != [] && line[0] != '#'
  }

  /** A pattern as `loadSlotIgnore` returns it. */
  predicate IsPattern(p: string) {
    Kept(p) && NoEdgeSpace(p) && '\n' !in p
  }

  /** `f` applied to each line, in order. */
  function MapLines(f: string -> string, lines: seq<string>): (r: seq<string>)
    ensures |r| == |lines|
    ensures forall i :: 0 <= i < |lines| ==> r[i] == f(lines[i])
    decreases |lines|
  {
    if lines == [] then [] else [f(lines[0])] + MapLines(f, lines[1..])
  }

  lemma MapLinesConcat(f: string -> string, a: seq<string>, b: seq<string>)
    ensures MapLines(f, a + b) == MapLines(f, a) + MapLines(f, b)
  {
    var l, ma, mb := MapLines(f, a + b), MapLines(f, a), MapLines(f, b);
    assert forall i :: 0 <= i < |a| ==> l[i] == (ma + mb)[i];
    assert forall i :: |a| <= i < |l| ==> (a + b)[i] == b[i - |a|] && l[i] == (ma + mb)[i];
    assert l == ma + mb;
  }

  /** Each line trimmed, in order. */
  function Trimmed(lines: seq<string>): seq<string> {
    MapLines(Trim, lines)
  }

  /** The filter step: keeps the non-empty, non-comment lines, in order. */
  function Keep(ts: seq<string>): (r: seq<string>)
    ensures |r| <= |ts|
    ensures forall i :: 0 <= i < |r| ==> Kept(r[i]) && r[i] in ts
    decreases |ts|
  {
    if ts == [] then [] else (if Kept(ts[0]) then [ts[0]] else []) + Keep(ts[1..])
  }

  /** Trims each line and keeps the non-empty, non-comment ones, in order. */
  function Patterns(lines: seq<string>): (r: seq<string>)
    ensures |r| <= |lines|
  {
    Keep(Trimmed(lines))
  }

  /** The filter distributes over concatenation. */
  lemma {:induction false} KeepConcat(a: seq<string>, b: seq<string>)
    ensures Keep(a + b) == Keep(a) + Keep(b)
    decreases |a|
  {
    if a != [] {
      assert (a + b)[0] == a[0];
      assert (a + b)[1..] == a[1..] + b;
      KeepConcat(a[1..], b);
      var h := if Kept(a[0]) then [a[0]] else [];
      assert Keep(a + b) == h + Keep(a[1..] + b);
      assert h + (Keep(a[1..]) + Keep(b)) == (h + Keep(a[1..])) + Keep(b);
    } else {
      assert a + b == b;
    }
  }

  /** The pattern filter distributes over concatenation of line lists. */
  lemma PatternsConcat(a: seq<string>, b: seq<string>)
    ensures Patterns(a + b) == Patterns(a) + Patterns(b)
  {
    MapLinesConcat(Trim, a, b);
    KeepConcat(Trimmed(a), Trimmed(b));
  }

  /** Every kept line survives the filter. */
  lemma {:induction false} KeepKeeps(ts: seq<string>, i: nat)
    requires i < |ts| && Kept(ts[i])
    ensures ts[i] in Keep(ts)
    decreases i
  {
    if i > 0 {
      KeepKeeps(ts[1..], i - 1);
      assert ts[1..][i - 1] == ts[i];
    }
  }

  /** Every line whose trimmed form is a pattern contributes exactly that pattern. */
  lemma PatternsKeepLine(lines: seq<string>, i: nat)
    requires i < |lines| && Kept(Trim(lines[i]))
    ensures Trim(lines[i]) in Patterns(lines)
  {
    KeepKeeps(Trimmed(lines), i);
  }

  /** The positions in `ts` of the lines `Keep` keeps: strictly increasing,
      each naming the kept line at the same position of the result, and
      naming every line that passes the filter. */
  function KeepIndices(ts: seq<string>): (idx: seq<nat>)
    ensures |idx| == |Keep(ts)|
    ensures forall j :: 0 <= j < |idx| ==> idx[j] < |ts| && Keep(ts)[j] == ts[idx[j]]
    ensures forall j, j' :: 0 <= j < j' < |idx| ==> idx[j] < idx[j']
    ensures forall i :: 0 <= i < |ts| && Kept(ts[i]) ==> i in idx
    decreases |ts|
  {
    if ts == [] then []
    else
      var rest := KeepIndices(ts[1..]);
      var shifted := seq(|rest|, j requires 0 <= j < |rest| => rest[j] + 1);
      var h: seq<nat> := if Kept(ts[0]) then [0] else [];
      KeepIndicesStep(ts, rest, shifted, h);
      h + shifted
  }

  /** `idx` gives, in increasing order, the position in `ts` of each string
      of `kept`, and names every position whose string passes the filter. */
  predicate Indexes(ts: seq<string>, kept: seq<string>, idx: seq<nat>) {
    && |idx| == |kept|
    && (forall j :: 0 <= j < |idx| ==> idx[j] < |ts| && kept[j] == ts[idx[j]])
    && (forall j, j' :: 0 <= j < j' < |idx| ==> idx[j] < idx[j'])
    && (forall i :: 0 <= i < |ts| && Kept(ts[i]) ==> i in idx)
  }

  lemma KeepIndicesStep(ts: seq<string>, rest: seq<nat>, shifted: seq<nat>, h: seq<nat>)
    requires ts != []
    requires Indexes(ts[1..], Keep(ts[1..]), rest)
    requires |shifted| == |rest| && forall j :: 0 <= j < |rest| ==> shifted[j] == rest[j] + 1
    requires h == if Kept(ts[0]) then [0] else []
    ensures Indexes(ts, Keep(ts), h + shifted)
  {
    var hk := if Kept(ts[0]) then [ts[0]] else [];
    var kt := Keep(ts[1..]);
    assert Keep(ts) == hk + kt;
    assert forall j :: 0 <= j < |rest| ==> rest[j] < |ts| - 1 && kt[j] == ts[rest[j] + 1];
    KeepIndicesContents(ts, kt, rest, shifted, h, hk);
    KeepIndicesOrder(rest, shifted, h);
    KeepIndicesComplete(ts, rest, shifted, h);
  }

  lemma KeepIndicesContents(ts: seq<string>, kt: seq<string>, rest: seq<nat>, shifted: seq<nat>, h: seq<nat>, hk: seq<string>)
    requires ts != [] && |rest| == |kt|
    requires forall j :: 0 <= j < |rest| ==> rest[j] < |ts| - 1 && kt[j] == ts[rest[j] + 1]
    requires |shifted| == |rest| && forall j :: 0 <= j < |rest| ==> shifted[j] == rest[j] + 1
    requires (h == [0] && hk == [ts[0]]) || (h == [] && hk == [])
    ensures forall j :: 0 <= j < |h + shifted| ==> (h + shifted)[j] < |ts| && (hk + kt)[j] == ts[(h + shifted)[j]]
  {
    var idx := h + shifted;
    forall j | 0 <= j < |idx| ensures idx[j] < |ts| && (hk + kt)[j] == ts[idx[j]] {
      if j >= |h| {
        assert idx[j] == shifted[j - |h|];
        assert (hk + kt)[j] == kt[j - |h|];
      }
    }
  }

  lemma KeepIndicesOrder(rest: seq<nat>, shifted: seq<nat>, h: seq<nat>)
    requires forall j, j' :: 0 <= j < j' < |rest| ==> rest[j] < rest[j']
    requires |shifted| == |rest| && forall j :: 0 <= j < |rest| ==> shifted[j] == rest[j] + 1
    requires h == [0] || h == []
    ensures forall j, j' :: 0 <= j < j' < |h + shifted| ==> (h + shifted)[j] < (h + shifted)[j']
  {
  }

  lemma KeepIndicesComplete(ts: seq<string>, rest: seq<nat>, shifted: seq<nat>, h: seq<nat>)
    requires ts != []
    requires forall i :: 0 <= i < |ts| - 1 && Kept(ts[1..][i]) ==> i in rest
    requires |shifted| == |rest| && forall j :: 0 <= j < |rest| ==> shifted[j] == rest[j] + 1
    requires h == if Kept(ts[0]) then [0] else []
    ensures forall i :: 0 <= i < |ts| && Kept(ts[i]) ==> i in h + shifted
  {
    var idx := h + shifted;
    forall i | 0 <= i < |ts| && Kept(ts[i]) ensures i in idx {
      if i > 0 {
        assert ts[1..][i - 1] == ts[i];
        var j :| 0 <= j < |rest| && rest[j] == i - 1;
        assert idx[|h| + j] == i;
      } else {
        assert idx[0] == 0;
      }
    }
  }

  /** `loadSlotIgnore`: `None` is a file that cannot be read, which gives `[]`.
      Otherwise the patterns are the trimmed lines of the file that are neither
      empty nor comments, in file order: the `j`-th pattern is line
      `PatternLines(text)[j]` trimmed, and every such line is one of them. */
  function LoadSlotIgnore(content: Option<string>): (r: seq<string>)
    ensures content.None? ==> r == []
    ensures forall i :: 0 <= i < |r| ==> IsPattern(r[i])
    ensures content.Some? ==> var lines := Split(content.value, '\n'); var idx := PatternLines(content.value);
      && |idx| == |r|
      && (forall j :: 0 <= j < |idx| ==> idx[j] < |lines| && r[j] == Trim(lines[idx[j]]))
      && (forall j, j' :: 0 <= j < j' < |idx| ==> idx[j] < idx[j'])
      && (forall i :: 0 <= i < |lines| && Kept(Trim(lines[i])) ==> i in idx)
  {
    match content
    case None => []
    case Some(text) =>
      var lines := Split(text, '\n');
      var r := Patterns(lines);
      PatternsWellFormed(lines);
      r
  }

  /** The numbers of the lines of `text` that become patterns. */
  function PatternLines(text: string): seq<nat> {
    KeepIndices(Trimmed(Split(text, '\n')))
  }

  /** Every entry is a pattern in the sense of `IsPattern`. */
  predicate AllPatterns(ps: seq<string>) {
    forall i :: 0 <= i < |ps| ==> IsPattern(ps[i])
  }

  /** Writing well-formed patterns one per line and loading the file again gives
      the same patterns back. */
  lemma LoadSaveRoundTrip(ps: seq<string>)
    requires AllPatterns(ps)
    ensures LoadSlotIgnore(Some(Join(ps, '\n'))) == ps
  {
    LoadIsPatterns(Join(ps, '\n'));
    PatternsOfJoin(ps);
  }

  lemma PatternsOfJoin(ps: seq<string>)
    requires AllPatterns(ps)
    ensures Patterns(Split(Join(ps, '\n'), '\n')) == ps
  {
    if ps == [] {
      assert Join(ps, '\n') == [];
      PatternsOfEmpty();
    } else {
      PatternsOfLines(ps);
    }
  }

  lemma PatternsOfLines(ps: seq<string>)
    requires ps != [] && AllPatterns(ps)
    ensures Patterns(Split(Join(ps, '\n'), '\n')) == ps
  {
    SplitJoinLines(ps);
    PatternsOfPatterns(ps);
  }

  /** Patterns written one per line split back into the same lines. */
  lemma SplitJoinLines(ps: seq<string>)
    requires ps != [] && AllPatterns(ps)
    ensures Split(Join(ps, '\n'), '\n') == ps
  {
    SplitJoin(ps, '\n');
  }

  /** An empty file is one empty line, which gives no pattern. */
  lemma PatternsOfEmpty()
    ensures Patterns(Split([], '\n')) == []
  {
    assert Split([], '\n') == [[]];
    assert Trimmed([[]]) == [Trim([])];
  }

  lemma LoadIsPatterns(text: string)
    ensures LoadSlotIgnore(Some(text)) == Patterns(Split(text, '\n'))
  {
  }

  /** Lines without a newline yield patterns in the sense of `IsPattern`. */
  lemma PatternsWellFormed(lines: seq<string>)
    requires forall i :: 0 <= i < |lines| ==> '\n' !in lines[i]
    ensures forall i :: 0 <= i < |Patterns(lines)| ==> IsPattern(Patterns(lines)[i])
  {
    var ts := Trimmed(lines);
    forall j | 0 <= j < |ts|
      ensures NoEdgeSpace(ts[j]) && '\n' !in ts[j]
    {
      TrimChars(lines[j]);
    }
  }

  lemma PatternsOfPatterns(patterns: seq<string>)
    requires AllPatterns(patterns)
    ensures Patterns(patterns) == patterns
  {
    forall i | 0 <= i < |patterns| ensures Trimmed(patterns)[i] == patterns[i] {
      TrimUnchanged(patterns[i]);
    }
    assert Trimmed(patterns) == patterns;
    KeepAll(patterns);
  }

  /** A list of kept lines passes the filter unchanged. */
  lemma {:induction false} KeepAll(ts: seq<string>)
    requires forall i :: 0 <= i < |ts| ==> Kept(ts[i])
    ensures Keep(ts) == ts
    decreases |ts|
  {
    if ts != [] {
      KeepAll(ts[1..]);
      assert ts == [ts[0]] + ts[1..];
    }
  }

  /** `isFileIgnored`: some pattern, resolved against the working directory, occurs
      in the absolute path as a substring. */
  function IsFileIgnored(filePath: string, cwd: string, patterns: seq<string>): (b: bool)
    ensures b <==> exists i :: 0 <= i < |patterns| && Contains(filePath, Resolve(cwd, patterns[i]))
    decreases |patterns|
  {
    if patterns == [] then false
    else if Contains(filePath, Resolve(cwd, patterns[0])) then true
    else
      var b := IsFileIgnored(filePath, cwd, patterns[1..]);
      assert forall i :: 1 <= i < |patterns| ==> patterns[i] == patterns[1..][i - 1];
      b
  }

  /** Substring matching has no notion of path segments: the pattern `.git`
      ignores everything under `.github` too. */
  lemma GitIgnoresGithub(cwdSegs: seq<string>, rest: string)
    requires AllPlain(cwdSegs)
    ensures IsFileIgnored(AbsoluteFrom(cwdSegs + [".github"]) + rest, AbsoluteFrom(cwdSegs), [".git"])
  {
    var cwd := AbsoluteFrom(cwdSegs);
    ResolveChild(cwdSegs, ".git");
    var target := AbsoluteFrom(cwdSegs + [".git"]);
    var path := AbsoluteFrom(cwdSegs + [".github"]) + rest;
    JoinLast(cwdSegs, ".git");
    JoinLast(cwdSegs, ".github");
    assert target <= path[0..];
  }

  lemma JoinLast(segs: seq<string>, name: string)
    ensures AbsoluteFrom(segs + [name]) == (if segs == [] then "/" else AbsoluteFrom(segs) + "/") + name
  {
    if segs != [] {
      JoinAppend(segs, name, '/');
    }
  }
}

=== FILE: init.dfy ===
/**
 * `slot init`: create the `.slot` layout with empty files, write the default
 * `.slotignore`, and record every file of the working tree in
 * `oldSnapshot.json`, keyed by its full path.
 */
module Init {
  import opened Wrappers
  import opened Strings
  import opened Paths
  import opened Encoding
  import opened Records
  import opened Ignore

  /** The `.slotignore` content init writes. */
  const DefaultIgnore: string := ".env" + "\n" + "node_modules/" + "\n" + "package-lock.json" + "\n" + ".git" + "\n"

  const DefaultPatternList: seq<string> := [".env", "node_modules/", "package-lock.json", ".git"]

  /** The default ignore file loads as exactly these four patterns. */
  lemma DefaultPatterns()
    ensures LoadSlotIgnore(Some(DefaultIgnore)) == DefaultPatternList
  {
    var lines := DefaultPatternList + [""];
    DefaultLines();
    SplitJoin(lines, '\n');
    DefaultWellFormed();
    PatternsOfPatterns(DefaultPatternList);
    PatternsConcat(DefaultPatternList, [""]);
    assert Patterns([""]) == [];
  }

  lemma DefaultWellFormed()
    ensures AllPatterns(DefaultPatternList)
  {
    NotSpace('.');
    NotSpace('v');
    NotSpace('n');
    NotSpace('/');
    NotSpace('p');
    NotSpace('t');
  }

  lemma DefaultLines()
    ensures DefaultIgnore == Join(DefaultPatternList + [""], '\n')
  {
    var lines := DefaultPatternList + [""];
    var j4 := Join(lines[4..], '\n');
    assert lines[4..] == [""];
    var j3 := Join(lines[3..], '\n');
    assert lines[3..][1..] == lines[4..];
    assert j3 == ".git" + "\n" + j4;
    var j2 := Join(lines[2..], '\n');
    assert lines[2..][1..] == lines[3..];
    assert j2 == "package-lock.json" + "\n" + j3;
    var j1 := Join(lines[1..], '\n');
    assert lines[1..][1..] == lines[2..];
    assert j1 == "node_modules/" + "\n" + j2;
    assert Join(lines, '\n') == ".env" + "\n" + j1;
    assert j4 == "";
  }

  /** Adds the files under `entries`, which live in the absolute directory `dir`,
      keyed by full path. Directories are descended into and get no entry. */
  function Capture(dir: string, entries: seq<Node>, acc: Snapshot): (r: Snapshot)
    ensures forall k :: k in acc ==> k in r
    ensures forall k :: k in r && !(k in acc && r[k] == acc[k]) ==> r[k].id == Some(Text(PathId(k)))
    decreases SizeAll(entries), 1
  {
    if entries == [] then acc
    else
      SizeDecreases(entries);
      Capture(dir, entries[1..], CaptureEntry(dir, entries[0], acc))
  }

  function CaptureEntry(dir: string, n: Node, acc: Snapshot): (r: Snapshot)
    ensures forall k :: k in acc ==> k in r
    ensures forall k :: k in r && !(k in acc && r[k] == acc[k]) ==> r[k].id == Some(Text(PathId(k)))
    decreases Size(n), 0
  {
    var path := Resolve(dir, n.name);
    match n
    case Dir(_, children) => Capture(path, children, acc)
    case File(name, digest) => acc[path := Tracked(PathId(path), name, digest)]
  }

  /** A file the walk visits: its full path, its name in its directory and the
      digest of its content. */
  datatype Found = Found(path: string, name: string, digest: string)

  /** The files under `entries`, in walk order. */
  function FileList(dir: string, entries: seq<Node>): seq<Found>
    decreases SizeAll(entries), 1
  {
    if entries == [] then []
    else
      SizeDecreases(entries);
      EntryFileList(dir, entries[0]) + FileList(dir, entries[1..])
  }

  function EntryFileList(dir: string, n: Node): seq<Found>
    decreases Size(n), 0
  {
    var path := Resolve(dir, n.name);
    match n
    case Dir(_, children) => FileList(path, children)
    case File(name, digest) => [Found(path, name, digest)]
  }

  function PathsOf(fs: seq<Found>): (r: seq<string>)
    ensures |r| == |fs| && forall i :: 0 <= i < |fs| ==> r[i] == fs[i].path
  {
    seq(|fs|, i requires 0 <= i < |fs| => fs[i].path)
  }

  /** The full paths of the files under `entries`, in walk order. */
  function FilePaths(dir: string, entries: seq<Node>): seq<string> {
    PathsOf(FileList(dir, entries))
  }

  /** The entry `{id, name, hash}` init writes for a file. */
  function EntryOf(f: Found): Entry {
    Tracked(PathId(f.path), f.name, f.digest)
  }

  /** Writing the entries of `fs` one after the other, each under its path. */
  function Record(acc: Snapshot, fs: seq<Found>): Snapshot
    decreases |fs|
  {
    if fs == [] then acc else Record(acc[fs[0].path := EntryOf(fs[0])], fs[1..])
  }

  lemma {:induction false} RecordConcat(acc: Snapshot, a: seq<Found>, b: seq<Found>)
    ensures Record(acc, a + b) == Record(Record(acc, a), b)
    decreases |a|
  {
    if a == [] {
      assert a + b == b;
    } else {
      assert (a + b)[1..] == a[1..] + b;
      RecordConcat(acc[a[0].path := EntryOf(a[0])], a[1..], b);
    }
  }

  /** The walk writes exactly the entries of its file list, in order. */
  lemma {:induction false} CaptureIsRecord(dir: string, entries: seq<Node>, acc: Snapshot)
    ensures Capture(dir, entries, acc) == Record(acc, FileList(dir, entries))
    decreases SizeAll(entries), 1
  {
    if entries != [] {
      SizeDecreases(entries);
      var mid := CaptureEntry(dir, entries[0], acc);
      CaptureEntryIsRecord(dir, entries[0], acc);
      CaptureIsRecord(dir, entries[1..], mid);
      RecordConcat(acc, EntryFileList(dir, entries[0]), FileList(dir, entries[1..]));
    }
  }

  lemma {:induction false} CaptureEntryIsRecord(dir: string, n: Node, acc: Snapshot)
    ensures CaptureEntry(dir, n, acc) == Record(acc, EntryFileList(dir, n))
    decreases Size(n), 0
  {
    if n.Dir? {
      CaptureIsRecord(Resolve(dir, n.name), n.children, acc);
    } else {
      var f := Found(Resolve(dir, n.name), n.name, n.digest);
      assert Record(acc, [f]) == Record(acc[f.path := EntryOf(f)], []);
    }
  }

  /** The keys after recording are the earlier keys and the recorded paths. */
  lemma {:induction false} RecordKeys(acc: Snapshot, fs: seq<Found>)
    ensures forall k :: k in Record(acc, fs) <==> k in acc || k in PathsOf(fs)
    decreases |fs|
  {
    if fs != [] {
      RecordKeys(acc[fs[0].path := EntryOf(fs[0])], fs[1..]);
      assert forall k :: k in PathsOf(fs) <==> k == fs[0].path || k in PathsOf(fs[1..]) by {
        assert PathsOf(fs) == [fs[0].path] + PathsOf(fs[1..]);
      }
    }
  }

  /** The file `fs[i]` is the last one recorded under its path. */
  predicate LastAt(fs: seq<Found>, i: nat)
    requires i < |fs|
  {
    forall j :: i < j < |fs| ==> fs[j].path != fs[i].path
  }

  /** A path holds the entry of the last file recorded under it. */
  lemma {:induction false} RecordLast(acc: Snapshot, fs: seq<Found>, i: nat)
    requires i < |fs| && LastAt(fs, i)
    ensures fs[i].path in Record(acc, fs) && Record(acc, fs)[fs[i].path] == EntryOf(fs[i])
    decreases |fs|
  {
    var next := acc[fs[0].path := EntryOf(fs[0])];
    if i == 0 {
      RecordUntouched(next, fs[1..], fs[0].path);
    } else {
      assert fs[1..][i - 1] == fs[i];
      RecordLast(next, fs[1..], i - 1);
    }
  }

  /** Recording files at other paths leaves a key alone. */
  lemma {:induction false} RecordUntouched(acc: Snapshot, fs: seq<Found>, k: string)
    requires k in acc
    requires forall j :: 0 <= j < |fs| ==> fs[j].path != k
    ensures k in Record(acc, fs) && Record(acc, fs)[k] == acc[k]
    decreases |fs|
  {
    if fs != [] {
      RecordUntouched(acc[fs[0].path := EntryOf(fs[0])], fs[1..], k);
    }
  }

  /** The captured keys are exactly the previous keys and the paths of the files
      in the tree: no file is filtered out and no directory gets an entry. */
  lemma CaptureKeys(dir: string, entries: seq<Node>, acc: Snapshot)
    ensures forall k :: k in Capture(dir, entries, acc) <==> k in acc || k in FilePaths(dir, entries)
  {
    CaptureIsRecord(dir, entries, acc);
    RecordKeys(acc, FileList(dir, entries));
  }

  /** The full paths the walk `stat`s under `entries`, folders included, in
      walk order: each entry's own path, then for a folder the paths under it. */
  function VisitedPaths(dir: string, entries: seq<Node>): seq<string>
    decreases SizeAll(entries), 1
  {
    if entries == [] then []
    else
      SizeDecreases(entries);
      EntryVisitedPaths(dir, entries[0]) + VisitedPaths(dir, entries[1..])
  }

  function EntryVisitedPaths(dir: string, n: Node): seq<string>
    decreases Size(n), 0
  {
    var path := Resolve(dir, n.name);
    match n
    case Dir(_, children) => [path] + VisitedPaths(path, children)
    case File(_, _) => [path]
  }

  /** The walk from `cwd` throws: `readdir` of `cwd` fails, or some path it
      visits cannot be `stat`ed, listed (a folder) or read (a file). `failing`
      is the set of full paths on which one of those calls throws. */
  predicate WalkThrows(cwd: string, listing: seq<Node>, failing: set<string>) {
    cwd in failing || exists i :: 0 <= i < |VisitedPaths(cwd, listing)| && VisitedPaths(cwd, listing)[i] in failing
  }

  /** Every file the walk records is a path it visits. */
  lemma {:induction false} FilesVisited(dir: string, entries: seq<Node>)
    ensures forall i :: 0 <= i < |FileList(dir, entries)| ==> FileList(dir, entries)[i].path in VisitedPaths(dir, entries)
    decreases SizeAll(entries), 1
  {
    if entries != [] {
      SizeDecreases(entries);
      EntryFilesVisited(dir, entries[0]);
      FilesVisited(dir, entries[1..]);
      var a: seq<Found>, b: seq<Found> := EntryFileList(dir, entries[0]), FileList(dir, entries[1..]);
      forall i | 0 <= i < |a + b|
        ensures (a + b)[i].path in VisitedPaths(dir, entries)
      {
        if i < |a| {
          assert (a + b)[i] == a[i];
        } else {
          assert (a + b)[i] == b[i - |a|];
        }
      }
    }
  }

  lemma {:induction false} EntryFilesVisited(dir: string, n: Node)
    ensures forall i :: 0 <= i < |EntryFileList(dir, n)| ==> EntryFileList(dir, n)[i].path in EntryVisitedPaths(dir, n)
    decreases Size(n), 0
  {
    if n.Dir? {
      FilesVisited(Resolve(dir, n.name), n.children);
    }
  }

  /** The state `initRepo` leaves behind. `captured` says whether the walk
      finished and its snapshot was written over the empty one. */
  datatype Initialised = Initialised(
    config: Config,
    logs: seq<LogRecord>,
    oldSnapshot: Snapshot,
    newSnapshot: Snapshot,
    ignoreFile: string,
    captured: bool)

  /** `initRepo()` in the absolute directory `cwd`. `listing` is the working tree
      as the walk finds it, after init has written `.slot/config.json`,
      `.slot/logs.json`, the two empty snapshots and `.slotignore`, so those
      files are captured too. The walk builds the snapshot in memory and writes
      it only when it finishes: when it throws on a path in `failing`, every
      other file is already written and `oldSnapshot.json` stays `{}`.
      Otherwise each file's entry is keyed by its full path and holds its path
      id, its name in its directory and its digest; when two files share a full
      path, the later one in walk order wins. */
  function InitRepo(cwd: string, listing: seq<Node>, failing: set<string>): (r: Initialised)
    ensures r.config == EmptyConfig && r.logs == [] && r.newSnapshot == map[]
    ensures r.ignoreFile == DefaultIgnore
    ensures r.captured <==> !WalkThrows(cwd, listing, failing)
    ensures !r.captured ==> r.oldSnapshot == map[]
    ensures r.captured ==> forall k :: k in r.oldSnapshot <==> k in FilePaths(cwd, listing)
    ensures forall k :: k in r.oldSnapshot ==> r.oldSnapshot[k].id == Some(Text(PathId(k)))
    ensures r.captured ==> var fs := FileList(cwd, listing);
      forall i :: 0 <= i < |fs| && LastAt(fs, i) ==>
        r.oldSnapshot[fs[i].path] == Tracked(PathId(fs[i].path), fs[i].name, fs[i].digest)
  {
    if WalkThrows(cwd, listing, failing) then Initialised(EmptyConfig, [], map[], map[], DefaultIgnore, false)
    else
      var snapshot := Capture(cwd, listing, map[]);
      CaptureKeys(cwd, listing, map[]);
      CaptureIsRecord(cwd, listing, map[]);
      var fs := FileList(cwd, listing);
      forall i | 0 <= i < |fs| && LastAt(fs, i)
        ensures fs[i].path in snapshot && snapshot[fs[i].path] == EntryOf(fs[i])
      {
        RecordLast(map[], fs, i);
      }
      Initialised(EmptyConfig, [], snapshot, map[], DefaultIgnore, true)
  }

  /** A file of the tree that cannot be read makes init keep the empty
      snapshot, although its other files are written. */
  lemma UnreadableFileKeepsEmpty(cwd: string, listing: seq<Node>, failing: set<string>, i: nat)
    requires i < |FileList(cwd, listing)| && FileList(cwd, listing)[i].path in failing
    ensures var r := InitRepo(cwd, listing, failing);
      !r.captured && r.oldSnapshot == map[] && r.ignoreFile == DefaultIgnore && r.config == EmptyConfig
  {
    FilesVisited(cwd, listing);
    var ps := VisitedPaths(cwd, listing);
    var j :| 0 <= j < |ps| && ps[j] == FileList(cwd, listing)[i].path;
    assert ps[j] in failing;
  }
}

=== FILE: paths.dfy ===
/**
 * The parts of Node's POSIX `path` module the controllers use: `path.resolve`
 * against a working directory, `path.basename` and `path.dirname`, and the
 * folders `fs.mkdir(..., { recursive: true })` makes for a path.
 */
module Paths {
  import opened Strings

  /** A path segment `path.resolve` keeps as it is. */
  predicate PlainSegment(seg: string) {
    seg != "" && seg != "." && seg != ".." && '/' !in seg
  }

  predicate AllPlain(segs: seq<string>) {
    forall i :: 0 <= i < |segs| ==> PlainSegment(segs[i])
  }

  /** Folds segments left to right onto `acc`: empty and `.` segments vanish,
      `..` removes the last kept segment (and stays at the root). */
  function NormalizeSegments(segs: seq<string>, acc: seq<string>): (r: seq<string>)
    requires forall i :: 0 <= i < |segs| ==> '/' !in segs[i]
    requires AllPlain(acc)
    ensures AllPlain(r)
    decreases |segs|
  {
    if segs == [] then acc
    else if segs[0] == "" || segs[0] == "." then NormalizeSegments(segs[1..], acc)
    else if segs[0] == ".." then NormalizeSegments(segs[1..], if acc == [] then [] else acc[..|acc| - 1])
    else NormalizeSegments(segs[1..], acc + [segs[0]])
  }

  /** Segments that are already plain pass through normalisation unchanged. */
  lemma {:induction false} NormalizePlain(segs: seq<string>, acc: seq<string>)
    requires AllPlain(acc) && AllPlain(segs)
    ensures NormalizeSegments(segs, acc) == acc + segs
    decreases |segs|
  {
    if segs != [] {
      assert PlainSegment(segs[0]);
      NormalizePlain(segs[1..], acc + [segs[0]]);
      assert acc + [segs[0]] + segs[1..] == acc + segs;
    }
  }

  /** `path.resolve(cwd, p)` on POSIX for an absolute `cwd`: `p` itself when it is
      absolute, otherwise `p` appended to `cwd`; then `.`, `..`, repeated and
      trailing slashes are normalised away. */
  function Resolve(cwd: string, p: string): (r: string)
    ensures r != [] && r[0] == '/'
  {
    var segs := if p != [] && p[0] == '/' then Split(p, '/') else Split(cwd, '/') + Split(p, '/');
    AbsoluteFrom(NormalizeSegments(segs, []))
  }

  /** The absolute path whose segments are `segs`. */
  function AbsoluteFrom(segs: seq<string>): string {
    "/" + Join(segs, '/')
  }

  /** The segments of an absolute path built from plain segments are those segments. */
  lemma AbsoluteSplit(segs: seq<string>)
    requires AllPlain(segs)
    ensures Split(AbsoluteFrom(segs), '/') == [""] + (if segs == [] then [""] else segs)
  {
    SplitConcat([], Join(segs, '/'), '/');
    assert AbsoluteFrom(segs) == [] + ['/'] + Join(segs, '/');
    if segs == [] {
      assert Split([], '/') == [""];
    } else {
      SplitJoin(segs, '/');
    }
  }

  /** A resolved path is a fixed point of resolution. */
  lemma ResolveIdempotent(cwd: string, p: string)
    ensures Resolve(cwd, Resolve(cwd, p)) == Resolve(cwd, p)
  {
    var segs := if p != [] && p[0] == '/' then Split(p, '/') else Split(cwd, '/') + Split(p, '/');
    var n := NormalizeSegments(segs, []);
    var r := Resolve(cwd, p);
    assert r == AbsoluteFrom(n);
    AbsoluteSplit(n);
    var tail := if n == [] then [""] else n;
    assert Split(r, '/') == [""] + tail;
    assert ([""] + tail)[1..] == tail;
    assert NormalizeSegments([""] + tail, []) == NormalizeSegments(tail, []);
    if n != [] {
      NormalizePlain(n, []);
      assert [] + n == n;
    } else {
      assert NormalizeSegments([""], []) == NormalizeSegments([], []);
    }
  }

  /** Resolving a plain name against a normalised absolute directory appends it. */
  lemma ResolveChild(segs: seq<string>, name: string)
    requires AllPlain(segs) && PlainSegment(name)
    ensures Resolve(AbsoluteFrom(segs), name) == AbsoluteFrom(segs + [name])
  {
    var cwd := AbsoluteFrom(segs);
    AbsoluteSplit(segs);
    SplitNoSep(name, '/');
    var tail := if segs == [] then [""] else segs;
    var all := [""] + tail + [name];
    assert name[0] != '/';
    assert Split(cwd, '/') + Split(name, '/') == all;
    assert all[1..] == tail + [name];
    assert NormalizeSegments(all, []) == NormalizeSegments(tail + [name], []);
    if segs == [] {
      assert (tail + [name])[1..] == [name];
      assert NormalizeSegments(tail + [name], []) == NormalizeSegments([name], []);
      assert [name][1..] == [];
      assert NormalizeSegments([name], []) == NormalizeSegments([], [name]) == [name];
      assert segs + [name] == [name];
    } else {
      assert AllPlain(segs + [name]);
      NormalizePlain(segs + [name], []);
      assert [] + (segs + [name]) == segs + [name];
    }
  }

  /** The last non-empty segment, or "" when there is none. */
  function LastNonEmpty(segs: seq<string>): string
    decreases |segs|
  {
    if segs == [] then ""
    else if segs[|segs| - 1] != "" then segs[|segs| - 1]
    else LastNonEmpty(segs[..|segs| - 1])
  }

  /** `path.basename(p)` on POSIX: the last segment, ignoring trailing slashes. */
  function Basename(p: string): (r: string)
    ensures '/' !in r
  {
    BasenameNoSlash(Split(p, '/'));
    LastNonEmpty(Split(p, '/'))
  }

  lemma {:induction false} BasenameNoSlash(segs: seq<string>)
    requires forall i :: 0 <= i < |segs| ==> '/' !in segs[i]
    ensures '/' !in LastNonEmpty(segs)
    decreases |segs|
  {
    if segs != [] && segs[|segs| - 1] == "" {
      BasenameNoSlash(segs[..|segs| - 1]);
    }
  }

  /** A non-empty name without a slash is its own base name. */
  lemma BasenamePlain(name: string)
    requires name != "" && '/' !in name
    ensures Basename(name) == name
  {
    SplitNoSep(name, '/');
  }

  /** The base name of `dir/name` is `name` for a non-empty, slash-free `name`. */
  lemma BasenameChild(dir: string, name: string)
    requires name != "" && '/' !in name
    ensures Basename(dir + "/" + name) == name
  {
    SplitConcat(dir, name, '/');
    SplitNoSep(name, '/');
    assert dir + "/" + name == dir + ['/'] + name;
  }

  /** Scanning `p` down from index `i` to index 1: the index of the `/` just
      before the last segment, or -1. `matched` holds while only slashes have
      been seen, so trailing slashes are skipped. */
  function DirnameEnd(p: string, i: nat, matched: bool): (e: int)
    requires i < |p|
    ensures e == -1 || (1 <= e <= i && p[e] == '/')
    ensures matched && e != -1 ==> exists j :: e < j <= i && p[j] != '/'
    decreases i
  {
    if i < 1 then -1
    else if p[i] == '/' then (if !matched then i else DirnameEnd(p, i - 1, matched))
    else
      var e := DirnameEnd(p, i - 1, false);
      assert e != -1 ==> e < i && p[i] != '/';
      e
  }

  /** `path.dirname(p)` on POSIX: trailing slashes are dropped, then the last
      segment and the slash before it. A path with no such slash has folder `/`
      when it is absolute and `.` otherwise; a rooted path whose remaining
      slash is the second character has folder `//`. */
  function Dirname(p: string): (r: string)
    ensures '/' !in p ==> r == "."
    ensures r in {".", "/", "//"} || (0 < |r| < |p| && r == p[..|r|] && p[|r|] == '/')
    ensures r in {"/", "//"} ==> p != [] && p[0] == '/'
  {
    if p == [] then "."
    else
      var e := DirnameEnd(p, |p| - 1, true);
      if e == -1 then (if p[0] == '/' then "/" else ".")
      else if p[0] == '/' && e == 1 then "//"
      else p[..e]
  }

  /** The folders `mkdir(path.dirname(p), { recursive: true })` makes: every
      non-empty prefix of `p` that ends just before a `/`. */
  function Ancestors(p: string): (r: set<string>)
    ensures forall i :: 0 < i < |p| && p[i] == '/' ==> p[..i] in r
    ensures forall d :: d in r ==> 0 < |d| < |p| && d == p[..|d|] && p[|d|] == '/'
  {
    set i | 0 < i < |p| && p[i] == '/' :: p[..i]
  }

  /** The folder of `dir/name` is `dir` when `name` is a non-empty segment and
      `dir` is neither empty nor the root. */
  lemma DirnameChild(dir: string, name: string)
    requires dir != "" && dir != "/"
    requires name != "" && '/' !in name
    ensures Dirname(dir + "/" + name) == dir
  {
    var p := dir + "/" + name;
    assert p[..|dir|] == dir;
    DirnameSegment(p, |dir|, |p| - 1);
  }

  /** Scanning down through the segment after the slash at `k` stops at `k`. */
  lemma {:induction false} DirnameSegment(p: string, k: nat, i: nat)
    requires 1 <= k < i < |p| && p[k] == '/'
    requires forall j :: k < j < |p| ==> p[j] != '/'
    ensures DirnameEnd(p, i, true) == k && DirnameEnd(p, i, false) == k
    decreases i
  {
    if i - 1 > k {
      DirnameSegment(p, k, i - 1);
    }
  }

  /** A trailing slash does not change the folder. */
  lemma DirnameTrailingSlash(p: string)
    requires p != ""
    ensures Dirname(p + "/") == Dirname(p)
  {
    var q := p + "/";
    var e := DirnameEnd(p, |p| - 1, true);
    assert DirnameEnd(q, |q| - 1, true) == e by {
      DirnameEndSkip(q, |p|);
      DirnameEndPrefix(p, q, |p| - 1, true);
    }
    assert q[0] == p[0];
    assert e >= 1 ==> q[..e] == p[..e];
  }

  /** From a trailing slash, the scan goes on to the character before it. */
  lemma DirnameEndSkip(q: string, i: nat)
    requires 1 <= i < |q| && q[i] == '/'
    ensures DirnameEnd(q, i, true) == DirnameEnd(q, i - 1, true)
  {
  }

  /** The scan of a prefix is the scan of the longer string from the same index. */
  lemma {:induction false} DirnameEndPrefix(p: string, q: string, i: nat, matched: bool)
    requires i < |p| <= |q| && p == q[..|p|]
    ensures DirnameEnd(p, i, matched) == DirnameEnd(q, i, matched)
    decreases i
  {
    assert p[i] == q[i];
    if i >= 1 {
      DirnameEndPrefix(p, q, i - 1, matched);
      DirnameEndPrefix(p, q, i - 1, false);
    }
  }

  /** A name directly under the root has folder `/`. */
  lemma DirnameRoot(name: string)
    requires '/' !in name
    ensures Dirname("/" + name) == "/"
  {
    var p := "/" + name;
    if |p| > 1 {
      DirnameNoSlash(p, |p| - 1, true);
    }
  }

  /** With no slash at indices 1..i, the scan finds none. */
  lemma {:induction false} DirnameNoSlash(p: string, i: nat, matched: bool)
    requires 1 <= i < |p|
    requires forall j :: 1 <= j <= i ==> p[j] != '/'
    ensures DirnameEnd(p, i, matched) == -1
    decreases i
  {
    if i > 1 {
      DirnameNoSlash(p, i - 1, false);
    }
  }

  /** `mkdir(path.dirname(p), { recursive: true })` makes the folder of `p`,
      unless that is `.` or the root. */
  lemma DirnameMade(p: string)
    requires Dirname(p) !in {".", "/", "//"}
    ensures Dirname(p) in Ancestors(p)
  {
  }
}

=== FILE: pull.dfy ===
/**
 * `slot pull`: fetch the remote log, pick the highest commit, download its
 * manifest and files into the commit directory and the working tree, then
 * reset the snapshot flags and mark a required pull as done.
 */
module Pull {
  import opened Wrappers
  import opened Strings
  import opened Records
  import opened Paths
  import opened Selection
  import Push

  /** `repoIdentifier`: the last two `/`-separated parts of the remote URL. */
  function RepoIdentifier(url: string): (r: Option<string>)
    ensures r.Some? <==> |Split(url, '/')| >= 3
    ensures r.Some? ==> var parts := Split(url, '/');
      r.value == parts[|parts| - 2] + "/" + parts[|parts| - 1]
  {
    var parts := Split(url, '/');
    if |parts| < 3 then None else Some(parts[|parts| - 2] + "/" + parts[|parts| - 1])
  }

  /** For every URL push accepts, pull derives the same repository name. */
  lemma RepoIdentifierAgreesWithPush(url: string, user: string, repo: string)
    requires Push.ParsePushUrl(url) == Some((user, repo))
    ensures RepoIdentifier(url) == Some(Push.RepoName(user, repo))
  {
    Push.ParsePushUrlIff(url, user, repo);
    assert '/' !in user by { assert forall i :: 0 <= i < |user| ==> user[i] != '/'; }
    assert '/' !in repo by { assert forall i :: 0 <= i < |repo| ==> repo[i] != '/'; }
    var tail := user + ['/'] + repo;
    var host := "codeslot.in" + ['/'] + tail;
    var rest := "" + ['/'] + host;
    PrefixShape();
    assert url == "https:" + ['/'] + rest;
    var parts := SplitCodeslot(user, repo);
    assert Split(url, '/') == parts;
  }

  lemma PrefixShape()
    ensures Push.CodeslotPrefix == "https:" + ['/'] + "" + ['/'] + "codeslot.in" + ['/']
  {
  }

  lemma SplitCodeslot(user: string, repo: string) returns (parts: seq<string>)
    requires '/' !in user && '/' !in repo
    ensures parts == ["https:", "", "codeslot.in", user, repo]
    ensures Split("https:" + ['/'] + ("" + ['/'] + ("codeslot.in" + ['/'] + (user + ['/'] + repo))), '/') == parts
  {
    var tail := user + ['/'] + repo;
    SplitNoSep(repo, '/');
    SplitCons(user, repo);
    var host := "codeslot.in" + ['/'] + tail;
    SplitCons("codeslot.in", tail);
    var rest := "" + ['/'] + host;
    SplitCons("", host);
    SplitCons("https:", rest);
    parts := ["https:", "", "codeslot.in", user, repo];
  }

  /** Splitting a separator-free head off the front. */
  lemma SplitCons(head: string, rest: string)
    requires '/' !in head
    ensures Split(head + ['/'] + rest, '/') == [head] + Split(rest, '/')
  {
    SplitConcat(head, rest, '/');
    SplitNoSep(head, '/');
  }

  /** `commits/<id>/logs.json`. */
  function LogsKey(id: string): string {
    "commits/" + id + "/logs.json"
  }

  /** `commits/<id>/<commitID>/`. */
  function CommitKeyPrefix(id: string, commitID: string): string {
    "commits/" + id + "/" + commitID + "/"
  }

  /** `commits/<id>/<commitID>/commitData.json`. */
  function ManifestKey(id: string, commitID: string): string {
    CommitKeyPrefix(id, commitID) + "commitData.json"
  }

  /** How a manifest entry's `path` appears in a template string. */
  function PathText(e: Entry): string {
    if e.path.Some? then e.path.value else "undefined"
  }

  /** `fileKeys`: one key per manifest entry, in manifest order, then `commit.json`. */
  function FileKeys(id: string, commitID: string, manifest: seq<Entry>): (keys: seq<string>)
    ensures |keys| == |manifest| + 1
    ensures forall i :: 0 <= i < |manifest| ==> keys[i] == CommitKeyPrefix(id, commitID) + PathText(manifest[i])
    ensures keys[|manifest|] == CommitKeyPrefix(id, commitID) + "commit.json"
  {
    seq(|manifest|, i requires 0 <= i < |manifest| => CommitKeyPrefix(id, commitID) + PathText(manifest[i]))
      + [CommitKeyPrefix(id, commitID) + "commit.json"]
  }

  /** `commitData.json`: its properties in order, as (key, entry). */
  type Manifest = seq<(string, Entry)>

  /** `Object.values(commitData)`. */
  function Values(m: Manifest): (vs: seq<Entry>)
    ensures |vs| == |m| && forall i :: 0 <= i < |m| ==> vs[i] == m[i].1
  {
    seq(|m|, i requires 0 <= i < |m| => m[i].1)
  }

  /** Where the download loop got to: the index it stopped at (the number of
      keys when it ran to the end), the files written so far (by path) and the
      folders that exist. */
  datatype Progress = Progress(reached: nat, files: map<string, string>, dirs: set<string>)

  /** Iteration `j` gets past its reads: the object exists and the entry has a `path`. */
  predicate Passes(entries: seq<Entry>, keys: seq<string>, bucket: map<string, string>, j: nat)
    requires j < |keys|
  {
    keys[j] in bucket && j < |entries| && entries[j].path.Some?
  }

  /** Iteration `j` throws: a read fails, or the commit-folder write has no
      parent folder to write into (when parents are not made first). */
  predicate Throws(entries: seq<Entry>, keys: seq<string>, bucket: map<string, string>, dir: string,
                   makeParents: bool, dirs: set<string>, j: nat)
    requires j < |keys|
  {
    !Passes(entries, keys, bucket, j) || (!makeParents && Dirname(dir + "/" + entries[j].path.value) !in dirs)
  }

  /** The download loop from index `i` on: the i-th key's object is written to
      `dir/<path>` of the i-th entry and then, after its folders are made, to
      `<path>` under the working root. `makeParents` makes the folders of the
      commit-folder copy first; without it a missing folder throws, as
      `fs.writeFile` does. A throw ends the loop with everything written so far. */
  function Download(entries: seq<Entry>, keys: seq<string>, bucket: map<string, string>, dir: string, makeParents: bool,
                    files: map<string, string>, dirs: set<string>, i: nat): (r: Progress)
    requires i <= |keys|
    ensures i <= r.reached <= |keys|
    ensures i <= |entries| < |keys| ==> r.reached < |keys|
    ensures forall j :: i <= j < r.reached ==> Passes(entries, keys, bucket, j)
    ensures r.reached < |keys| ==> Throws(entries, keys, bucket, dir, makeParents, r.dirs, r.reached)
    ensures makeParents ==> (r.reached == |keys| <==> forall j :: i <= j < |keys| ==> Passes(entries, keys, bucket, j))
    ensures forall k :: k in files ==> k in r.files
    ensures dirs <= r.dirs
    decreases |keys| - i
  {
    if i == |keys| then Progress(i, files, dirs)
    else if Throws(entries, keys, bucket, dir, makeParents, dirs, i) then Progress(i, files, dirs)
    else
      var p := entries[i].path.value;
      var c := bucket[keys[i]];
      var made := if makeParents then dirs + Ancestors(dir + "/" + p) else dirs;
      Download(entries, keys, bucket, dir, makeParents, files[dir + "/" + p := c][p := c], made + Ancestors(p), i + 1)
  }

  /** Every iteration the loop got past wrote its object to both places, when
      the paths are distinct. */
  lemma {:induction false} DownloadWrites(entries: seq<Entry>, keys: seq<string>, bucket: map<string, string>, dir: string,
                                          makeParents: bool, files: map<string, string>, dirs: set<string>, i: nat, j: nat)
    requires i <= |keys| && i <= j < Download(entries, keys, bucket, dir, makeParents, files, dirs, i).reached
    requires forall a, b :: 0 <= a < b < |entries| && entries[a].path.Some? && entries[b].path.Some? ==> entries[a].path != entries[b].path
    requires forall a, b :: 0 <= a < |entries| && 0 <= b < |entries| && entries[a].path.Some? && entries[b].path.Some? ==> dir + "/" + entries[a].path.value != entries[b].path.value
    ensures Passes(entries, keys, bucket, j)
    ensures var r := Download(entries, keys, bucket, dir, makeParents, files, dirs, i).files; var p := entries[j].path.value;
      dir + "/" + p in r && p in r && r[dir + "/" + p] == bucket[keys[j]] && r[p] == bucket[keys[j]]
    decreases |keys| - i
  {
    DownloadStep(entries, keys, bucket, dir, makeParents, files, dirs, i);
    if i == j {
      DownloadWritesHere(entries, keys, bucket, dir, makeParents, files, dirs, i);
    } else {
      var p := entries[i].path.value;
      var c := bucket[keys[i]];
      var made := if makeParents then dirs + Ancestors(dir + "/" + p) else dirs;
      DownloadWrites(entries, keys, bucket, dir, makeParents, files[dir + "/" + p := c][p := c], made + Ancestors(p), i + 1, j);
    }
  }

  /** The iteration at `i` writes both copies, and no later one overwrites them. */
  lemma DownloadWritesHere(entries: seq<Entry>, keys: seq<string>, bucket: map<string, string>, dir: string,
                           makeParents: bool, files: map<string, string>, dirs: set<string>, i: nat)
    requires i <= |keys| && i < Download(entries, keys, bucket, dir, makeParents, files, dirs, i).reached
    requires forall a, b :: 0 <= a < b < |entries| && entries[a].path.Some? && entries[b].path.Some? ==> entries[a].path != entries[b].path
    requires forall a, b :: 0 <= a < |entries| && 0 <= b < |entries| && entries[a].path.Some? && entries[b].path.Some? ==> dir + "/" + entries[a].path.value != entries[b].path.value
    ensures Passes(entries, keys, bucket, i)
    ensures var r := Download(entries, keys, bucket, dir, makeParents, files, dirs, i).files; var p := entries[i].path.value;
      dir + "/" + p in r && p in r && r[dir + "/" + p] == bucket[keys[i]] && r[p] == bucket[keys[i]]
  {
    DownloadStep(entries, keys, bucket, dir, makeParents, files, dirs, i);
    var p := entries[i].path.value;
    var c := bucket[keys[i]];
    var made := if makeParents then dirs + Ancestors(dir + "/" + p) else dirs;
    WritesSurvive(entries, keys, bucket, dir, makeParents, files[dir + "/" + p := c][p := c], made + Ancestors(p), i + 1, p, c);
  }

  /** Both copies of `p` outlast the rest of the loop when no later entry names either. */
  lemma WritesSurvive(entries: seq<Entry>, keys: seq<string>, bucket: map<string, string>, dir: string,
                      makeParents: bool, files: map<string, string>, dirs: set<string>, i: nat, p: string, c: string)
    requires i <= |keys|
    requires dir + "/" + p in files && p in files && files[dir + "/" + p] == c && files[p] == c
    requires forall a :: i <= a < |entries| && entries[a].path.Some? ==>
      entries[a].path.value != p && entries[a].path.value != dir + "/" + p && dir + "/" + entries[a].path.value != p
    ensures var r := Download(entries, keys, bucket, dir, makeParents, files, dirs, i).files;
      dir + "/" + p in r && p in r && r[dir + "/" + p] == c && r[p] == c
  {
    forall a | i <= a < |entries| && entries[a].path.Some?
      ensures dir + "/" + p != dir + "/" + entries[a].path.value
    {
      UnderDirInjective(dir, p, entries[a].path.value);
    }
    DownloadKeeps(entries, keys, bucket, dir, makeParents, files, dirs, i, dir + "/" + p);
    DownloadKeeps(entries, keys, bucket, dir, makeParents, files, dirs, i, p);
  }

  /** An iteration the loop gets past writes both copies and goes on. */
  lemma DownloadStep(entries: seq<Entry>, keys: seq<string>, bucket: map<string, string>, dir: string,
                     makeParents: bool, files: map<string, string>, dirs: set<string>, i: nat)
    requires i <= |keys| && i < Download(entries, keys, bucket, dir, makeParents, files, dirs, i).reached
    ensures Passes(entries, keys, bucket, i)
    ensures var p := entries[i].path.value; var c := bucket[keys[i]];
      var made := if makeParents then dirs + Ancestors(dir + "/" + p) else dirs;
      Download(entries, keys, bucket, dir, makeParents, files, dirs, i) ==
      Download(entries, keys, bucket, dir, makeParents, files[dir + "/" + p := c][p := c], made + Ancestors(p), i + 1)
  {
  }

  lemma UnderDirInjective(dir: string, p: string, q: string)
    requires p != q
    ensures dir + "/" + p != dir + "/" + q
  {
    assert (dir + "/" + p)[|dir| + 1..] == p;
    assert (dir + "/" + q)[|dir| + 1..] == q;
  }

  /** A file the rest of the loop does not name keeps its contents, however the loop ends. */
  lemma {:induction false} DownloadKeeps(entries: seq<Entry>, keys: seq<string>, bucket: map<string, string>, dir: string,
                                         makeParents: bool, files: map<string, string>, dirs: set<string>, i: nat, k: string)
    requires i <= |keys| && k in files
    requires forall a :: i <= a < |entries| && entries[a].path.Some? ==> k != dir + "/" + entries[a].path.value && k != entries[a].path.value
    ensures Download(entries, keys, bucket, dir, makeParents, files, dirs, i).files[k] == files[k]
    decreases |keys| - i
  {
    if i < |keys| && !Throws(entries, keys, bucket, dir, makeParents, dirs, i) {
      var p := entries[i].path.value;
      var c := bucket[keys[i]];
      var made := if makeParents then dirs + Ancestors(dir + "/" + p) else dirs;
      DownloadKeeps(entries, keys, bucket, dir, makeParents, files[dir + "/" + p := c][p := c], made + Ancestors(p), i + 1, k);
    }
  }

  /** `for...in` over the snapshot read back from `commitData.json`: every entry
      gets `change = false`, `new = false`, `pull = true`. */
  function ResetFlags(m: Manifest): (r: Manifest)
    ensures |r| == |m|
    ensures forall i :: 0 <= i < |m| ==> (r[i].0 == m[i].0 &&
      r[i].1 == m[i].1.(change := Some(false), isNew := Some(false), pull := Some(true)))
  {
    seq(|m|, i requires 0 <= i < |m| => (m[i].0, m[i].1.(change := Some(false), isNew := Some(false), pull := Some(true))))
  }

  /** Resetting the flags twice is resetting them once. */
  lemma ResetFlagsIdempotent(m: Manifest)
    ensures ResetFlags(ResetFlags(m)) == ResetFlags(m)
  {
  }

  /** `config.pull`: `"required"` becomes `"done"`, anything else stays. */
  function MarkPulled(c: Config): (r: Config)
    ensures r.token == c.token && r.username == c.username
    ensures c.pull == Some("required") ==> r.pull == Some("done")
    ensures c.pull != Some("required") ==> r == c
  {
    if c.pull == Some("required") then c.(pull := Some("done")) else c
  }

  /** The pull-state transition ends in `"done"` and stays there. */
  lemma MarkPulledSettles(c: Config)
    ensures MarkPulled(MarkPulled(c)) == MarkPulled(c)
    ensures MarkPulled(c).pull != Some("required")
  {
  }

  /** Everything pull reads besides its local state: the remote URL and the
      bucket (key to object, as text). `logs` and `manifests` are the bucket's log and manifest
      objects parsed; a key is absent from them when its object does not parse.
      `None` is a local file that cannot be read or parsed. */
  datatype PullInput = PullInput(
    remote: Option<string>,
    bucket: map<string, string>,
    logs: map<string, seq<LogRecord>>,
    manifests: map<string, Manifest>)

  /** The local state pull reads and writes: `.slot/logs.json` (as text), the
      folders that exist, the files written (by path), `oldsnapshot.json` and
      `config.json` (`None` when it cannot be read or parsed). */
  datatype Local = Local(
    logs: Option<string>,
    dirs: set<string>,
    files: map<string, string>,
    snapshot: Option<Manifest>,
    config: Option<Config>)

  datatype PullOutcome = PullFailed | NoCommitID | Pulled

  /** Everything up to the download loop: either an early outcome with the local
      state at that point, or what the loop needs. */
  datatype Fetched =
    | Early(outcome: PullOutcome, local: Local)
    | Loaded(local: Local, config: Config, id: string, commitID: string, manifest: Manifest)

  /** The commit folder pull downloads into. */
  function CommitDir(commitID: string): string {
    ".slot/commits/" + commitID
  }

  /** `mkdir(dir, { recursive: true })`. */
  function MakeDir(dirs: set<string>, dir: string): (r: set<string>)
    ensures dir in r && dirs <= r
  {
    dirs + {dir} + Ancestors(dir)
  }

  /** The reads before the loop: remote and config, the log object (written to
      `logs.json` as fetched, then parsed), the chosen commit, its folder, and
      the manifest object (written to `commitData.json` in that folder, then
      parsed). */
  function Fetch(inp: PullInput, local: Local): (f: Fetched)
    ensures f.local.snapshot == local.snapshot && f.local.config == local.config
    ensures (inp.remote.None? || local.config.None? || RepoIdentifier(inp.remote.value).None? ||
             LogsKey(RepoIdentifier(inp.remote.value).value) !in inp.bucket) ==> f == Early(PullFailed, local)
    ensures inp.remote.Some? && local.config.Some? && RepoIdentifier(inp.remote.value).Some? &&
            LogsKey(RepoIdentifier(inp.remote.value).value) in inp.bucket ==>
      f.local.logs == Some(inp.bucket[LogsKey(RepoIdentifier(inp.remote.value).value)])
    ensures f.Early? && f.outcome == NoCommitID ==> f.local.dirs == local.dirs && f.local.files == local.files
    ensures f.Loaded? ==> (
      && local.config == Some(f.config) && RepoIdentifier(inp.remote.value) == Some(f.id)
      && LogsKey(f.id) in inp.logs
      && (var logs := inp.logs[LogsKey(f.id)]; logs != [] && logs[ClientSelect(logs)].commitID == Some(f.commitID))
      && f.commitID != ""
      && ManifestKey(f.id, f.commitID) in inp.bucket && ManifestKey(f.id, f.commitID) in inp.manifests
      && inp.manifests[ManifestKey(f.id, f.commitID)] == f.manifest
      && f.local.dirs == MakeDir(local.dirs, CommitDir(f.commitID))
      && f.local.files == local.files[CommitDir(f.commitID) + "/commitData.json" := inp.bucket[ManifestKey(f.id, f.commitID)]])
  {
    if inp.remote.None? || local.config.None? then Early(PullFailed, local)
    else match RepoIdentifier(inp.remote.value)
      case None => Early(PullFailed, local)
      case Some(id) =>
        if LogsKey(id) !in inp.bucket then Early(PullFailed, local)
        else
          var local1 := local.(logs := Some(inp.bucket[LogsKey(id)]));
          if LogsKey(id) !in inp.logs then Early(PullFailed, local1)
          else
            var logs := inp.logs[LogsKey(id)];
            if logs == [] then Early(PullFailed, local1)
            else
              var commitID := logs[ClientSelect(logs)].commitID;
              if commitID.None? || commitID.value == "" then Early(NoCommitID, local1)
              else
                var dir := CommitDir(commitID.value);
                var local2 := local1.(dirs := MakeDir(local1.dirs, dir));
                var key := ManifestKey(id, commitID.value);
                if key !in inp.bucket then Early(PullFailed, local2)
                else
                  var local3 := local2.(files := local2.files[dir + "/commitData.json" := inp.bucket[key]]);
                  if key !in inp.manifests then Early(PullFailed, local3)
                  else Loaded(local3, local.config.value, id, commitID.value, inp.manifests[key])
  }

  /** The last steps: the snapshot reset and the config update. */
  function Finish(local: Local, config: Config, manifest: Manifest): (r: Local)
    ensures r.snapshot == Some(ResetFlags(manifest)) && r.config == Some(MarkPulled(config))
    ensures r.logs == local.logs && r.dirs == local.dirs && r.files == local.files
  {
    local.(snapshot := Some(ResetFlags(manifest)), config := Some(MarkPulled(config)))
  }

  /** The download keys a fetched manifest leads to: the manifest's file keys
      and `commit.json`, or only the file keys when the loop is `bounded`. */
  function LoopKeys(f: Fetched, bounded: bool): (keys: seq<string>)
    requires f.Loaded?
    ensures |keys| == |Values(f.manifest)| + (if bounded then 0 else 1)
    ensures forall j :: 0 <= j < |Values(f.manifest)| ==> keys[j] == FileKeys(f.id, f.commitID, Values(f.manifest))[j]
  {
    var keys := FileKeys(f.id, f.commitID, Values(f.manifest));
    if bounded then keys[..|Values(f.manifest)|] else keys
  }

  /** The download loop over a fetched manifest. */
  function Loop(inp: PullInput, f: Fetched, bounded: bool, makeParents: bool): (p: Progress)
    requires f.Loaded?
    ensures p.reached <= |LoopKeys(f, bounded)|
    ensures forall k :: k in f.local.files ==> k in p.files
    ensures f.local.dirs <= p.dirs
  {
    Download(Values(f.manifest), LoopKeys(f, bounded), inp.bucket, CommitDir(f.commitID), makeParents, f.local.files, f.local.dirs, 0)
  }

  /** `pullRepo` with the loop's bound and the commit-folder write as chosen. A
      throw in the loop keeps what was written and skips the snapshot reset
      and the config update. */
  function RunPull(inp: PullInput, local: Local, bounded: bool, makeParents: bool): (r: (PullOutcome, Local))
    ensures r.0 != Pulled ==> r.1.snapshot == local.snapshot && r.1.config == local.config
    ensures Fetch(inp, local).Early? ==> r == (Fetch(inp, local).outcome, Fetch(inp, local).local)
    ensures Fetch(inp, local).Loaded? ==> var f := Fetch(inp, local); var p := Loop(inp, f, bounded, makeParents);
      && r.1.files == p.files && r.1.dirs == p.dirs
      && (r.0 == Pulled <==> p.reached == |LoopKeys(f, bounded)|)
      && (r.0 == Pulled ==> r.1.snapshot == Some(ResetFlags(f.manifest)) && r.1.config == Some(MarkPulled(f.config)))
  {
    var f := Fetch(inp, local);
    match f
    case Early(outcome, l) => (outcome, l)
    case Loaded(l, config, _, _, m) =>
      var p := Loop(inp, f, bounded, makeParents);
      var l2 := l.(files := p.files, dirs := p.dirs);
      if p.reached < |LoopKeys(f, bounded)| then (PullFailed, l2)
      else (Pulled, Finish(l2, config, m))
  }

  /** `pullRepo` as written: the loop runs over all URLs, one more than there are
      manifest entries, and always throws on the last one, so the pull never
      completes and `oldsnapshot.json` and `config.json` are never rewritten. */
  function PullAsWritten(inp: PullInput, local: Local): (r: (PullOutcome, Local))
    ensures r.0 != Pulled
    ensures r.1.snapshot == local.snapshot && r.1.config == local.config
  {
    var f := Fetch(inp, local);
    if f.Loaded? then
      LoopThrowsUnbounded(inp, f);
      RunPull(inp, local, false, false)
    else RunPull(inp, local, false, false)
  }

  /** Over every key the loop always throws: the last key has no manifest entry. */
  lemma LoopThrowsUnbounded(inp: PullInput, f: Fetched)
    requires f.Loaded?
    ensures Loop(inp, f, false, false).reached < |LoopKeys(f, false)|
  {
  }

  /** `pullRepo` with the i-th URL paired with the i-th manifest entry for every
      entry (the extra `commit.json` URL is not used) and the commit-folder
      copy's folders made before it is written. */
  function PullRepo(inp: PullInput, local: Local): (r: (PullOutcome, Local))
    ensures r.0 != Pulled ==> r.1.snapshot == local.snapshot && r.1.config == local.config
    ensures r.0 == NoCommitID ==> r.1.dirs == local.dirs && r.1.files == local.files
    ensures r.0 == Pulled <==> (Fetch(inp, local).Loaded? && Complete(inp, Fetch(inp, local)))
    ensures r.0 == Pulled ==> (
      var f := Fetch(inp, local);
      r.1.snapshot == Some(ResetFlags(f.manifest)) &&
      r.1.config == Some(MarkPulled(f.config)) &&
      CommitDir(f.commitID) in r.1.dirs &&
      forall k :: k in f.local.files ==> k in r.1.files)
  {
    var f := Fetch(inp, local);
    if f.Loaded? then
      LoopCompletes(inp, f);
      RunPull(inp, local, true, true)
    else RunPull(inp, local, true, true)
  }

  /** Every manifest entry has a `path` and every file key an object. */
  predicate Complete(inp: PullInput, f: Fetched)
    requires f.Loaded?
  {
    var es := Values(f.manifest);
    forall j :: 0 <= j < |es| ==> es[j].path.Some? && FileKeys(f.id, f.commitID, es)[j] in inp.bucket
  }

  /** The corrected loop runs to the end exactly when the manifest is complete. */
  lemma LoopCompletes(inp: PullInput, f: Fetched)
    requires f.Loaded?
    ensures Loop(inp, f, true, true).reached == |LoopKeys(f, true)| <==> Complete(inp, f)
  {
    var es := Values(f.manifest);
    var keys := LoopKeys(f, true);
    assert forall j :: 0 <= j < |es| ==> (Passes(es, keys, inp.bucket, j) <==> es[j].path.Some? && FileKeys(f.id, f.commitID, es)[j] in inp.bucket);
  }

  /** Every manifest entry the corrected loop reaches, in order, is written to
      the commit folder and to the working tree. */
  lemma LoopWrites(inp: PullInput, f: Fetched, j: nat)
    requires f.Loaded?
    requires var es := Values(f.manifest);
      && j < |es|
      && (forall a :: 0 <= a <= j ==> es[a].path.Some? && FileKeys(f.id, f.commitID, es)[a] in inp.bucket)
      && Distinct(es, CommitDir(f.commitID))
    ensures var p := Values(f.manifest)[j].path.value; var files := Loop(inp, f, true, true).files;
      var c := inp.bucket[FileKeys(f.id, f.commitID, Values(f.manifest))[j]];
      && CommitDir(f.commitID) + "/" + p in files && files[CommitDir(f.commitID) + "/" + p] == c
      && p in files && files[p] == c
  {
    var es := Values(f.manifest);
    var keys := LoopKeys(f, true);
    var dir := CommitDir(f.commitID);
    assert forall a :: 0 <= a <= j ==> Passes(es, keys, inp.bucket, a);
    DownloadGetsPast(es, keys, inp.bucket, dir, f.local.files, f.local.dirs, j);
    DownloadWrites(es, keys, inp.bucket, dir, true, f.local.files, f.local.dirs, 0, j);
  }

  /** The corrected loop gets past every iteration whose reads succeed. */
  lemma DownloadGetsPast(entries: seq<Entry>, keys: seq<string>, bucket: map<string, string>, dir: string,
                         files: map<string, string>, dirs: set<string>, j: nat)
    requires j < |keys|
    requires forall a :: 0 <= a <= j ==> Passes(entries, keys, bucket, a)
    ensures j < Download(entries, keys, bucket, dir, true, files, dirs, 0).reached
  {
  }

  /** No two entries write the same file: the paths differ, and no commit-folder
      copy lands on another entry's working-tree path. */
  ghost predicate Distinct(es: seq<Entry>, dir: string) {
    && (forall a, b :: 0 <= a < b < |es| && es[a].path.Some? && es[b].path.Some? ==> es[a].path != es[b].path)
    && (forall a, b :: 0 <= a < |es| && 0 <= b < |es| && es[a].path.Some? && es[b].path.Some? ==> dir + "/" + es[a].path.value != es[b].path.value)
  }

  /** Every manifest entry the loop reaches, in order, is written to the commit
      folder and to the working tree, whether or not the pull then completes. */
  lemma PullRepoWritesFiles(inp: PullInput, local: Local, j: nat)
    requires Fetch(inp, local).Loaded?
    requires var f := Fetch(inp, local); var es := Values(f.manifest);
      && j < |es|
      && (forall a :: 0 <= a <= j ==> es[a].path.Some? && FileKeys(f.id, f.commitID, es)[a] in inp.bucket)
      && Distinct(es, CommitDir(f.commitID))
    ensures var f := Fetch(inp, local); var p := Values(f.manifest)[j].path.value; var files := PullRepo(inp, local).1.files;
      var c := inp.bucket[FileKeys(f.id, f.commitID, Values(f.manifest))[j]];
      && CommitDir(f.commitID) + "/" + p in files && files[CommitDir(f.commitID) + "/" + p] == c
      && p in files && files[p] == c
  {
    LoopWrites(inp, Fetch(inp, local), j);
  }

  /** As written, a manifest of non-empty slash-free paths still has its files written
      to the working tree up to the failing last iteration, but the snapshot
      is never reset: afterwards the working tree holds the pulled files while
      `oldsnapshot.json` still describes the old ones. */
  lemma PullAsWrittenOverwrites(inp: PullInput, local: Local, j: nat)
    requires Fetch(inp, local).Loaded?
    requires var f := Fetch(inp, local); var es := Values(f.manifest);
      && j < |es|
      && (forall a :: 0 <= a <= j ==> es[a].path.Some? && es[a].path.value != "" && '/' !in es[a].path.value && FileKeys(f.id, f.commitID, es)[a] in inp.bucket)
      && Distinct(es, CommitDir(f.commitID))
    ensures PullAsWritten(inp, local).0 == PullFailed
    ensures PullAsWritten(inp, local).1.snapshot == local.snapshot
    ensures var f := Fetch(inp, local); var p := Values(f.manifest)[j].path.value; var files := PullAsWritten(inp, local).1.files;
      p in files && files[p] == inp.bucket[FileKeys(f.id, f.commitID, Values(f.manifest))[j]]
  {
    LoopWritesFlat(inp, Fetch(inp, local), j);
  }

  /** The loop as written gets past every non-empty slash-free entry: its commit-folder
      copy goes straight into the commit folder, which exists. */
  lemma LoopWritesFlat(inp: PullInput, f: Fetched, j: nat)
    requires f.Loaded?
    requires var es := Values(f.manifest);
      && j < |es|
      && (forall a :: 0 <= a <= j ==> es[a].path.Some? && es[a].path.value != "" && '/' !in es[a].path.value && FileKeys(f.id, f.commitID, es)[a] in inp.bucket)
      && Distinct(es, CommitDir(f.commitID))
      && CommitDir(f.commitID) in f.local.dirs
    ensures var p := Values(f.manifest)[j].path.value; var files := Loop(inp, f, false, false).files;
      p in files && files[p] == inp.bucket[FileKeys(f.id, f.commitID, Values(f.manifest))[j]]
  {
    var es := Values(f.manifest);
    var keys := LoopKeys(f, false);
    var dir := CommitDir(f.commitID);
    assert forall a :: 0 <= a <= j ==> Passes(es, keys, inp.bucket, a) && es[a].path.value != "" && '/' !in es[a].path.value;
    DownloadGetsPastFlat(es, keys, inp.bucket, dir, f.local.files, f.local.dirs, j);
    DownloadWrites(es, keys, inp.bucket, dir, false, f.local.files, f.local.dirs, 0, j);
  }

  /** The loop as written gets past every non-empty slash-free iteration whose reads
      succeed, once the commit folder exists. */
  lemma DownloadGetsPastFlat(entries: seq<Entry>, keys: seq<string>, bucket: map<string, string>, dir: string,
                             files: map<string, string>, dirs: set<string>, j: nat)
    requires j < |keys| && dir in dirs && dir != "" && dir != "/"
    requires forall a :: 0 <= a <= j ==> Passes(entries, keys, bucket, a) && entries[a].path.value != "" && '/' !in entries[a].path.value
    ensures j < Download(entries, keys, bucket, dir, false, files, dirs, 0).reached
  {
    forall a | 0 <= a <= j && a < |entries| && entries[a].path.Some? && entries[a].path.value != "" && '/' !in entries[a].path.value
      ensures Dirname(dir + "/" + entries[a].path.value) == dir
    {
      DirnameChild(dir, entries[a].path.value);
    }
  }

  /** As written, a first manifest entry inside a sub-folder (`src/app.js`)
      throws at its commit-folder write when that sub-folder does not exist
      yet, before anything of the loop is written; fixing the loop's bound
      alone does not help. */
  lemma PullAsWrittenSubfolder(inp: PullInput, local: Local)
    requires Fetch(inp, local).Loaded?
    requires var f := Fetch(inp, local); var es := Values(f.manifest);
      && es != [] && es[0].path.Some? && FileKeys(f.id, f.commitID, es)[0] in inp.bucket
      && Dirname(CommitDir(f.commitID) + "/" + es[0].path.value) !in f.local.dirs
    ensures var f := Fetch(inp, local);
      && PullAsWritten(inp, local) == (PullFailed, f.local)
      && RunPull(inp, local, true, false) == (PullFailed, f.local)
  {
    var f := Fetch(inp, local);
    LoopStopsAtFirst(inp, f, false);
    LoopStopsAtFirst(inp, f, true);
  }

  /** Without the folders made first, the loop throws at once on such an entry
      and writes nothing. */
  lemma LoopStopsAtFirst(inp: PullInput, f: Fetched, bounded: bool)
    requires f.Loaded?
    requires var es := Values(f.manifest);
      && es != [] && es[0].path.Some? && FileKeys(f.id, f.commitID, es)[0] in inp.bucket
      && Dirname(CommitDir(f.commitID) + "/" + es[0].path.value) !in f.local.dirs
    ensures Loop(inp, f, bounded, false) == Progress(0, f.local.files, f.local.dirs)
  {
  }
}

=== FILE: push.dfy ===
/**
 * `slot push`: check the remote URL and the user, pick the highest commit of
 * `.slot/logs.json`, upload every commit directory and the log, then clear the
 * chosen commit's `push` flag.
 */
module Push {
  import opened Wrappers
  import opened Strings
  import opened Records
  import opened Selection

  /** A character of the regex class `[a-zA-Z0-9_-]`. */
  predicate SlugChar(c: char) {
    'a' <= c <= 'z' || 'A' <= c <= 'Z' || '0' <= c <= '9' || c == '_' || c == '-'
  }

  /** A match of `[a-zA-Z0-9_-]+`. */
  predicate Slug(s: string) {
    s != [] && forall i :: 0 <= i < |s| ==> SlugChar(s[i])
  }

  const CodeslotPrefix: string := "https://codeslot.in/"

  /** The match of `^https:\/\/codeslot\.in\/([a-zA-Z0-9_-]+\/[a-zA-Z0-9_-]+)$`
      as the pair (user, repository). */
  function ParsePushUrl(url: string): (r: Option<(string, string)>)
  {
    if CodeslotPrefix <= url then
      var parts := Split(url[|CodeslotPrefix|..], '/');
      if |parts| == 2 && Slug(parts[0]) && Slug(parts[1]) then Some((parts[0], parts[1])) else None
    else None
  }

  /** The URL is accepted exactly when it is the prefix followed by two slugs
      separated by one slash, and then the two slugs are what is extracted. */
  lemma ParsePushUrlIff(url: string, user: string, repo: string)
    ensures ParsePushUrl(url) == Some((user, repo)) <==>
      Slug(user) && Slug(repo) && url == CodeslotPrefix + user + "/" + repo
  {
    var p := CodeslotPrefix;
    if ParsePushUrl(url) == Some((user, repo)) {
      var parts := Split(url[|p|..], '/');
      JoinSplit(url[|p|..], '/');
      assert parts[1..] == [repo];
      assert url == p + url[|p|..];
    }
    if Slug(user) && Slug(repo) && url == p + user + "/" + repo {
      assert '/' !in user by { assert forall i :: 0 <= i < |user| ==> user[i] != '/'; }
      assert '/' !in repo by { assert forall i :: 0 <= i < |repo| ==> repo[i] != '/'; }
      assert url[|p|..] == user + ['/'] + repo;
      SplitConcat(user, repo, '/');
      SplitNoSep(user, '/');
      SplitNoSep(repo, '/');
    }
  }

  /** `match[1]`: the repository name `user/repo`. */
  function RepoName(user: string, repo: string): string {
    user + "/" + repo
  }

  /** How the login step went: the stored session was valid, the prompt logged
      in as `username` (and rewrote the config), or the prompt failed. */
  datatype Auth = SessionValid | Prompted(username: string) | PromptFailed

  /** The `username` that `validateRepositoryAccess` reads from the config. */
  function EffectiveUser(auth: Auth, configUser: Option<string>): Option<string> {
    match auth
    case Prompted(u) => Some(u)
    case _ => configUser
  }

  /** An S3 object written by push. */
  datatype Upload = FileUpload(key: string, digest: string) | LogsUpload(key: string, logs: seq<LogRecord>)

  /** `${base}/${relative.replace(/\\/g, "/")}`. */
  function Key(base: string, rel: string): string {
    base + "/" + ReplaceChar(rel, '\\', '/')
  }

  /** The files of a directory, directly inside it, as (relative path, digest). */
  function Level(entries: seq<Node>, prefix: string): seq<(string, string)>
    decreases |entries|
  {
    if entries == [] then []
    else (if entries[0].File? then [(prefix + entries[0].name, entries[0].digest)] else []) + Level(entries[1..], prefix)
  }

  /** The files below the sub-directories, one sub-directory after another. */
  function Deeper(entries: seq<Node>, prefix: string): seq<(string, string)>
    decreases SizeAll(entries), 0
  {
    if entries == [] then []
    else
      SizeDecreases(entries);
      (if entries[0].Dir? then Order(entries[0].children, prefix + entries[0].name + "/") else []) + Deeper(entries[1..], prefix)
  }

  /** The order `uploadDirectoryToS3` handles files in: a directory's own files
      first, then each sub-directory in turn. */
  function Order(entries: seq<Node>, prefix: string): seq<(string, string)>
    decreases SizeAll(entries), 1
  {
    Level(entries, prefix) + Deeper(entries, prefix)
  }

  /** Every file of a tree in plain depth-first order, as (relative path, digest). */
  function Files(entries: seq<Node>, prefix: string): seq<(string, string)>
    decreases SizeAll(entries)
  {
    if entries == [] then []
    else
      SizeDecreases(entries);
      (match entries[0]
       case File(name, digest) => [(prefix + name, digest)]
       case Dir(name, children) => Files(children, prefix + name + "/")) + Files(entries[1..], prefix)
  }

  /** The upload order is a permutation of the files of the tree. */
  lemma {:induction false} OrderIsPermutation(entries: seq<Node>, prefix: string)
    ensures multiset(Order(entries, prefix)) == multiset(Files(entries, prefix))
    decreases SizeAll(entries)
  {
    if entries != [] {
      SizeDecreases(entries);
      var t := entries[1..];
      var e := entries[0];
      var l0, d0, h := OrderCons(entries, prefix);
      OrderIsPermutation(t, prefix);
      if e.Dir? {
        OrderIsPermutation(e.children, prefix + e.name + "/");
      }
      Shuffle(l0, Level(t, prefix), d0, Deeper(t, prefix));
    }
  }

  /** One step of each traversal, naming the parts the first entry contributes. */
  lemma OrderCons(entries: seq<Node>, prefix: string) returns (l0: seq<(string, string)>, d0: seq<(string, string)>, h: seq<(string, string)>)
    requires entries != []
    ensures var e := entries[0];
      && l0 == (if e.File? then [(prefix + e.name, e.digest)] else [])
      && d0 == (if e.Dir? then Order(e.children, prefix + e.name + "/") else [])
      && h == (if e.File? then [(prefix + e.name, e.digest)] else Files(e.children, prefix + e.name + "/"))
    ensures Order(entries, prefix) == l0 + Level(entries[1..], prefix) + (d0 + Deeper(entries[1..], prefix))
    ensures Files(entries, prefix) == h + Files(entries[1..], prefix)
  {
    var e := entries[0];
    l0 := if e.File? then [(prefix + e.name, e.digest)] else [];
    d0 := if e.Dir? then Order(e.children, prefix + e.name + "/") else [];
    h := if e.File? then [(prefix + e.name, e.digest)] else Files(e.children, prefix + e.name + "/");
  }

  lemma Shuffle<T>(a: seq<T>, b: seq<T>, c: seq<T>, d: seq<T>)
    ensures multiset(a + b + (c + d)) == multiset(a) + multiset(c) + multiset(b + d)
  {
  }

  /** The uploads for one commit directory, with `base` = `commits/<repo>/<dir>`. */
  function UploadsOf(base: string, files: seq<(string, string)>): (r: seq<Upload>)
    ensures |r| == |files|
    ensures forall i :: 0 <= i < |files| ==> r[i] == FileUpload(Key(base, files[i].0), files[i].1)
  {
    if files == [] then [] else [FileUpload(Key(base, files[0].0), files[0].1)] + UploadsOf(base, files[1..])
  }

  /** Uploading `.slot/commits`: each directory in listing order. An entry that is
      not a directory makes `readdir` fail and stops the upload. */
  function CommitUploads(repo: string, commits: seq<Node>): (r: (seq<Upload>, bool))
    ensures r.1 <==> forall i :: 0 <= i < |commits| ==> commits[i].Dir?
  {
    if commits == [] then ([], true)
    else match commits[0]
      case File(_, _) => ([], false)
      case Dir(name, children) =>
        var rest := CommitUploads(repo, commits[1..]);
        assert forall i :: 1 <= i < |commits| ==> commits[i] == commits[1..][i - 1];
        (UploadsOf(CommitsPrefix(repo) + name, Order(children, "")) + rest.0, rest.1)
  }

  /** Every object uploaded for the commits is a file under `commits/<repo>/`. */
  lemma {:induction false} CommitUploadsKeys(repo: string, commits: seq<Node>)
    ensures forall u :: u in CommitUploads(repo, commits).0 ==> u.FileUpload? && CommitsPrefix(repo) <= u.key
    decreases |commits|
  {
    if commits != [] && commits[0].Dir? {
      var base := CommitsPrefix(repo) + commits[0].name;
      UploadsOfKeys(base, Order(commits[0].children, ""));
      CommitUploadsKeys(repo, commits[1..]);
      assert forall u :: u in UploadsOf(base, Order(commits[0].children, "")) ==> CommitsPrefix(repo) <= u.key by {
        forall u | u in UploadsOf(base, Order(commits[0].children, "")) ensures CommitsPrefix(repo) <= u.key {
          assert base <= u.key;
          assert CommitsPrefix(repo) <= base;
        }
      }
    }
  }

  lemma {:induction false} UploadsOfKeys(base: string, files: seq<(string, string)>)
    ensures forall u :: u in UploadsOf(base, files) ==> u.FileUpload? && base <= u.key
    decreases |files|
  {
    if files != [] {
      UploadsOfKeys(base, files[1..]);
      assert base <= Key(base, files[0].0);
    }
  }

  /** `commits/<repo>/`. */
  function CommitsPrefix(repo: string): string {
    "commits/" + repo + "/"
  }

  /** Everything push reads. `remote` is `None` when `remote.json` is missing,
      `logs` is `None` when `logs.json` cannot be read or parsed. */
  datatype PushInput = PushInput(
    remote: Option<string>,
    auth: Auth,
    configUser: Option<string>,
    logs: Option<seq<LogRecord>>,
    commits: seq<Node>)

  datatype PushOutcome = NoRemote | BadUrl | LoginFailed | AccessDenied | LogsUnreadable | UpToDate | UploadFailed | Pushed

  /** The outcome, the objects uploaded, and `logs.json` afterwards. */
  datatype PushResult = PushResult(outcome: PushOutcome, uploads: seq<Upload>, logs: Option<seq<LogRecord>>)

  /** The log with the chosen record's `push` set to false. */
  function ClearPush(logs: seq<LogRecord>, k: nat): (r: seq<LogRecord>)
    requires k < |logs|
    ensures |r| == |logs|
    ensures r[k] == logs[k].(push := Some(false))
    ensures forall i :: 0 <= i < |logs| && i != k ==> r[i] == logs[i]
  {
    logs[k := logs[k].(push := Some(false))]
  }

  /** What happens before anything is uploaded: either an early outcome, or the
      repository name, the log and the index of the chosen record. */
  datatype Stage = Stop(outcome: PushOutcome) | Ready(repo: string, logs: seq<LogRecord>, chosen: nat)

  function Prepare(inp: PushInput): (s: Stage)
    ensures s.Ready? ==> s.chosen < |s.logs| && inp.logs == Some(s.logs) && s.chosen == ClientSelect(s.logs) && Truthy(s.logs[s.chosen].push)
    ensures s.Ready? <==> (inp.remote.Some? && ParsePushUrl(inp.remote.value).Some? && !inp.auth.PromptFailed? &&
      EffectiveUser(inp.auth, inp.configUser) == Some(ParsePushUrl(inp.remote.value).value.0) &&
      inp.logs.Some? && inp.logs.value != [] && Truthy(inp.logs.value[ClientSelect(inp.logs.value)].push))
    ensures s.Ready? ==> var (u, n) := ParsePushUrl(inp.remote.value).value; s.repo == RepoName(u, n)
  {
    match inp.remote
    case None => Stop(NoRemote)
    case Some(url) =>
      match ParsePushUrl(url)
      case None => Stop(BadUrl)
      case Some((user, repo)) =>
        if inp.auth.PromptFailed? then Stop(LoginFailed)
        else if EffectiveUser(inp.auth, inp.configUser) != Some(user) then Stop(AccessDenied)
        else match inp.logs
          case None => Stop(LogsUnreadable)
          case Some(logs) =>
            match PushSelect(logs)
            case None => Stop(UpToDate)
            case Some(k) => if Truthy(logs[k].push) then Ready(RepoName(user, repo), logs, k) else Stop(UpToDate)
  }

  /** `pushRepo` with the upload loop as intended: every file of every commit
      directory, then the log as it was read; finally the chosen record's
      `push` flag is cleared and the log written back. */
  function PushRepo(inp: PushInput): (r: PushResult)
    ensures r.outcome == Pushed <==> Prepare(inp).Ready? && forall i :: 0 <= i < |inp.commits| ==> inp.commits[i].Dir?
    ensures r.outcome != Pushed ==> r.logs == inp.logs
    ensures r.outcome !in {UploadFailed, Pushed} ==> r.uploads == []
    ensures r.outcome == Pushed ==> inp.logs.Some? && var logs := inp.logs.value; var k := ClientSelect(logs);
      r.logs == Some(ClearPush(logs, k)) &&
      |r.uploads| >= 1 && r.uploads[|r.uploads| - 1] == LogsUpload(CommitsPrefix(Prepare(inp).repo) + "logs.json", logs) &&
      forall i :: 0 <= i < |r.uploads| - 1 ==> r.uploads[i].FileUpload? && CommitsPrefix(Prepare(inp).repo) <= r.uploads[i].key
  {
    match Prepare(inp)
    case Stop(outcome) => PushResult(outcome, [], inp.logs)
    case Ready(repo, logs, k) =>
      var (files, ok) := CommitUploads(repo, inp.commits);
      if !ok then PushResult(UploadFailed, files, inp.logs)
      else
        var uploads := files + [LogsUpload(CommitsPrefix(repo) + "logs.json", logs)];
        CommitUploadsKeys(repo, inp.commits);
        assert forall i :: 0 <= i < |uploads| - 1 ==> uploads[i] == files[i];
        PushResult(Pushed, uploads, Some(ClearPush(logs, k)))
  }

  /** A successful push clears the flag it acted on, so pushing again from the
      log it wrote back finds nothing to push: no upload, and the log stays. */
  lemma PushAgainUpToDate(inp: PushInput)
    requires PushRepo(inp).outcome == Pushed
    ensures var again := PushRepo(inp.(logs := PushRepo(inp).logs));
      again.outcome == UpToDate && again.uploads == [] && again.logs == PushRepo(inp).logs
  {
    var logs := inp.logs.value;
    var k := ClientSelect(logs);
    var cleared := ClearPush(logs, k);
    ClientSelectCounts(logs, cleared);
    assert !Truthy(cleared[k].push);
  }

  /** The upload loop as written: once a directory has files, `response` is read
      outside the `try` block that declared it, which throws before any file is
      uploaded; a directory without files goes on to its sub-directories. */
  function UploadAsWritten(entries: seq<Node>): (ok: bool)
    decreases SizeAll(entries), 1
  {
    Level(entries, "") == [] && SubdirsAsWritten(entries)
  }

  function SubdirsAsWritten(entries: seq<Node>): (ok: bool)
    decreases SizeAll(entries), 0
  {
    if entries == [] then true
    else
      SizeDecreases(entries);
      (entries[0].File? || UploadAsWritten(entries[0].children)) && SubdirsAsWritten(entries[1..])
  }

  /** As written, a directory uploads without error only if it holds no file at all. */
  lemma {:induction false} UploadAsWrittenOnlyEmpty(entries: seq<Node>, prefix: string)
    ensures UploadAsWritten(entries) ==> Files(entries, prefix) == []
    decreases SizeAll(entries)
  {
    if entries != [] && UploadAsWritten(entries) {
      SizeDecreases(entries);
      assert !entries[0].File? && Level(entries[1..], "") == [];
      assert SubdirsAsWritten(entries);
      assert UploadAsWritten(entries[0].children) && SubdirsAsWritten(entries[1..]);
      UploadAsWrittenOnlyEmpty(entries[0].children, prefix + entries[0].name + "/");
      UploadAsWrittenOnlyEmpty(entries[1..], prefix);
    }
  }

  /** Whether the commit directories get through the upload loop as written. */
  function CommitsAsWritten(commits: seq<Node>): bool {
    forall i :: 0 <= i < |commits| ==> commits[i].Dir? && UploadAsWritten(commits[i].children)
  }

  /** `pushRepo` as written: the same checks, but the upload loop fails as soon
      as it meets a file, so no file is uploaded and the log is never written. */
  function PushAsWritten(inp: PushInput): (r: PushResult)
    ensures r.outcome == Pushed ==> CommitsAsWritten(inp.commits)
  {
    match Prepare(inp)
    case Stop(outcome) => PushResult(outcome, [], inp.logs)
    case Ready(repo, logs, k) =>
      if !CommitsAsWritten(inp.commits) then PushResult(UploadFailed, [], inp.logs)
      else PushResult(Pushed, [LogsUpload(CommitsPrefix(repo) + "logs.json", logs)], Some(ClearPush(logs, k)))
  }

  /** A push with at least one committed file fails as written: nothing of the
      commit is uploaded, and the `push` flag stays set, so every later push
      tries again and fails again. */
  lemma PushAsWrittenFailsWithFiles(inp: PushInput, c: nat)
    requires Prepare(inp).Ready?
    requires c < |inp.commits| && inp.commits[c].Dir? && Files(inp.commits[c].children, "") != []
    ensures PushAsWritten(inp).outcome == UploadFailed
    ensures PushAsWritten(inp).uploads == []
    ensures PushAsWritten(inp).logs == inp.logs
  {
    UploadAsWrittenOnlyEmpty(inp.commits[c].children, "");
  }

  /** The same input succeeds with the corrected loop, which uploads that file. */
  lemma PushRepoUploadsFiles(inp: PushInput, c: nat, i: nat)
    requires Prepare(inp).Ready?
    requires forall j :: 0 <= j < |inp.commits| ==> inp.commits[j].Dir?
    requires c < |inp.commits| && i < |Files(inp.commits[c].children, "")|
    ensures PushRepo(inp).outcome == Pushed
    ensures var f := Files(inp.commits[c].children, "")[i];
      FileUpload(Key(CommitsPrefix(Prepare(inp).repo) + inp.commits[c].name, f.0), f.1) in PushRepo(inp).uploads
  {
    var repo := Prepare(inp).repo;
    var cs := inp.commits;
    var f := Files(cs[c].children, "");
    var base := CommitsPrefix(repo) + cs[c].name;
    OrderIsPermutation(cs[c].children, "");
    var o := Order(cs[c].children, "");
    assert f[i] in multiset(o);
    var j :| 0 <= j < |o| && o[j] == f[i];
    var us := UploadsOf(base, o);
    assert us[j] == FileUpload(Key(base, f[i].0), f[i].1);
    CommitUploadsContain(repo, cs, c);
  }

  lemma {:induction false} CommitUploadsContain(repo: string, commits: seq<Node>, c: nat)
    requires c < |commits| && commits[c].Dir?
    requires forall j :: 0 <= j < |commits| ==> commits[j].Dir?
    ensures forall u :: u in UploadsOf(CommitsPrefix(repo) + commits[c].name, Order(commits[c].children, "")) ==> u in CommitUploads(repo, commits).0
    decreases c
  {
    if c > 0 {
      CommitUploadsContain(repo, commits[1..], c - 1);
    }
  }
}

=== FILE: records.dfy ===
/**
 * The records the CLI keeps on disk as JSON: snapshot entries, commit-log
 * records, and the directory trees the controllers walk. A field JSON may leave
 * out is an `Option`; `None` stands for JavaScript's `undefined`.
 */
module Records {
  import opened Wrappers

  /** A JSON `id`: the base64 path id, or the number a commit manifest stores. */
  datatype Id = Text(text: string) | Number(n: int)

  /** The `type` field the recursive walk writes: `"file"` or `"folder"`. */
  datatype Kind = FileKind | FolderKind

  /** One snapshot or manifest entry. `isNew` is the JSON field `new`. */
  datatype Entry = Entry(
    id: Option<Id>,
    name: Option<string>,
    hash: Option<string>,
    kind: Option<Kind>,
    path: Option<string>,
    change: Option<bool>,
    isNew: Option<bool>,
    pull: Option<bool>)

  /** The entry `{id, name, hash}` the add and init controllers write. */
  function Tracked(id: string, name: string, hash: string): Entry {
    Entry(Some(Text(id)), Some(name), Some(hash), None, None, None, None, None)
  }

  /** `id` and `hash` of an entry both equal the current ones: the test every
      controller uses to skip an unchanged file. */
  predicate SameIdAndHash(e: Entry, id: string, hash: string) {
    e.id == Some(Text(id)) && e.hash == Some(hash)
  }

  /** `oldSnapshot.json` / `newSnapshot.json`: entries keyed by path. */
  type Snapshot = map<string, Entry>

  /** A directory tree as `readdir` lists it. A file carries the digest of its
      contents, which stands for the hex SHA-256 the controllers compute. */
  datatype Node = File(name: string, digest: string) | Dir(name: string, children: seq<Node>)

  /** Distinct names in a listing, as `readdir` returns them. */
  predicate DistinctNames(entries: seq<Node>) {
    forall i, j :: 0 <= i < j < |entries| ==> entries[i].name != entries[j].name
  }

  /** The number of nodes in a tree, the measure the recursive walks decrease. */
  function Size(n: Node): (s: nat)
    ensures s >= 1
  {
    match n
    case File(_, _) => 1
    case Dir(_, children) => 1 + SizeAll(children)
  }

  function SizeAll(ns: seq<Node>): nat {
    if ns == [] then 0 else Size(ns[0]) + SizeAll(ns[1..])
  }

  lemma SizeDecreases(ns: seq<Node>)
    requires ns != []
    ensures SizeAll(ns[1..]) < SizeAll(ns)
    ensures ns[0].Dir? ==> SizeAll(ns[0].children) < SizeAll(ns)
  {
  }

  /** One record of `logs.json`. */
  datatype LogRecord = LogRecord(
    commitID: Option<string>,
    message: Option<string>,
    date: Option<string>,
    count: Option<int>,
    push: Option<bool>)

  /** `.slot/config.json`: the fields the controllers read. */
  datatype Config = Config(token: Option<string>, username: Option<string>, pull: Option<string>)

  /** The `{}` that init writes. */
  const EmptyConfig: Config := Config(None, None, None)

  /** JavaScript truthiness of an optional boolean field. */
  predicate Truthy(b: Option<bool>) {
    b == Some(true)
  }
}

=== FILE: remote.dfy ===
/**
 * `slot remote add|remove|list`: the remote URL kept in `.myGit/.remote.json`.
 */
module Remote {
  import opened Wrappers
  import opened Strings
  import Push

  /** The parsed `.remote.json`, or a file that does not parse. */
  datatype RemoteRecord = Stored(url: string, addedAt: string) | Unparseable

  /** Whether `.myGit` exists, and the remote file if there is one. */
  datatype RemoteDir = RemoteDir(folder: bool, remote: Option<RemoteRecord>)

  const SlotcodePrefix: string := "https://slotcode.in/"

  /** A character of the class `[a-zA-Z0-9_\-/]`. */
  predicate PathChar(c: char) {
    Push.SlugChar(c) || c == '/'
  }

  /** `/^https:\/\/slotcode\.in\/[a-zA-Z0-9_\-/]+$/.test(url)`. */
  predicate SlotcodeUrl(url: string) {
    |url| > |SlotcodePrefix| && SlotcodePrefix <= url &&
    forall i :: |SlotcodePrefix| <= i < |url| ==> PathChar(url[i])
  }

  /** How a remote command ended. `ReadFailed` is the exit after a `.remote.json`
      that does not parse. */
  datatype RemoteOutcome =
    | InvalidUrl | NoFolder | NoRemote | ReadFailed
    | Added(url: string) | Removed | Listed(url: string, addedAt: string)

  /** `addRemote(url)` at time `now`: trim, validate, then overwrite the file. An
      invalid URL and a missing `.myGit` both exit without writing. */
  function AddRemote(url: string, now: string, d: RemoteDir): (r: (RemoteOutcome, RemoteDir))
    ensures r.0.Added? <==> SlotcodeUrl(Trim(url)) && d.folder
    ensures r.0 == InvalidUrl <==> !SlotcodeUrl(Trim(url))
    ensures r.0.Added? ==> r.0.url == Trim(url) && r.1 == RemoteDir(true, Some(Stored(Trim(url), now)))
    ensures !r.0.Added? ==> r.1 == d
  {
    var u := Trim(url);
    if !SlotcodeUrl(u) then (InvalidUrl, d)
    else if !d.folder then (NoFolder, d)
    else (Added(u), d.(remote := Some(Stored(u, now))))
  }

  /** Adding the stored URL again stores the same URL: trimming is idempotent. */
  lemma AddRemoteStable(url: string, now: string, later: string, d: RemoteDir)
    requires AddRemote(url, now, d).0.Added?
    ensures var d1 := AddRemote(url, now, d).1;
      AddRemote(d1.remote.value.url, later, d1) == (Added(Trim(url)), RemoteDir(true, Some(Stored(Trim(url), later))))
  {
    TrimUnchanged(Trim(url));
  }

  /** `removeRemote()`: with `.myGit` missing the process exits, with no remote
      it reports an error; otherwise the file is deleted. */
  function RemoveRemote(d: RemoteDir): (r: (RemoteOutcome, RemoteDir))
    ensures r.0 == Removed <==> d.folder && d.remote.Some?
    ensures r.0 == Removed ==> r.1 == d.(remote := None)
    ensures r.0 != Removed ==> r.1 == d
  {
    if !d.folder then (NoFolder, d)
    else if d.remote.None? then (NoRemote, d)
    else (Removed, d.(remote := None))
  }

  /** Removing after adding leaves no remote, whatever was there before. */
  lemma RemoveAfterAdd(url: string, now: string, d: RemoteDir)
    requires AddRemote(url, now, d).0.Added?
    ensures RemoveRemote(AddRemote(url, now, d).1) == (Removed, RemoteDir(true, None))
  {
  }

  /** `listRemote()`: with `.myGit` missing the process exits; with no remote file
      it says so; a file that does not parse exits with an error; otherwise it
      prints the stored URL and time. Nothing is written. */
  function ListRemote(d: RemoteDir): (r: (RemoteOutcome, RemoteDir))
    ensures r.1 == d
    ensures r.0 == NoFolder <==> !d.folder
    ensures r.0 == NoRemote <==> d.folder && d.remote.None?
    ensures r.0 == ReadFailed <==> d.folder && d.remote == Some(Unparseable)
    ensures r.0.Listed? <==> d.folder && d.remote.Some? && d.remote.value.Stored?
    ensures r.0.Listed? ==> d.remote == Some(Stored(r.0.url, r.0.addedAt))
  {
    if !d.folder then (NoFolder, d)
    else match d.remote
      case None => (NoRemote, d)
      case Some(Unparseable) => (ReadFailed, d)
      case Some(Stored(url, addedAt)) => (Listed(url, addedAt), d)
  }

  /** Listing right after a successful add shows the URL just added and its time. */
  lemma ListAfterAdd(url: string, now: string, d: RemoteDir)
    requires AddRemote(url, now, d).0.Added?
    ensures ListRemote(AddRemote(url, now, d).1).0 == Listed(Trim(url), now)
  {
  }

  /** Listing after a remove reports that there is no remote. */
  lemma ListAfterRemove(d: RemoteDir)
    requires RemoveRemote(d).0 == Removed
    ensures ListRemote(RemoveRemote(d).1).0 == NoRemote
  {
  }

  /** The URLs `remote add` accepts are never accepted by push: the hosts differ
      (`slotcode.in` against `codeslot.in`). */
  lemma RemoteUrlsNeverPushable(url: string)
    requires SlotcodeUrl(url)
    ensures Push.ParsePushUrl(url).None?
  {
    assert url[8] == SlotcodePrefix[8] == 's';
    assert Push.CodeslotPrefix[8] == 'c';
  }
}

=== FILE: repo.dfy ===
/**
 * The server's repository controller: validating a new repository's name, and
 * reading a committed file back from the bucket by path or by inode.
 */
module Repo {
  import opened Wrappers
  import opened Strings
  import opened Records
  import Pull
  import Push

  /** A character of `[a-zA-Z0-9-_ ]`. */
  predicate NameChar(c: char) {
    'a' <= c <= 'z' || 'A' <= c <= 'Z' || '0' <= c <= '9' || c == '-' || c == '_' || c == ' '
  }

  predicate AsciiLetter(c: char) {
    'a' <= c <= 'z' || 'A' <= c <= 'Z'
  }

  /** `/^(?!-)[a-zA-Z0-9-_ ]*(?<!-)$/.test(n) && /[a-zA-Z]/.test(n)`. */
  predicate ValidName(n: string) {
    (forall i :: 0 <= i < |n| ==> NameChar(n[i])) &&
    (n != [] ==> n[0] != '-' && n[|n| - 1] != '-') &&
    exists i :: 0 <= i < |n| && AsciiLetter(n[i])
  }

  datatype CreateOutcome = MissingName | NameRequired | InvalidName | UserLookupFailed | Created(name: string)

  /** `createRepository`: `name` is `None` when the body has none (the `trim`
      call then throws), `username` is `None` when the profile lookup fails.
      The accepted name is stored as `<username>/<normalised name>`. */
  function CreateRepository(name: Option<string>, username: Option<string>): (r: CreateOutcome)
    ensures r.Created? <==> name.Some? && !AllSpace(name.value) && ValidName(Normalize(name.value)) && username.Some?
    ensures r == NameRequired <==> name.Some? && AllSpace(name.value)
    ensures r.Created? ==> r.name == username.value + "/" + Normalize(name.value)
  {
    match name
    case None => MissingName
    case Some(raw) =>
      var n := Normalize(raw);
      if n == "" then NameRequired
      else if !ValidName(n) then InvalidName
      else match username
        case None => UserLookupFailed
        case Some(u) => Created(u + "/" + n)
  }

  /** An accepted name is non-empty, single-spaced, has no edge spaces or edge
      hyphens, and uses only the allowed characters, with a letter among them. */
  lemma CreatedNameShape(name: Option<string>, username: Option<string>)
    requires CreateRepository(name, username).Created?
    ensures var n := Normalize(name.value);
      n != "" && NoEdgeSpace(n) && SingleSpaced(n) && ValidName(n) && n[0] != '-' && n[|n| - 1] != '-'
  {
  }

  /** The stored name splits back into the user and the repository name, when
      the username has no slash. */
  lemma CreatedNameSplits(name: Option<string>, u: string)
    requires CreateRepository(name, Some(u)).Created? && '/' !in u
    ensures Split(CreateRepository(name, Some(u)).name, '/') == [u, Normalize(name.value)]
  {
    var n := Normalize(name.value);
    assert '/' !in n by {
      assert forall i :: 0 <= i < |n| ==> NameChar(n[i]);
    }
    assert u + "/" + n == u + ['/'] + n;
    SplitPair(u, n, '/');
  }

  /** Creating again from an accepted name accepts it unchanged. */
  lemma CreateStable(name: Option<string>, u: string)
    requires CreateRepository(name, Some(u)).Created?
    ensures CreateRepository(Some(Normalize(name.value)), Some(u)) == CreateRepository(name, Some(u))
  {
    NormalizeIdempotent(name.value);
  }

  predicate IsDigit(c: char) {
    '0' <= c <= '9'
  }

  predicate AllDigits(s: string) {
    forall i :: 0 <= i < |s| ==> IsDigit(s[i])
  }

  /** The value of a string of decimal digits. */
  function DigitsValue(s: string): nat
    requires AllDigits(s)
    decreases |s|
  {
    if s == [] then 0 else DigitsValue(s[..|s| - 1]) * 10 + (s[|s| - 1] as int - '0' as int)
  }

  /** `Number(s)` for the inputs an inode parameter takes: surrounding
      whitespace is ignored, the empty string is 0, an optionally signed run of
      decimal digits is its value, anything else is `NaN` (`None`). */
  function ParseNumber(s: string): (r: Option<int>)
    ensures AllSpace(s) ==> r == Some(0)
  {
    var t := Trim(s);
    if t == "" then Some(0)
    else if t[0] == '-' && |t| > 1 && AllDigits(t[1..]) then Some(0 - DigitsValue(t[1..]) as int)
    else if t[0] == '+' && |t| > 1 && AllDigits(t[1..]) then Some(DigitsValue(t[1..]))
    else if AllDigits(t) then Some(DigitsValue(t))
    else None
  }

  /** `String(n)` for a natural number. */
  function Decimal(n: nat): (s: string)
    ensures s != [] && AllDigits(s)
    decreases n
  {
    var d := ['0' + (n % 10) as char];
    if n < 10 then d else Decimal(n / 10) + d
  }

  lemma {:induction false} DecimalValue(n: nat)
    ensures DigitsValue(Decimal(n)) == n
    decreases n
  {
    var d := ['0' + (n % 10) as char];
    if n >= 10 {
      DecimalValue(n / 10);
      var s := Decimal(n / 10) + d;
      assert s[..|s| - 1] == Decimal(n / 10);
    }
  }

  /** `Number(String(n)) === n`: every natural number written in decimal parses back. */
  lemma ParseDecimal(n: nat)
    ensures ParseNumber(Decimal(n)) == Some(n)
  {
    var s := Decimal(n);
    NotSpace(s[0]);
    NotSpace(s[|s| - 1]);
    TrimUnchanged(s);
    DecimalValue(n);
  }

  /** The first entry whose `id` is the number `n`: `filesArray.find(f => f.id === n)`. */
  function FindById(entries: seq<Entry>, n: int): (r: Option<nat>)
    ensures r.Some? ==> (r.value < |entries| && entries[r.value].id == Some(Number(n)) &&
      forall j :: 0 <= j < r.value ==> entries[j].id != Some(Number(n)))
    ensures r.None? ==> forall j :: 0 <= j < |entries| ==> entries[j].id != Some(Number(n))
    decreases |entries|
  {
    if entries == [] then None
    else if entries[0].id == Some(Number(n)) then Some(0)
    else match FindById(entries[1..], n)
      case None => None
      case Some(k) => Some(k + 1)
  }

  /** `fetchFileContentFromS3`: the object at `commits/<repo>/<commitID>/<path>`. */
  function FetchFileContent(repo: string, commitID: string, path: string, bucket: map<string, string>): (r: Option<string>)
    ensures r.Some? <==> Pull.CommitKeyPrefix(repo, commitID) + path in bucket
    ensures r.Some? ==> r.value == bucket[Pull.CommitKeyPrefix(repo, commitID) + path]
  {
    var key := Pull.CommitKeyPrefix(repo, commitID) + path;
    if key in bucket then Some(bucket[key]) else None
  }

  /** `fetchFileContentByInode`: read the manifest, parse the inode, find the
      entry with that numeric id, and read its path with backslashes turned
      into slashes. Every failure is `null` (`None`). */
  function FetchFileContentByInode(repo: string, commitID: string, inode: string,
                                   manifests: map<string, Pull.Manifest>, bucket: map<string, string>): (r: Option<string>)
    ensures ParseNumber(inode).None? ==> r.None?
    ensures r.Some? ==> (Pull.ManifestKey(repo, commitID) in manifests && ParseNumber(inode).Some? &&
      var entries := Pull.Values(manifests[Pull.ManifestKey(repo, commitID)]);
      var k := FindById(entries, ParseNumber(inode).value);
      k.Some? && entries[k.value].path.Some? &&
      r == FetchFileContent(repo, commitID, ReplaceChar(entries[k.value].path.value, '\\', '/'), bucket))
  {
    var key := Pull.ManifestKey(repo, commitID);
    if key !in manifests then None
    else
      var entries := Pull.Values(manifests[key]);
      match ParseNumber(inode)
      case None => None
      case Some(n) =>
        match FindById(entries, n)
        case None => None
        case Some(k) =>
          match entries[k].path
          case None => None
          case Some(p) => FetchFileContent(repo, commitID, ReplaceChar(p, '\\', '/'), bucket)
  }

  /** The key push uploads a commit's file under is the key this route reads
      for the same path with backslashes turned into slashes, so a file just
      uploaded is fetched back with the contents uploaded. */
  lemma FetchAfterUpload(repo: string, commitID: string, path: string, contents: string, bucket: map<string, string>)
    ensures var key := Push.Key(Push.CommitsPrefix(repo) + commitID, path);
      FetchFileContent(repo, commitID, ReplaceChar(path, '\\', '/'), bucket[key := contents]) == Some(contents)
  {
    var key := Push.Key(Push.CommitsPrefix(repo) + commitID, path);
    assert key == Pull.CommitKeyPrefix(repo, commitID) + ReplaceChar(path, '\\', '/');
  }

  /** Replacing backslashes changes nothing in a path that has none. */
  lemma ReplaceNoBackslash(p: string)
    requires '\\' !in p
    ensures ReplaceChar(p, '\\', '/') == p
  {
  }

  /** For a POSIX path, reading by inode and reading by the entry's path give
      the same contents. */
  lemma InodeAgreesWithPath(repo: string, commitID: string, n: nat, manifests: map<string, Pull.Manifest>, bucket: map<string, string>)
    requires Pull.ManifestKey(repo, commitID) in manifests
    requires var entries := Pull.Values(manifests[Pull.ManifestKey(repo, commitID)]);
      var k := FindById(entries, n); k.Some? && entries[k.value].path.Some? && '\\' !in entries[k.value].path.value
    ensures var entries := Pull.Values(manifests[Pull.ManifestKey(repo, commitID)]);
      FetchFileContentByInode(repo, commitID, Decimal(n), manifests, bucket) ==
      FetchFileContent(repo, commitID, entries[FindById(entries, n).value].path.value, bucket)
  {
    ParseDecimal(n);
    var entries := Pull.Values(manifests[Pull.ManifestKey(repo, commitID)]);
    ReplaceNoBackslash(entries[FindById(entries, n).value].path.value);
  }
}

=== FILE: selection.dfy ===
/**
 * Picking "the highest commit" from a list of log records: the client's
 * `logs.reduce` in push and pull, and the server's loop over `logs.json`.
 */
module Selection {
  import opened Wrappers
  import opened Records

  /** JavaScript `a > b` on optional numbers: any comparison with `undefined` is false. */
  predicate Greater(a: Option<int>, b: Option<int>) {
    a.Some? && b.Some? && a.value > b.value
  }

  /** Among the first `n` records, `k` has a defined count that no defined count
      exceeds, and every earlier defined count is strictly smaller. */
  predicate FirstMaxBelow(logs: seq<LogRecord>, n: nat, k: nat)
    requires n <= |logs|
  {
    k < n && logs[k].count.Some? &&
    (forall j :: 0 <= j < n && logs[j].count.Some? ==> logs[j].count.value <= logs[k].count.value) &&
    (forall j :: 0 <= j < k && logs[j].count.Some? ==> logs[j].count.value < logs[k].count.value)
  }

  /** `k` is the first record with the maximal defined count. */
  predicate IsFirstMax(logs: seq<LogRecord>, k: nat) {
    FirstMaxBelow(logs, |logs|, k)
  }

  /** There is at most one first maximum. */
  lemma FirstMaxUnique(logs: seq<LogRecord>, n: nat, a: nat, b: nat)
    requires n <= |logs| && FirstMaxBelow(logs, n, a) && FirstMaxBelow(logs, n, b)
    ensures a == b
  {
  }

  /** The reduce step from index `j` on, with `best` the index of the accumulator. */
  function Reduce(logs: seq<LogRecord>, j: nat, best: nat): (k: nat)
    requires best < |logs| && j <= |logs|
    requires j == 0 ==> best == 0
    requires logs[best].count.Some? && 0 < j ==> FirstMaxBelow(logs, j, best)
    ensures k < |logs|
    ensures logs[best].count.None? ==> k == best
    ensures logs[best].count.Some? && 0 < j ==> IsFirstMax(logs, k)
    decreases |logs| - j
  {
    if j == |logs| then best
    else
      var next := if Greater(logs[j].count, logs[best].count) then j else best;
      assert logs[best].count.Some? && next == j ==> forall i :: 0 <= i < j && logs[i].count.Some? ==> logs[i].count.value <= logs[best].count.value;
      Reduce(logs, j + 1, next)
  }

  /** `logs.reduce((max, c) => c.count > max.count ? c : max, logs[0])` for a
      non-empty list, as the index of the record it returns. */
  function ClientSelect(logs: seq<LogRecord>): (k: nat)
    requires logs != []
    ensures k < |logs|
    ensures logs[0].count.None? ==> k == 0
    ensures logs[0].count.Some? ==> IsFirstMax(logs, k)
  {
    if logs[0].count.None? then Reduce(logs, 0, 0)
    else
      var k := Reduce(logs, 1, 0);
      k
  }

  /** The client's choice is exactly the first maximum, when the first record has a count. */
  lemma ClientSelectIff(logs: seq<LogRecord>, k: nat)
    requires logs != [] && logs[0].count.Some?
    ensures ClientSelect(logs) == k <==> IsFirstMax(logs, k)
  {
    if IsFirstMax(logs, k) {
      FirstMaxUnique(logs, |logs|, k, ClientSelect(logs));
    }
  }

  /** A first record without a count is never replaced: `x > undefined` is false. */
  lemma ClientSelectStuck(logs: seq<LogRecord>)
    requires logs != [] && logs[0].count.None?
    ensures ClientSelect(logs) == 0
  {
  }

  /** The client's choice depends on the counts alone: two logs whose records
      have the same counts, position by position, choose the same index. */
  lemma ClientSelectCounts(a: seq<LogRecord>, b: seq<LogRecord>)
    requires a != [] && |a| == |b|
    requires forall i :: 0 <= i < |a| ==> a[i].count == b[i].count
    ensures ClientSelect(a) == ClientSelect(b)
  {
    if a[0].count.Some? {
      var k := ClientSelect(a);
      assert IsFirstMax(b, k) by {
        assert FirstMaxBelow(a, |a|, k);
      }
      ClientSelectIff(b, k);
    }
  }

  /** Push's `logs.reduce(..., logs[0] || {})`: the selected index, or `None` for `{}`. */
  function PushSelect(logs: seq<LogRecord>): (r: Option<nat>)
    ensures r.None? <==> logs == []
    ensures r.Some? ==> r.value == ClientSelect(logs)
  {
    if logs == [] then None else Some(ClientSelect(logs))
  }

  /** The server's loop from record `j` on, with the current best and `maxCount`. */
  function Scan(logs: seq<LogRecord>, j: nat, best: Option<nat>, maxCount: int): (r: Option<nat>)
    requires j <= |logs|
    requires best.None? ==> maxCount == 0 && forall i :: 0 <= i < j && logs[i].count.Some? ==> logs[i].count.value <= 0
    requires best.Some? ==> FirstMaxBelow(logs, j, best.value) && logs[best.value].count == Some(maxCount) && maxCount > 0
    ensures r.None? <==> forall i :: 0 <= i < |logs| && logs[i].count.Some? ==> logs[i].count.value <= 0
    ensures r.Some? ==> IsFirstMax(logs, r.value) && logs[r.value].count.value > 0
    decreases |logs| - j
  {
    if j == |logs| then best
    else if logs[j].count.Some? && logs[j].count.value > maxCount then
      Scan(logs, j + 1, Some(j), logs[j].count.value)
    else
      Scan(logs, j + 1, best, maxCount)
  }

  /** `getHighestCountCommitFromS3`'s loop: `maxCount` starts at 0 and only a
      strictly greater count replaces the current choice. */
  function ServerSelect(logs: seq<LogRecord>): (r: Option<nat>)
    ensures r.None? <==> forall i :: 0 <= i < |logs| && logs[i].count.Some? ==> logs[i].count.value <= 0
    ensures r.Some? ==> IsFirstMax(logs, r.value) && logs[r.value].count.value > 0
  {
    Scan(logs, 0, None, 0)
  }

  /** The server's choice beats or ties every record and is earlier than every tie. */
  lemma ServerSelectMaximal(logs: seq<LogRecord>, i: nat)
    requires i < |logs| && ServerSelect(logs).Some?
    ensures logs[i].count.Some? ==> logs[i].count.value <= logs[ServerSelect(logs).value].count.value
    ensures logs[i].count == logs[ServerSelect(logs).value].count ==> ServerSelect(logs).value <= i
  {
  }

  /** A record whose count is missing or not positive is never chosen. */
  lemma ServerNeverPicksNonPositive(logs: seq<LogRecord>, i: nat)
    requires i < |logs| && (logs[i].count.None? || logs[i].count.value <= 0)
    ensures ServerSelect(logs) != Some(i)
  {
  }

  /** Client and server agree whenever the first record has a count and some count is positive. */
  lemma ServerAgreesWithClient(logs: seq<LogRecord>)
    requires logs != [] && logs[0].count.Some?
    requires exists i :: 0 <= i < |logs| && logs[i].count.Some? && logs[i].count.value > 0
    ensures ServerSelect(logs) == Some(ClientSelect(logs))
  {
    FirstMaxUnique(logs, |logs|, ServerSelect(logs).value, ClientSelect(logs));
  }

  /** `repoController.getHighestCountCommitFromS3`: `logs` is `None` when the
      object cannot be fetched or parsed. The reply copies `commitID`, `message`
      and `date` and reports `maxCount` as the count; `None` is `null`. */
  function HighestCommitRecord(logs: Option<seq<LogRecord>>): (r: Option<LogRecord>)
    ensures r.Some? ==> logs.Some? && exists k :: (0 <= k < |logs.value| && IsFirstMax(logs.value, k) &&
      r.value == LogRecord(logs.value[k].commitID, logs.value[k].message, logs.value[k].date, logs.value[k].count, None))
    ensures r.Some? ==> r.value.count.Some? && r.value.count.value > 0
    ensures r.None? <==> logs.None? || forall i :: 0 <= i < |logs.value| && logs.value[i].count.Some? ==> logs.value[i].count.value <= 0
  {
    match logs
    case None => None
    case Some(rs) =>
      match ServerSelect(rs)
      case None => None
      case Some(k) => Some(LogRecord(rs[k].commitID, rs[k].message, rs[k].date, rs[k].count, None))
  }

  /** `userRepo.getHighestCountCommitFromS3`: only the chosen record's `commitID`
      (itself possibly missing); `None` is `null`. */
  function HighestCommitID(logs: Option<seq<LogRecord>>): (r: Option<Option<string>>)
    ensures r.None? <==> HighestCommitRecord(logs).None?
    ensures r.Some? ==> r.value == HighestCommitRecord(logs).value.commitID
  {
    match logs
    case None => None
    case Some(rs) =>
      match ServerSelect(rs)
      case None => None
      case Some(k) => Some(rs[k].commitID)
  }
}

=== FILE: strings.dfy ===
/**
 * String operations of JavaScript that the controllers rely on, written out over
 * `seq<char>`: `trim()`, `replace(/\s+/g, " ")`, `split(sep)`, `join(sep)`,
 * `includes(sub)` and `replace(/\\/g, "/")`.
 */
module Strings {

  /** The characters JavaScript's `trim()` strips and the regex class `\s` matches:
      the ECMAScript WhiteSpace and LineTerminator code points. */
  const Spaces: string :=
    " \t\n\U{B}\U{C}\r\U{A0}\U{1680}\U{2000}\U{2001}\U{2002}\U{2003}\U{2004}\U{2005}\U{2006}"
    + "\U{2007}\U{2008}\U{2009}\U{200A}\U{2028}\U{2029}\U{202F}\U{205F}\U{3000}\U{FEFF}"

  predicate IsSpace(c: char) {
    Occurs(c, Spaces)
  }

  /** `c in s`, written recursively so that the verifier unfolds it only on demand. */
  predicate Occurs(c: char, s: string)
    decreases |s|
  {
    s != [] && (s[0] == c || Occurs(c, s[1..]))
  }

  /** Printable ASCII characters other than the space are not whitespace. */
  lemma NotSpace(c: char)
    requires 0x21 <= c as int < 0x7F
    ensures !IsSpace(c)
  {
    NotInSpaces(c, Spaces);
  }

  lemma {:induction false} NotInSpaces(c: char, s: string)
    requires 0x21 <= c as int < 0x7F
    requires forall i :: 0 <= i < |s| ==> s[i] as int < 0x21 || s[i] as int >= 0x7F
    ensures !Occurs(c, s)
    decreases |s|
  {
    if s != [] {
      NotInSpaces(c, s[1..]);
    }
  }

  predicate AllSpace(s: string) {
    forall i :: 0 <= i < |s| ==> IsSpace(s[i])
  }

  /** Neither the first nor the last character is whitespace. */
  predicate NoEdgeSpace(s: string) {
    s == [] || (!IsSpace(s[0]) && !IsSpace(s[|s| - 1]))
  }

  /** Every whitespace character is a plain space and none is followed by another. */
  predicate SingleSpaced(s: string) {
    forall i :: 0 <= i < |s| && IsSpace(s[i]) ==> s[i] == ' ' && (i + 1 == |s| || !IsSpace(s[i + 1]))
  }

  /** The non-whitespace characters of `s`, in order. */
  function Strip(s: string): string {
    if s == [] then [] else (if IsSpace(s[0]) then [] else [s[0]]) + Strip(s[1..])
  }

  lemma {:induction false} StripConcat(a: string, b: string)
    ensures Strip(a + b) == Strip(a) + Strip(b)
  {
    if a == [] {
      assert a + b == b;
    } else {
      assert (a + b)[1..] == a[1..] + b;
      StripConcat(a[1..], b);
    }
  }

  lemma {:induction false} StripAllSpace(s: string)
    requires AllSpace(s)
    ensures Strip(s) == []
  {
    if s != [] {
      StripAllSpace(s[1..]);
    }
  }

  /** The end of the run of whitespace that starts at `i`. */
  function SpaceRunEnd(s: string, i: nat): (k: nat)
    requires i <= |s|
    ensures i <= k <= |s|
    ensures forall j :: i <= j < k ==> IsSpace(s[j])
    ensures k == |s| || !IsSpace(s[k])
    decreases |s| - i
  {
    if i < |s| && IsSpace(s[i]) then SpaceRunEnd(s, i + 1) else i
  }

  /** The start of the run of whitespace that ends just before `j`. */
  function SpaceRunStart(s: string, j: nat): (k: nat)
    requires j <= |s|
    ensures k <= j
    ensures forall m :: k <= m < j ==> IsSpace(s[m])
    ensures k == 0 || !IsSpace(s[k - 1])
    decreases j
  {
    if j > 0 && IsSpace(s[j - 1]) then SpaceRunStart(s, j - 1) else j
  }

  /** Dropping a prefix of whitespace does not change the non-whitespace content. */
  lemma {:induction false} StripSkip(s: string, k: nat)
    requires k <= |s|
    requires forall j :: 0 <= j < k ==> IsSpace(s[j])
    ensures Strip(s[k..]) == Strip(s)
    decreases k
  {
    if k > 0 {
      StripSkip(s[1..], k - 1);
      assert s[1..][k - 1..] == s[k..];
    }
  }

  /** Dropping a suffix of whitespace does not change the non-whitespace content. */
  lemma {:induction false} StripCut(s: string, k: nat)
    requires k <= |s|
    requires forall j :: k <= j < |s| ==> IsSpace(s[j])
    ensures Strip(s[..k]) == Strip(s)
    decreases |s|
  {
    if k == 0 {
      StripAllSpace(s);
    } else {
      StripCut(s[1..], k - 1);
      assert s[..k] == [s[0]] + s[1..][..k - 1];
      StripConcat([s[0]], s[1..][..k - 1]);
    }
  }

  /** `trim()`, that is `s.trimStart().trimEnd()`: the factor of `s` left after
      removing the whitespace at both ends. */
  function Trim(s: string): (r: string)
    ensures NoEdgeSpace(r)
    ensures exists i :: 0 <= i <= |s| - |r| && r == s[i..i + |r|] && AllSpace(s[..i]) && AllSpace(s[i + |r|..])
    ensures r == [] <==> AllSpace(s)
    ensures Strip(r) == Strip(s)
  {
    var i := SpaceRunEnd(s, 0);
    if i == |s| then
      assert AllSpace(s[..i]) && AllSpace(s[i..]);
      StripSkip(s, i);
      []
    else
      var j := SpaceRunStart(s, |s|);
      assert i < j;
      StripSkip(s, i);
      StripCut(s[i..], j - i);
      assert s[i..][..j - i] == s[i..j];
      assert AllSpace(s[..i]);
      assert AllSpace(s[j..]);
      s[i..j]
  }

  /** Trimming only removes characters. */
  lemma TrimChars(s: string)
    ensures forall c :: c in Trim(s) ==> c in s
  {
    var i := SpaceRunEnd(s, 0);
    if i < |s| {
      var j := SpaceRunStart(s, |s|);
      assert i < j;
      assert Trim(s) == s[i..j];
    }
  }

  lemma TrimUnchanged(s: string)
    requires NoEdgeSpace(s)
    ensures Trim(s) == s
  {
    if s != [] {
      assert SpaceRunEnd(s, 0) == 0;
      assert SpaceRunStart(s, |s|) == |s|;
    }
  }

  /** What `Collapse` promises about `r` as the collapsed form of `s`. */
  predicate CollapsedOf(r: string, s: string) {
    && |r| <= |s|
    && (r == [] <==> s == [])
    && (s != [] ==> (IsSpace(r[0]) <==> IsSpace(s[0])))
    && (s != [] ==> (IsSpace(r[|r| - 1]) <==> IsSpace(s[|s| - 1])))
    && SingleSpaced(r)
    && Strip(r) == Strip(s)
  }

  /** `replace(/\s+/g, " ")`: every maximal run of whitespace becomes a single
      space; everything else is kept in order. */
  function Collapse(s: string): (r: string)
    ensures CollapsedOf(r, s)
    decreases |s|
  {
    if s == [] then []
    else if IsSpace(s[0]) then
      var k := SpaceRunEnd(s, 0);
      var c := Collapse(s[k..]);
      assert CollapsedOf(c, s[k..]);
      CollapseSpaceStep(s, k, c);
      " " + c
    else
      var c := Collapse(s[1..]);
      assert CollapsedOf(c, s[1..]);
      CollapseCharStep(s, c);
      [s[0]] + c
  }

  lemma CollapseSpaceStep(s: string, k: nat, c: string)
    requires 1 <= k <= |s|
    requires forall j :: 0 <= j < k ==> IsSpace(s[j])
    requires k == |s| || !IsSpace(s[k])
    requires CollapsedOf(c, s[k..])
    ensures CollapsedOf(" " + c, s)
  {
    StripSkip(s, k);
    StripSpaceHead(c);
    var t := s[k..];
    assert t != [] ==> t[0] == s[k] && t[|t| - 1] == s[|s| - 1];
    CollapseSpaceEnds(s, k, c);
    SingleSpacedCons(' ', c);
    var r := " " + c;
    assert c != [] ==> r[|r| - 1] == c[|c| - 1];
  }

  /** The length and end characters across a collapsed run of leading whitespace. */
  lemma CollapseSpaceEnds(s: string, k: nat, c: string)
    requires 1 <= k <= |s|
    requires forall j :: 0 <= j < k ==> IsSpace(s[j])
    requires k == |s| || !IsSpace(s[k])
    requires |c| <= |s| - k && (c == [] <==> k == |s|)
    requires c != [] ==> (IsSpace(c[0]) <==> IsSpace(s[k])) && (IsSpace(c[|c| - 1]) <==> IsSpace(s[|s| - 1]))
    ensures 1 + |c| <= |s|
    ensures c == [] ==> IsSpace(s[|s| - 1])
    ensures c != [] ==> !IsSpace(c[0]) && (IsSpace(c[|c| - 1]) <==> IsSpace(s[|s| - 1]))
  {
  }

  /** A leading space contributes nothing to the non-whitespace content. */
  lemma StripSpaceHead(c: string)
    ensures IsSpace(' ')
    ensures Strip(" " + c) == Strip(c)
  {
    assert (" " + c)[1..] == c;
  }

  lemma CollapseCharStep(s: string, c: string)
    requires s != [] && !IsSpace(s[0])
    requires CollapsedOf(c, s[1..])
    ensures CollapsedOf([s[0]] + c, s)
  {
    var t := s[1..];
    assert t != [] ==> t[0] == s[1] && t[|t| - 1] == s[|s| - 1];
    assert s == [s[0]] + s[1..];
    StripConcat([s[0]], s[1..]);
    StripConcat([s[0]], c);
    SingleSpacedCons(s[0], c);
  }

  /** Putting a character in front of a single-spaced string keeps it single-spaced,
      unless it makes a second space or is whitespace other than a space. */
  lemma SingleSpacedCons(x: char, c: string)
    requires SingleSpaced(c)
    requires IsSpace(x) ==> x == ' ' && (c == [] || !IsSpace(c[0]))
    ensures SingleSpaced([x] + c)
  {
    var r := [x] + c;
    forall i | 0 <= i < |r| && IsSpace(r[i]) ensures r[i] == ' ' && (i + 1 == |r| || !IsSpace(r[i + 1])) {
      if i > 0 { assert r[i] == c[i - 1]; }
    }
  }

  lemma {:induction false} CollapseUnchanged(s: string)
    requires SingleSpaced(s)
    ensures Collapse(s) == s
    decreases |s|
  {
    if s != [] {
      SingleSpacedTail(s);
      CollapseUnchanged(s[1..]);
      if IsSpace(s[0]) {
        CollapseSpaceHead(s);
        assert s == " " + s[1..];
      } else {
        CollapseCharHead(s);
        assert s == [s[0]] + s[1..];
      }
    }
  }

  /** A single space followed by a non-space collapses to one space. */
  lemma CollapseSpaceHead(s: string)
    requires s != [] && SingleSpaced(s) && IsSpace(s[0])
    ensures s[0] == ' '
    ensures Collapse(s) == " " + Collapse(s[1..])
  {
    assert |s| == 1 || !IsSpace(s[1]);
    assert SpaceRunEnd(s, 1) == 1;
    assert SpaceRunEnd(s, 0) == 1;
  }

  lemma CollapseCharHead(s: string)
    requires s != [] && !IsSpace(s[0])
    ensures Collapse(s) == [s[0]] + Collapse(s[1..])
  {
  }

  lemma SingleSpacedTail(s: string)
    requires s != [] && SingleSpaced(s)
    ensures SingleSpaced(s[1..])
  {
    var t := s[1..];
    forall i | 0 <= i < |t| && IsSpace(t[i]) ensures t[i] == ' ' && (i + 1 == |t| || !IsSpace(t[i + 1])) {
      assert t[i] == s[i + 1];
      assert i + 1 < |t| ==> t[i + 1] == s[i + 2];
    }
  }

  /** `s.trim().replace(/\s+/g, " ")`, the normalisation applied to commit
      messages and repository names: the words of `s` joined by single spaces. */
  function Normalize(s: string): (r: string)
    ensures r == [] <==> AllSpace(s)
    ensures NoEdgeSpace(r)
    ensures SingleSpaced(r)
    ensures Strip(r) == Strip(s)
    ensures r == Join(Words(s), ' ')
  {
    NormalizeWords(s);
    Collapse(Trim(s))
  }

  /** A word: a non-empty run of non-whitespace characters. */
  predicate IsWord(w: string) {
    w != [] && forall i :: 0 <= i < |w| ==> !IsSpace(w[i])
  }

  /** The end of the run of non-whitespace that starts at `i`. */
  function WordEnd(s: string, i: nat): (k: nat)
    requires i <= |s|
    ensures i <= k <= |s|
    ensures forall j :: i <= j < k ==> !IsSpace(s[j])
    ensures k == |s| || IsSpace(s[k])
    decreases |s| - i
  {
    if i < |s| && !IsSpace(s[i]) then WordEnd(s, i + 1) else i
  }

  /** The maximal runs of non-whitespace characters of `s`, in order. */
  function Words(s: string): (ws: seq<string>)
    ensures forall i :: 0 <= i < |ws| ==> IsWord(ws[i])
    decreases |s|
  {
    if s == [] then []
    else if IsSpace(s[0]) then Words(s[1..])
    else
      var k := WordEnd(s, 0);
      [s[..k]] + Words(s[k..])
  }

  /** Leading whitespace contributes no word. */
  lemma {:induction false} WordsSkip(s: string, k: nat)
    requires k <= |s|
    requires forall j :: 0 <= j < k ==> IsSpace(s[j])
    ensures Words(s[k..]) == Words(s)
    decreases k
  {
    if k > 0 {
      WordsSkip(s[1..], k - 1);
      assert s[1..][k - 1..] == s[k..];
    }
  }

  lemma {:induction false} WordsAllSpace(s: string)
    requires AllSpace(s)
    ensures Words(s) == []
    decreases |s|
  {
    if s != [] {
      WordsAllSpace(s[1..]);
    }
  }

  /** Trailing whitespace contributes no word. */
  lemma {:induction false} WordsCut(s: string, n: nat)
    requires n <= |s|
    requires forall j :: n <= j < |s| ==> IsSpace(s[j])
    ensures Words(s[..n]) == Words(s)
    decreases |s|
  {
    if n == |s| {
      assert s[..n] == s;
    } else if n == 0 {
      WordsAllSpace(s);
      assert s[..n] == [];
    } else if IsSpace(s[0]) {
      WordsCut(s[1..], n - 1);
      assert s[..n][1..] == s[1..][..n - 1];
    } else {
      var t := s[..n];
      var k := WordEnd(s, 0);
      assert k <= n by {
        assert IsSpace(s[n]);
      }
      WordEndSame(s, t, k);
      WordsCut(s[k..], n - k);
      assert t[..k] == s[..k];
      assert t[k..] == s[k..][..n - k];
    }
  }

  /** `WordEnd` finds the first whitespace at or after `i`. */
  lemma {:induction false} WordEndIs(t: string, i: nat, k: nat)
    requires i <= k <= |t|
    requires forall j :: i <= j < k ==> !IsSpace(t[j])
    requires k == |t| || IsSpace(t[k])
    ensures WordEnd(t, i) == k
    decreases k - i
  {
    if i < k {
      WordEndIs(t, i + 1, k);
    }
  }

  /** A word ending within `t`, a prefix of `s`, ends at the same place in `t`. */
  lemma WordEndSame(s: string, t: string, k: nat)
    requires k <= |t| <= |s| && t == s[..|t|]
    requires forall j :: 0 <= j < k ==> !IsSpace(s[j])
    requires k == |t| || IsSpace(s[k])
    ensures WordEnd(t, 0) == k
  {
    forall j | 0 <= j < k
      ensures !IsSpace(t[j])
    {
      assert t[j] == s[j];
    }
    if k < |t| {
      assert t[k] == s[k];
    }
    WordEndIs(t, 0, k);
  }

  /** `SpaceRunEnd` finds the first non-whitespace at or after `i`. */
  lemma {:induction false} SpaceRunEndIs(t: string, i: nat, k: nat)
    requires i <= k <= |t|
    requires forall j :: i <= j < k ==> IsSpace(t[j])
    requires k == |t| || !IsSpace(t[k])
    ensures SpaceRunEnd(t, i) == k
    decreases k - i
  {
    if i < k {
      SpaceRunEndIs(t, i + 1, k);
    }
  }

  /** Non-whitespace characters are kept as they are. */
  lemma {:induction false} CollapseWord(s: string, k: nat)
    requires k <= |s|
    requires forall j :: 0 <= j < k ==> !IsSpace(s[j])
    ensures Collapse(s) == s[..k] + Collapse(s[k..])
    decreases k
  {
    if k > 0 {
      var t := s[1..];
      CollapseCharHead(s);
      CollapseWord(t, k - 1);
      PrefixCons(s, k);
      Assoc([s[0]], t[..k - 1], Collapse(s[k..]));
    }
  }

  /** How a prefix and a suffix of `s` look from its tail. */
  lemma PrefixCons(s: string, k: nat)
    requires 1 <= k <= |s|
    ensures s[..k] == [s[0]] + s[1..][..k - 1]
    ensures s[1..][k - 1..] == s[k..]
  {
  }

  lemma Assoc<T>(a: seq<T>, b: seq<T>, c: seq<T>)
    ensures a + (b + c) == (a + b) + c
  {
  }

  /** A run of whitespace collapses to one space. */
  lemma CollapseRun(s: string, m: nat)
    requires 1 <= m <= |s|
    requires forall j :: 0 <= j < m ==> IsSpace(s[j])
    requires m == |s| || !IsSpace(s[m])
    ensures Collapse(s) == " " + Collapse(s[m..])
  {
    SpaceRunEndIs(s, 0, m);
  }

  /** Joining one more word in front adds it and a space. */
  lemma JoinCons(w: string, ws: seq<string>, sep: char)
    requires ws != []
    ensures Join([w] + ws, sep) == w + [sep] + Join(ws, sep)
  {
    assert ([w] + ws)[1..] == ws;
  }

  /** A string without edge whitespace collapses to its words joined by spaces. */
  lemma {:induction false} CollapseWords(s: string)
    requires NoEdgeSpace(s)
    ensures Collapse(s) == Join(Words(s), ' ')
    decreases |s|
  {
    if s != [] {
      var k := WordEnd(s, 0);
      if k == |s| {
        CollapseOneWord(s);
      } else {
        var t := s[k..];
        var m := SpaceRunEnd(t, 0);
        assert m < |t| by {
          assert t[|t| - 1] == s[|s| - 1];
        }
        var u := t[m..];
        assert NoEdgeSpace(u) by {
          assert u[|u| - 1] == s[|s| - 1];
        }
        CollapseWords(u);
        CollapseWordsStep(s, k, m);
      }
    }
  }

  /** A string that is one word collapses to itself. */
  lemma CollapseOneWord(s: string)
    requires s != [] && WordEnd(s, 0) == |s|
    ensures Collapse(s) == Join(Words(s), ' ')
  {
    CollapseNoSpace(s);
    WordsOne(s);
  }

  lemma CollapseNoSpace(s: string)
    requires WordEnd(s, 0) == |s|
    ensures Collapse(s) == s
  {
    CollapseWord(s, |s|);
    assert s[..|s|] == s;
    assert s[|s|..] == [];
  }

  lemma WordsOne(s: string)
    requires s != [] && WordEnd(s, 0) == |s|
    ensures Words(s) == [s]
  {
    var k := WordEnd(s, 0);
    assert Words(s) == [s[..k]] + Words(s[k..]);
    assert s[..k] == s;
    assert s[k..] == [];
  }

  /** One step of `CollapseWords`: a word, a run of whitespace, and the rest. */
  lemma CollapseWordsStep(s: string, k: nat, m: nat)
    requires s != [] && !IsSpace(s[0])
    requires k == WordEnd(s, 0) < |s|
    requires m == SpaceRunEnd(s[k..], 0) < |s| - k
    requires Collapse(s[k..][m..]) == Join(Words(s[k..][m..]), ' ')
    ensures Collapse(s) == Join(Words(s), ' ')
  {
    var w, u := s[..k], s[k..][m..];
    var ws, c := Words(u), Collapse(u);
    assert Collapse(s) == w + (" " + c) by {
      CollapseStep(s, k, m);
    }
    assert Words(s) == [w] + ws && ws != [] by {
      WordsStep(s, k, m);
    }
    assert Join([w] + ws, ' ') == w + [' '] + Join(ws, ' ') by {
      JoinCons(w, ws, ' ');
    }
    Assoc(w, " ", c);
  }

  /** A word, a run of whitespace, and the rest collapse to the word, one space
      and the collapsed rest. */
  lemma CollapseStep(s: string, k: nat, m: nat)
    requires k == WordEnd(s, 0) < |s|
    requires m == SpaceRunEnd(s[k..], 0) < |s| - k
    ensures Collapse(s) == s[..k] + (" " + Collapse(s[k..][m..]))
  {
    CollapseFirstWord(s, k);
    CollapseFirstRun(s[k..], m);
  }

  /** The first word of `s` is kept as it is. */
  lemma CollapseFirstWord(s: string, k: nat)
    requires k == WordEnd(s, 0)
    ensures Collapse(s) == s[..k] + Collapse(s[k..])
  {
    CollapseWord(s, k);
  }

  /** A leading run of whitespace that stops before the end becomes one space. */
  lemma CollapseFirstRun(t: string, m: nat)
    requires m == SpaceRunEnd(t, 0) < |t|
    requires t != [] && IsSpace(t[0])
    ensures Collapse(t) == " " + Collapse(t[m..])
  {
    CollapseRun(t, m);
  }

  /** The words of a word, a run of whitespace, and the rest. */
  lemma WordsStep(s: string, k: nat, m: nat)
    requires s != [] && !IsSpace(s[0])
    requires k == WordEnd(s, 0) < |s|
    requires m == SpaceRunEnd(s[k..], 0) < |s| - k
    ensures Words(s) == [s[..k]] + Words(s[k..][m..])
    ensures Words(s[k..][m..]) != []
  {
    var t := s[k..];
    var u := t[m..];
    assert Words(s) == [s[..k]] + Words(t);
    assert Words(t) == Words(u) by {
      WordsSkip(t, m);
    }
    assert u != [] && !IsSpace(u[0]);
  }

  /** The normalised form is the words joined by single spaces. */
  lemma NormalizeWords(s: string)
    ensures Collapse(Trim(s)) == Join(Words(s), ' ')
  {
    var t := Trim(s);
    assert Collapse(t) == Join(Words(t), ' ') by {
      CollapseWords(t);
    }
    assert Words(t) == Words(s) by {
      TrimWords(s);
    }
  }

  /** Trimming does not change the words. */
  lemma TrimWords(s: string)
    ensures Words(Trim(s)) == Words(s)
  {
    if SpaceRunEnd(s, 0) == |s| {
      TrimWordsBlank(s);
    } else {
      TrimWordsInner(s);
    }
  }

  lemma TrimWordsBlank(s: string)
    requires SpaceRunEnd(s, 0) == |s|
    ensures Words(Trim(s)) == Words(s)
  {
    WordsSkip(s, |s|);
    assert s[|s|..] == [];
  }

  lemma TrimWordsInner(s: string)
    requires SpaceRunEnd(s, 0) < |s|
    ensures Words(Trim(s)) == Words(s)
  {
    var i := SpaceRunEnd(s, 0);
    var j := SpaceRunStart(s, |s|);
    assert i < j && Trim(s) == s[i..j] by {
      TrimInner(s);
    }
    InnerWords(s, i, j);
  }

  /** `Trim` of a string that is not all whitespace. */
  lemma TrimInner(s: string)
    requires SpaceRunEnd(s, 0) < |s|
    ensures SpaceRunEnd(s, 0) < SpaceRunStart(s, |s|)
    ensures Trim(s) == s[SpaceRunEnd(s, 0)..SpaceRunStart(s, |s|)]
  {
  }

  /** Whitespace around `s[i..j]` contributes no word. */
  lemma InnerWords(s: string, i: nat, j: nat)
    requires i <= j <= |s|
    requires forall k :: 0 <= k < i ==> IsSpace(s[k])
    requires forall k :: j <= k < |s| ==> IsSpace(s[k])
    ensures Words(s[i..j]) == Words(s)
  {
    var a := s[i..];
    assert Words(a) == Words(s) by {
      WordsSkip(s, i);
    }
    assert Words(s[i..j]) == Words(a) by {
      SliceOfSuffix(s, i, j);
      WordsCut(a, j - i);
    }
  }

  lemma SliceOfSuffix(s: string, i: nat, j: nat)
    requires i <= j <= |s|
    ensures s[i..][..j - i] == s[i..j]
    ensures forall k :: j - i <= k < |s| - i ==> s[i..][k] == s[k + i]
  {
  }

  /** Normalising a normalised string changes nothing. */
  lemma NormalizeIdempotent(s: string)
    ensures Normalize(Normalize(s)) == Normalize(s)
  {
    var n := Normalize(s);
    TrimUnchanged(n);
    CollapseUnchanged(n);
  }

  /** The normal forms are exactly the strings without edge spaces and without
      runs of spaces. */
  lemma NormalizeFixed(s: string)
    ensures Normalize(s) == s <==> NoEdgeSpace(s) && SingleSpaced(s)
  {
    if NoEdgeSpace(s) && SingleSpaced(s) {
      TrimUnchanged(s);
      CollapseUnchanged(s);
    }
  }

  /** JavaScript's `s.split(sep)` for a one-character separator: the pieces
      between separators, including empty ones. */
  function Split(s: string, sep: char): (parts: seq<string>)
    ensures |parts| >= 1
    ensures forall i :: 0 <= i < |parts| ==> sep !in parts[i]
    decreases |s|
  {
    if s == [] then [[]]
    else
      var rest := Split(s[1..], sep);
      if s[0] == sep then [[]] + rest
      else [[s[0]] + rest[0]] + rest[1..]
  }

  /** Two separator-free pieces joined by the separator split back into those pieces. */
  lemma SplitPair(a: string, b: string, sep: char)
    requires sep !in a && sep !in b
    ensures Split(a + [sep] + b, sep) == [a, b]
  {
    SplitConcat(a, b, sep);
    SplitNoSep(a, sep);
    SplitNoSep(b, sep);
  }

  /** JavaScript's `parts.join(sep)`. */
  function Join(parts: seq<string>, sep: char): string
  {
    if |parts| == 0 then []
    else if |parts| == 1 then parts[0]
    else parts[0] + [sep] + Join(parts[1..], sep)
  }

  /** Joining the pieces of a split gives back the original string. */
  lemma {:induction false} JoinSplit(s: string, sep: char)
    ensures Join(Split(s, sep), sep) == s
    decreases |s|
  {
    if s != [] {
      var rest := Split(s[1..], sep);
      JoinSplit(s[1..], sep);
      if s[0] == sep {
        assert ([[]] + rest)[1..] == rest;
      } else if |rest| == 1 {
        assert s == [s[0]] + s[1..];
      } else {
        var parts := [[s[0]] + rest[0]] + rest[1..];
        assert parts[1..] == rest[1..];
        assert Join(rest, sep) == rest[0] + [sep] + Join(rest[1..], sep);
        assert s == [s[0]] + s[1..];
      }
    }
  }

  lemma {:induction false} SplitNoSep(s: string, sep: char)
    requires sep !in s
    ensures Split(s, sep) == [s]
    decreases |s|
  {
    if s != [] {
      SplitNoSep(s[1..], sep);
      assert s == [s[0]] + s[1..];
    }
  }

  /** Splitting at a separator splits the two sides independently. */
  lemma {:induction false} SplitConcat(a: string, b: string, sep: char)
    ensures Split(a + [sep] + b, sep) == Split(a, sep) + Split(b, sep)
    decreases |a|
  {
    var s := a + [sep] + b;
    if a == [] {
      assert s[1..] == b;
    } else {
      assert s[1..] == a[1..] + [sep] + b;
      SplitConcat(a[1..], b, sep);
    }
  }

  /** Splitting the join of separator-free pieces gives back the pieces. */
  lemma {:induction false} SplitJoin(parts: seq<string>, sep: char)
    requires |parts| >= 1
    requires forall i :: 0 <= i < |parts| ==> sep !in parts[i]
    ensures Split(Join(parts, sep), sep) == parts
    decreases |parts|
  {
    if |parts| == 1 {
      SplitNoSep(parts[0], sep);
    } else {
      SplitJoin(parts[1..], sep);
      SplitConcat(parts[0], Join(parts[1..], sep), sep);
      SplitNoSep(parts[0], sep);
      assert parts == [parts[0]] + parts[1..];
    }
  }

  /** Joining one more piece adds a separator and the piece. */
  lemma {:induction false} JoinAppend(parts: seq<string>, last: string, sep: char)
    requires parts != []
    ensures Join(parts + [last], sep) == Join(parts, sep) + [sep] + last
    decreases |parts|
  {
    if |parts| > 1 {
      assert (parts + [last])[1..] == parts[1..] + [last];
      JoinAppend(parts[1..], last, sep);
    }
  }

  /** JavaScript's `s.includes(sub)`. */
  predicate Contains(s: string, sub: string)
    ensures Contains(s, sub) <==> exists i :: 0 <= i <= |s| && sub <= s[i..]
    decreases |s|
  {
    if sub <= s then
      assert sub <= s[0..];
      true
    else if s == [] then false
    else
      var b := Contains(s[1..], sub);
      assert forall i :: 1 <= i <= |s| ==> s[i..] == s[1..][i - 1..];
      assert b ==> exists i :: 0 <= i <= |s| && sub <= s[i..];
      b
  }

  /** `s.replace(/<from>/g, <to>)` for single characters. */
  function ReplaceChar(s: string, from: char, to: char): (r: string)
    ensures |r| == |s|
    ensures forall i :: 0 <= i < |s| ==> r[i] == (if s[i] == from then to else s[i])
  {
    if s == [] then [] else [if s[0] == from then to else s[0]] + ReplaceChar(s[1..], from, to)
  }
}

=== FILE: tracker.dfy ===
/**
 * The file watcher: a map from relative path to content hash, kept in
 * `.myGit/snapshot.json` and updated on add, change and unlink events.
 */
module Tracker {
  import opened Wrappers
  import opened Strings

  /** `snapshot.json`: missing, not valid JSON, or a map from path to hash. */
  datatype SnapshotFile = Absent | Corrupt | Saved(hashes: map<string, string>)

  /** `loadSnapshot`: a missing file is the empty map; a corrupt one throws. */
  function LoadSnapshot(f: SnapshotFile): (r: Result<map<string, string>, string>)
    ensures f.Absent? ==> r == Success(map[])
    ensures r.Failure? <==> f.Corrupt?
    ensures f.Saved? ==> r == Success(f.hashes)
  {
    match f
    case Absent => Success(map[])
    case Corrupt => Failure("Unexpected token in JSON")
    case Saved(m) => Success(m)
  }

  /** The in-memory snapshot and the file as last written. */
  datatype Watcher = Watcher(snapshot: map<string, string>, file: SnapshotFile)

  /** A chokidar event with the path relative to the working directory. For
      add and change, `isFile` is what `stat` reports and `hash` the contents. */
  datatype Event =
    | Added(rel: string, isFile: bool, hash: string)
    | Changed(rel: string, isFile: bool, hash: string)
    | Unlinked(rel: string)

  /** The handlers: add stores the hash, change stores it only when it differs,
      unlink deletes the key; each update saves the whole snapshot. */
  function OnEvent(w: Watcher, e: Event): (r: Watcher)
    ensures e.Added? && e.isFile ==> r.snapshot == w.snapshot[e.rel := e.hash] && r.file == Saved(r.snapshot)
    ensures (e.Added? || e.Changed?) && !e.isFile ==> r == w
    ensures e.Changed? && e.isFile ==> r.snapshot == w.snapshot[e.rel := e.hash]
    ensures e.Changed? && e.isFile ==> (r == w <==> e.rel in w.snapshot && w.snapshot[e.rel] == e.hash)
    ensures e.Unlinked? ==> r.snapshot == w.snapshot - {e.rel} && r.file == Saved(r.snapshot)
    ensures forall k :: k != e.rel ==> (k in r.snapshot <==> k in w.snapshot) && (k in w.snapshot ==> r.snapshot[k] == w.snapshot[k])
  {
    match e
    case Added(rel, isFile, hash) =>
      if !isFile then w else var s := w.snapshot[rel := hash]; Watcher(s, Saved(s))
    case Changed(rel, isFile, hash) =>
      if !isFile then w
      else if rel in w.snapshot && w.snapshot[rel] == hash then w
      else var s := w.snapshot[rel := hash]; Watcher(s, Saved(s))
    case Unlinked(rel) =>
      var s := w.snapshot - {rel}; Watcher(s, Saved(s))
  }

  /** The events in order. */
  function Replay(w: Watcher, es: seq<Event>): (r: Watcher)
    decreases |es|
  {
    if es == [] then w else Replay(OnEvent(w, es[0]), es[1..])
  }

  /** The file agrees with memory once anything has been saved. */
  predicate InSync(w: Watcher) {
    w.file == Saved(w.snapshot)
  }

  /** Every event keeps the file in step with memory. */
  lemma {:induction false} ReplayKeepsSync(w: Watcher, es: seq<Event>)
    requires InSync(w)
    ensures InSync(Replay(w, es))
    decreases |es|
  {
    if es != [] {
      ReplayKeepsSync(OnEvent(w, es[0]), es[1..]);
    }
  }

  /** A key not named by any event keeps its hash. */
  lemma {:induction false} ReplayUntouched(w: Watcher, es: seq<Event>, k: string)
    requires forall i :: 0 <= i < |es| ==> es[i].rel != k
    ensures k in Replay(w, es).snapshot <==> k in w.snapshot
    ensures k in w.snapshot ==> Replay(w, es).snapshot[k] == w.snapshot[k]
    decreases |es|
  {
    if es != [] {
      ReplayUntouched(OnEvent(w, es[0]), es[1..], k);
    }
  }

  /** A repeated change event has no further effect. */
  lemma ChangeIdempotent(w: Watcher, rel: string, hash: string)
    ensures OnEvent(OnEvent(w, Changed(rel, true, hash)), Changed(rel, true, hash)) == OnEvent(w, Changed(rel, true, hash))
  {
  }

  /** Unlinking a file undoes adding it, in memory. */
  lemma UnlinkUndoesAdd(w: Watcher, rel: string, hash: string)
    requires rel !in w.snapshot
    ensures Replay(w, [Added(rel, true, hash), Unlinked(rel)]).snapshot == w.snapshot
  {
    var es := [Added(rel, true, hash), Unlinked(rel)];
    var w1 := OnEvent(w, es[0]);
    var w2 := OnEvent(w1, Unlinked(rel));
    assert es[1..] == [Unlinked(rel)];
    assert [Unlinked(rel)][1..] == [];
    assert Replay(w1, [Unlinked(rel)]) == Replay(w2, []) == w2;
    assert w.snapshot[rel := hash] - {rel} == w.snapshot;
  }

  /** The separators the ignore regexes accept: `[\/\\]`. */
  predicate Sep(c: char) {
    c == '/' || c == '\\'
  }

  predicate NoSep(s: string) {
    forall i :: 0 <= i < |s| ==> !Sep(s[i])
  }

  /** `(^|[\/\\])<name>([\/\\]|$)` matches with `name` starting at `i`. */
  predicate MatchAt(s: string, name: string, i: nat) {
    i + |name| <= |s| && (i == 0 || Sep(s[i - 1])) && s[i..i + |name|] == name &&
    (i + |name| == |s| || Sep(s[i + |name|]))
  }

  predicate Matches(s: string, name: string) {
    exists i: nat :: i <= |s| && MatchAt(s, name, i)
  }

  /** The watcher's `ignored` list: `.myGit`, `node_modules` and `.git`. */
  predicate Ignored(path: string) {
    Matches(path, ".myGit") || Matches(path, "node_modules") || Matches(path, ".git")
  }

  /** Chokidar calls no handler for an ignored path. */
  function Watch(w: Watcher, path: string, e: Event): (r: Watcher)
    ensures Ignored(path) ==> r == w
    ensures !Ignored(path) ==> r == OnEvent(w, e)
  {
    if Ignored(path) then w else OnEvent(w, e)
  }

  /** A match inside the first, separator-free segment must be the whole segment. */
  lemma HeadMatch(s: string, a: string, name: string, i: nat)
    requires NoSep(a) && NoSep(name) && name != []
    requires a <= s && (|s| == |a| || s[|a|] == '/')
    requires i <= |a| && MatchAt(s, name, i)
    ensures i == 0 && name == a
  {
    assert forall k :: 0 <= k < |a| ==> s[k] == a[k];
    assert forall k :: 0 <= k < |name| ==> s[i + k] == name[k];
  }

  /** A match after the first separator is a match in the rest. */
  lemma ShiftMatch(a: string, b: string, name: string, j: nat)
    ensures MatchAt(a + "/" + b, name, |a| + 1 + j) <==> MatchAt(b, name, j)
  {
    var s := a + "/" + b;
    var i := |a| + 1 + j;
    if i + |name| <= |s| {
      assert s[i..i + |name|] == b[j..j + |name|];
      assert s[i - 1] == if j == 0 then '/' else b[j - 1];
      if i + |name| < |s| {
        assert s[i + |name|] == b[j + |name|];
      }
    }
  }

  /** The ignore regexes match exactly the paths that have `name` as a whole
      segment. */
  lemma SegmentMatch(segs: seq<string>, name: string)
    requires segs != [] && forall k :: 0 <= k < |segs| ==> NoSep(segs[k])
    requires NoSep(name) && name != []
    ensures Matches(Join(segs, '/'), name) <==> name in segs
  {
    if Matches(Join(segs, '/'), name) {
      MatchIsSegment(segs, name);
    }
    if name in segs {
      SegmentIsMatch(segs, name);
    }
  }

  lemma {:induction false} MatchIsSegment(segs: seq<string>, name: string)
    requires segs != [] && forall k :: 0 <= k < |segs| ==> NoSep(segs[k])
    requires NoSep(name) && name != []
    requires Matches(Join(segs, '/'), name)
    ensures name in segs
    decreases |segs|
  {
    var s := Join(segs, '/');
    var a := segs[0];
    var i: nat :| i <= |s| && MatchAt(s, name, i);
    if |segs| == 1 {
      HeadMatch(s, a, name, i);
    } else {
      var b := Join(segs[1..], '/');
      assert s == a + "/" + b;
      if i <= |a| {
        HeadMatch(s, a, name, i);
      } else {
        ShiftMatch(a, b, name, i - |a| - 1);
        MatchIsSegment(segs[1..], name);
      }
    }
  }

  lemma {:induction false} SegmentIsMatch(segs: seq<string>, name: string)
    requires segs != [] && name in segs
    ensures Matches(Join(segs, '/'), name)
    decreases |segs|
  {
    var s := Join(segs, '/');
    var a := segs[0];
    if |segs| == 1 {
      assert MatchAt(s, name, 0);
    } else {
      var b := Join(segs[1..], '/');
      assert s == a + "/" + b;
      if name == a {
        assert s[0..|name|] == a;
        assert MatchAt(s, name, 0);
      } else {
        assert name in segs[1..];
        SegmentIsMatch(segs[1..], name);
        var j: nat :| j <= |b| && MatchAt(b, name, j);
        ShiftMatch(a, b, name, j);
        assert MatchAt(s, name, |a| + 1 + j);
      }
    }
  }

  /** A segment match is in particular a substring match. */
  lemma SegmentImpliesSubstring(s: string, name: string)
    requires Matches(s, name)
    ensures Contains(s, name)
  {
    var i: nat :| i <= |s| && MatchAt(s, name, i);
    assert name <= s[i..];
  }

  /** Unlike the add controller's substring test, `.git` does not ignore `.github`. */
  lemma GithubNotIgnored()
    ensures !Matches(Join(["src", ".github", "ci.yml"], '/'), ".git")
    ensures Matches(Join(["src", ".git", "HEAD"], '/'), ".git")
  {
    NoSepLiteral();
    SegmentMatch(["src", ".github", "ci.yml"], ".git");
    SegmentMatch(["src", ".git", "HEAD"], ".git");
  }

  lemma NoSepLiteral()
    ensures NoSep("src") && NoSep(".github") && NoSep("ci.yml") && NoSep(".git") && NoSep("HEAD")
  {
  }
}

=== FILE: userrepo.dfy ===
/**
 * The server's user-repository helpers: the commit manifests fetched so far
 * are collected in `commitDataArray`.
 */
module UserRepo {
  import opened Wrappers
  import Pull

  /** `fetchAndProcessCommitDataFromS3`: on success the manifest is returned and
      appended to the array; on failure `{}` is returned and the array is kept. */
  function FetchCommitData(repo: string, commitID: string, manifests: map<string, Pull.Manifest>,
                           collected: seq<Pull.Manifest>): (r: (Pull.Manifest, seq<Pull.Manifest>))
    ensures Pull.ManifestKey(repo, commitID) in manifests ==>
      r.0 == manifests[Pull.ManifestKey(repo, commitID)] && r.1 == collected + [r.0]
    ensures Pull.ManifestKey(repo, commitID) !in manifests ==> r.0 == [] && r.1 == collected
  {
    var key := Pull.ManifestKey(repo, commitID);
    if key in manifests then (manifests[key], collected + [manifests[key]]) else ([], collected)
  }

  /** The number of successful fetches in a run of requests. */
  function Successes(repo: string, ids: seq<string>, manifests: map<string, Pull.Manifest>): nat
    decreases |ids|
  {
    if ids == [] then 0
    else (if Pull.ManifestKey(repo, ids[0]) in manifests then 1 else 0) + Successes(repo, ids[1..], manifests)
  }

  /** Running the requests in order. */
  function FetchAll(repo: string, ids: seq<string>, manifests: map<string, Pull.Manifest>,
                    collected: seq<Pull.Manifest>): seq<Pull.Manifest>
    decreases |ids|
  {
    if ids == [] then collected
    else FetchAll(repo, ids[1..], manifests, FetchCommitData(repo, ids[0], manifests, collected).1)
  }

  /** The array grows by exactly one entry per successful fetch and keeps what it had. */
  lemma {:induction false} FetchAllGrows(repo: string, ids: seq<string>, manifests: map<string, Pull.Manifest>,
                                         collected: seq<Pull.Manifest>)
    ensures |FetchAll(repo, ids, manifests, collected)| == |collected| + Successes(repo, ids, manifests)
    ensures collected <= FetchAll(repo, ids, manifests, collected)
    decreases |ids|
  {
    if ids != [] {
      var next := FetchCommitData(repo, ids[0], manifests, collected).1;
      FetchAllGrows(repo, ids[1..], manifests, next);
    }
  }
}

=== FILE: wrappers.dfy ===
/** Failure-carrying result types shared by every module of the model. */
module Wrappers {

  /** A value that may be absent: JavaScript's `undefined`/`null` or a missing file. */
  datatype Option<+T> = None | Some(value: T)

  /** The outcome of an operation that can fail with a user-visible error. */
  datatype Result<+R, +E> = Success(value: R) | Failure(error: E)
}
